=== FILE: README.md ===
# AddisHomes: a Dafny model of the real-estate bot's core

AddisHomes is a real-estate marketplace for Ethiopia run through a Telegram bot.
Brokers submit listings (type, rooms, size, region, price, at least three photos,
a description). An admin approves or rejects each one. Buyers browse the approved
listings or search them with a short chat of filter questions. Accounts are
created on first contact from Telegram. One placeholder admin account, made at
start-up, is claimed by the first unknown Telegram user. Listings and accounts
live in a MySQL database.

This project models that core in Dafny:

- the domain records and their validation;
- the error taxonomy;
- the translator;
- the keyboards and the listing card;
- the MySQL repository, as an in-memory store with one map per table;
- the listing and account use cases;
- the four groups of chat handlers, acting on a chat's `user_data`.

The model follows the source's own form:

- **Classes:** the repository, the use cases and `user_data` are classes whose
  methods update fields in place.
- **Step-by-step methods:** the handlers are methods that change the session
  step by step. So are the list-building loops of the repository (the WHERE
  clause, the SET clauses, the role set) and the detail list of the card.
- **Functions:** the data tables, parsers and translations are functions.

Each method is proved against a specification:

- the listings a query selects;
- the record a moderation action produces;
- the draft fields a submission step has collected.

The properties of those specifications are proved as lemmas.

One module per source file:

| module | file |
|---|---|
| `Wrappers`, `Text` | Option/Result, and the Python string operations the core uses |
| `Exceptions` | `src/utils/exceptions.py` |
| `CommonModels`, `PropertyModels`, `CarModels`, `UserModels` | `src/domain/models/*.py` |
| `Constants` | `src/utils/constants.py` |
| `Auth` | `src/utils/auth_utils.py` |
| `I18n` | `src/utils/i18n.py` |
| `Keyboards` | `src/infrastructure/telegram_bot/keyboards.py` |
| `Display` | `src/utils/display_utils.py` |
| `RepoQueries`, `Repository` | `src/infrastructure/repository/mysql_repo.py` |
| `Listings` | `src/use_cases/property_use_cases.py` |
| `Accounts` | `src/use_cases/user_use_cases.py` |
| `BotSession` | `context.user_data` and the handler outcome |
| `CommonHandlers`, `BrokerHandlers`, `BuyerHandlers`, `AdminHandlers` | `src/infrastructure/telegram_bot/handlers/*.py` |

Two things that cannot be computed here are parameters:

- **Fresh ids.** The random `uuid4` ids are given by the caller and required to
  be fresh.
- **Libraries.** bcrypt is a `Crypt` value, a hash and a verifier, assumed
  correct only where a lemma says so.

Python's `float` is the parameter of the price step. The size table
`SIZE_RANGES` is the parameter of the size step.

## Model

| member | source | states |
|---|---|---|
| Exceptions.NewPlatformError | src/utils/exceptions.py:8-10 | the message is the given one, else "An application-specific error occurred." |
| Exceptions.NewDatabaseError | src/utils/exceptions.py:12-15 | the message is the given one, else the database default text |
| Exceptions.NewNotFoundError | src/utils/exceptions.py:17-19 | a not-found error, with the base class's default message |
| Exceptions.NewInvalidOperationError | src/utils/exceptions.py:33-36 | not a not-found error; the message is the given one or "This operation is not permitted." |
| Exceptions.NewTelegramApiError | src/utils/exceptions.py:38-40 | the message is the given one, else the Telegram default text |
| Exceptions.HttpStatus | src/app/main.py:28-30 | the status is 404 exactly for not-found errors, 500 for every other application error |
| Exceptions.NotFoundMessageIdentifies | src/utils/exceptions.py:21-31 | "Could not find user: id." and "Could not find property: id." never coincide for different errors: the message identifies the kind and the id |
| CommonModels.ParseUserRole | src/domain/models/common_models.py:5-8 | `UserRole(s)` succeeds exactly on "buyer", "broker", "admin", and the parsed role's value is `s` |
| CommonModels.ParsePropertyType | src/domain/models/common_models.py:10-16 | exact, case-sensitive match on the six type strings, and the parsed type's value is `s` |
| CommonModels.ParsePropertyStatus | src/domain/models/common_models.py:18-22 | exact match on the four status strings, and the parsed status's value is `s` |
| CommonModels.ParseCondoScheme | src/domain/models/common_models.py:30-33 | exact match on "20/80", "40/60", "10/90" |
| CommonModels.ParseFurnishingStatus | src/domain/models/common_models.py:35-38 | exact match on the three furnishing strings |
| CommonModels.AllPropertyTypes | src/domain/models/common_models.py:10-16 | iterating the enum yields six distinct types |
| CommonModels.AllPropertyTypesComplete | src/domain/models/common_models.py:10-16 | every type is among them |
| CommonModels.AllPropertyStatuses | src/domain/models/common_models.py:18-22 | iterating the enum yields four distinct statuses |
| CommonModels.AllPropertyStatusesComplete | src/domain/models/common_models.py:18-22 | every status is among them |
| CommonModels.AllCondoSchemes | src/domain/models/common_models.py:30-33 | iterating the enum yields three schemes with distinct strings |
| CommonModels.AllCondoSchemesComplete | src/domain/models/common_models.py:30-33 | every scheme is among them |
| CommonModels.AllFurnishingStatuses | src/domain/models/common_models.py:35-38 | the three furnishing states, distinct |
| CommonModels.AllFurnishingStatusesComplete | src/domain/models/common_models.py:35-38 | every furnishing state is among them |
| CommonModels.PropertyTypeValueInjective | src/domain/models/common_models.py:10-16 | two types with the same string are the same type |
| CommonModels.UserRoleValueInjective | src/domain/models/common_models.py:5-8 | two roles with the same string are the same role |
| CommonModels.RoleValueHasNoComma | src/domain/models/common_models.py:5-8 | no role string holds ',', the separator of the roles column |
| PropertyModels.ValidatePropertyCreate | src/domain/models/property_models.py:6-31 | accepted exactly when bedrooms, bathrooms, size and price are positive and there are at least three image URLs; then the record itself, else the failing field's name |
| PropertyModels.DefaultFilterIsEmpty | src/domain/models/property_models.py:44-57 | `PropertyFilter()` sets no criterion and is the only filter that sets none |
| CarModels.ValidateCarCreate | src/domain/models/car_models.py:23-51 | accepted exactly when the price is positive; no photo minimum |
| CarModels.ValidateCarFilter | src/domain/models/car_models.py:64-67 | accepted exactly when each given price bound is positive |
| CarModels.AllCarStatuses | src/domain/models/car_models.py:16-20 | four distinct car statuses |
| CarModels.AllCarStatusesComplete | src/domain/models/car_models.py:16-20 | every car status is among them |
| Constants.CodesAreDistinct | src/utils/constants.py:31-46 | the eighteen states are 0..17, `END` is -1, and no two states share a code |
| Auth.CodePoints | src/utils/auth_utils.py:10-16 | a Dafny string is a surrogate-free sequence of code points of the same length |
| Auth.CharLen | src/utils/auth_utils.py:14 | UTF-8 uses one to four bytes per code point |
| Auth.CharBytes | src/utils/auth_utils.py:14 | the encoding of one code point has `CharLen` bytes, each below 256 |
| Auth.Encode | src/utils/auth_utils.py:14 | the encoding's length is the sum of the characters' lengths |
| Auth.EncodeAppend | src/utils/auth_utils.py:14 | encoding distributes over concatenation |
| Auth.FitBytes | src/utils/auth_utils.py:14 | the kept characters are a prefix of the input whose encoding fits in the byte budget |
| Auth.TruncateBcrypt | src/utils/auth_utils.py:10-16 | the result is a prefix of the password; with no surrogate it encodes to at most 72 bytes; with a lone surrogate it is the first 72 characters |
| Auth.FitBytesKeepsShort | src/utils/auth_utils.py:14 | a string that fits the budget is kept whole |
| Auth.ShortPasswordUnchanged | src/utils/auth_utils.py:10-16 | a password of at most 72 bytes comes back unchanged |
| Auth.FitBytesMaximal | src/utils/auth_utils.py:14 | the next character, if any, would cross the budget |
| Auth.TruncationIsMaximal | src/utils/auth_utils.py:10-16 | the cut falls as late as whole characters allow |
| Auth.TruncatedBytesArePrefix | src/utils/auth_utils.py:14 | the kept characters encode to a prefix of the password's encoding, of at most 72 bytes |
| Auth.TruncateIdempotent | src/utils/auth_utils.py:10-16 | for an encodable password, truncating twice is truncating once |
| Auth.SurrogateTruncationNotIdempotent | src/utils/auth_utils.py:15-16 | with a lone surrogate, a second truncation can cut further: 72 two-byte characters then a surrogate |
| Auth.FitRepeated | src/utils/auth_utils.py:14 | n copies of a two-byte character keep half the budget of them |
| Auth.HashPassword | src/utils/auth_utils.py:18-19 | bcrypt of the truncated password; a surrogate-free password of at most 72 bytes is hashed as given |
| Auth.VerifyPassword | src/utils/auth_utils.py:21-22 | bcrypt's check of the truncated password; a surrogate-free password of at most 72 bytes is checked as given |
| Auth.HashThenVerify | src/utils/auth_utils.py:18-22 | with a correct bcrypt, a password verifies against its own hash |
| Auth.SameTruncationSameVerdict | src/utils/auth_utils.py:18-22 | passwords with the same truncation get the same verdict against any hash |
| Auth.AccessTokenClaims | src/utils/auth_utils.py:24-30 | the claims are the input with "exp" set to now plus the delta, or plus 30 minutes when the delta is absent or zero |
| I18n.FormatPlain | src/utils/i18n.py:226 | a template without braces formats to itself |
| I18n.FormatField | src/utils/i18n.py:226 | a `{name}` field is replaced by its argument, and the rest formats on its own |
| I18n.TableFor | src/utils/i18n.py:213 | the language's own table when it has one, else English |
| I18n.TranslatesFromOwnTable | src/utils/i18n.py:213-226 | a key of the chosen table gives that table's message, formatted |
| I18n.UnknownLanguageIsEnglish | src/utils/i18n.py:213 | an unknown language code translates exactly as English |
| I18n.FallsBackToEnglish | src/utils/i18n.py:216-218 | a key the chosen table lacks but English has gives the English message |
| I18n.MissingKeyIsNeverFormatted | src/utils/i18n.py:220-224 | a key in neither table gives the non-empty default or the key, unformatted, whatever the arguments |
| I18n.WebsiteCtaNotEnglish | src/utils/i18n.py:4-104 | 'website_cta' is not in the English table |
| I18n.WebsiteCtaNotAmharic | src/utils/i18n.py:105-204 | 'website_cta' is not in the Amharic table |
| I18n.WebsiteCtaUsesDefault | src/infrastructure/telegram_bot/handlers/common_handlers.py:70 | in every language the call-to-action shows its default text "Visit our website:" |
| I18n.TranslationsIn | src/utils/i18n.py:230 | only non-empty entries the tables hold for the key, at most one per table; none exactly when no table has a non-empty entry |
| I18n.TranslationsInOrder | src/utils/i18n.py:230 | the first table's entry, when present, comes first |
| I18n.GetAllTranslations | src/utils/i18n.py:228-230 | the English message, then the Amharic one, each only when present and not empty |
| I18n.T | src/utils/i18n.py:207-226 | on the bot's tables: the Amharic message for "am" when it has the key, else the English message, formatted; with neither, the non-empty default or the key |
| I18n.Escape | src/utils/i18n.py:239 | never shorter than the input; `AlternativesOfEscaped` proves the escaped text reads back as the input |
| I18n.Alternatives | src/utils/i18n.py:240 | every pattern reads as at least one alternative |
| I18n.PrefixFirst | src/utils/i18n.py:240 | prepending to the first alternative keeps the number of alternatives |
| I18n.AlternativesOfEscapedChar | src/utils/i18n.py:239-240 | an escaped character reads back as itself |
| I18n.AlternativesOfEscaped | src/utils/i18n.py:239-240 | an escaped literal reads back character for character |
| I18n.EscapeAll | src/utils/i18n.py:239 | one escaped option per option |
| I18n.AlternativesOfJoin | src/utils/i18n.py:239-240 | the '\|'-join of the escaped options reads back as exactly the options, in order |
| I18n.AnchoredAlternation | src/utils/i18n.py:232-241 | the pattern is "^(" + body + ")$" with a body that reads back as exactly the options |
| I18n.CreateI18nRegex | src/utils/i18n.py:232-241 | the anchored pattern whose body reads back as exactly the key's translations, or "^()$" for a key with none |
| I18n.SubmitPropertyTranslations | src/utils/i18n.py:232-241 | the submit button's pattern accepts its English and Amharic labels, English first |
| Keyboards.Chunk | src/infrastructure/telegram_bot/keyboards.py:25 | the rows concatenate back to the options; every row but the last has `columns` items, the last 1..`columns` |
| Keyboards.ChunkCount | src/infrastructure/telegram_bot/keyboards.py:25 | there are as many rows as `range(0, len, columns)` has steps |
| Keyboards.ReplyOptionsKeyboard | src/infrastructure/telegram_bot/keyboards.py:24-28 | a zero step raises; a positive one gives the chunked rows, a negative one no option rows; then one English cancel row exactly when asked |
| Keyboards.LabelOf | src/utils/i18n.py:207-226 | a label is the language's message, else the English one, as written when it has no format fields; a key neither table has is its own label |
| Keyboards.BrowseFilterLabels | src/infrastructure/telegram_bot/keyboards.py:32 | the browse and filter button texts |
| Keyboards.BrokerLabels | src/infrastructure/telegram_bot/keyboards.py:34 | the submit and my-listings button texts |
| Keyboards.AdminLabel | src/infrastructure/telegram_bot/keyboards.py:36 | the admin-panel button text |
| Keyboards.CancelLabel | src/infrastructure/telegram_bot/keyboards.py:27 | the cancel button text |
| Keyboards.MainMenuOptions | src/infrastructure/telegram_bot/keyboards.py:32-36 | browse and filter first, then submit and my-listings exactly for a broker, then the admin panel exactly for an admin |
| Keyboards.MainMenuKeyboard | src/infrastructure/telegram_bot/keyboards.py:31-37 | the menu options two to a row, browse and filter first |
| Keyboards.MainMenuBrokerButtons | src/infrastructure/telegram_bot/keyboards.py:33-34 | submit and my-listings are on the menu exactly for brokers |
| Keyboards.MainMenuAdminButton | src/infrastructure/telegram_bot/keyboards.py:35-36 | the admin panel is on the menu exactly for admins; the menu has 2 to 5 buttons |
| Keyboards.MainMenuHasNoCancel | src/infrastructure/telegram_bot/keyboards.py:37 | the menu has no cancel button |
| Keyboards.RoleSelectionKeyboard | src/infrastructure/telegram_bot/keyboards.py:39-40 | one row: the buyer then the broker button |
| Keyboards.PropertyTypeButtonsParse | src/infrastructure/telegram_bot/keyboards.py:45-47 | the six type buttons all parse as property types |
| Keyboards.CondoSchemeOptions | src/infrastructure/telegram_bot/keyboards.py:21 | one button per scheme, in enum order, each parsing back to its scheme, then "Any Scheme", which does not parse |
| Keyboards.BedroomButtonsParse | src/infrastructure/telegram_bot/keyboards.py:49-51 | without '+', every bedroom button but the final "Any" reads as a positive count |
| Keyboards.ParsePriceRange | src/infrastructure/telegram_bot/handlers/buyer_handlers.py:106-108 | pieces `[0]` and `[1]` of the split are read, so a parse needs at least two pieces, and a value without '-' never parses |
| Keyboards.ParseRange | src/infrastructure/telegram_bot/keyboards.py:12-19 | "lo-hi" parses back to (lo, hi) |
| Keyboards.PriceRangeFor | src/infrastructure/telegram_bot/keyboards.py:12-19 | the table's keys are exactly the six labels, and only "Any Price" maps to "any" |
| Keyboards.PriceRangesWellFormed | src/infrastructure/telegram_bot/keyboards.py:12-19 | every entry but "Any Price" is "lo-hi" with lo < hi; "any" does not parse |
| Keyboards.AdminApprovalKeyboard | src/infrastructure/telegram_bot/keyboards.py:63-68 | one row: approve sends "admin_approve_" + id, reject sends "admin_reject_" + id |
| Display.AudienceOf | src/utils/display_utils.py:20-25 | the admin flag wins over the broker flag; the buyer view has neither |
| Display.HeaderEmoji | src/utils/display_utils.py:12-17 | the house emoji exactly for the types without one of their own |
| Display.HeaderEmojiDistinct | src/utils/display_utils.py:12-17 | apartment, condominium and villa each have a different emoji |
| Display.CardHeader | src/utils/display_utils.py:19-25 | the review header exactly for the admin, the listing header exactly for the broker; the buyer header names the city |
| Display.LocationText | src/utils/display_utils.py:31-33 | "region - city", then " - sub_city" exactly when the sub-city is set and not empty |
| Display.FloorLines | src/utils/display_utils.py:40-46 | a set floor is a villa's "G+n" structure line, or else a floor-level line |
| Display.FurnishingLines | src/utils/display_utils.py:47-48 | a furnishing line exactly when the status is set |
| Display.ParkingLines | src/utils/display_utils.py:49-50 | a parking line exactly when the count is set, 0 included |
| Display.SchemeLines | src/utils/display_utils.py:53-54 | a scheme line only for a condominium that has a scheme |
| Display.OptionalDetails | src/utils/display_utils.py:40-54 | the conditional lines in card order, each present exactly when the listing calls for it |
| Display.CardDetails | src/utils/display_utils.py:28-56 | price, location, size, bedrooms and bathrooms first; then in card order exactly the structure or floor, furnishing, parking and scheme lines the listing calls for; the title deed last |
| Display.ExtraInfo | src/utils/display_utils.py:62-85 | admin: id, status and broker; broker: status, plus the reason exactly when it is set and not empty; buyer: the contact |
| Display.CreatePropertyCardText | src/utils/display_utils.py:6-96 | the header of the audience, admin first, with the type, emoji and buyer's city; the detail lines `CardDetails` promises; the description; the closing section of the same audience |
| RepoQueries.ValuesInjective | src/infrastructure/repository/mysql_repo.py:435-439 | distinct statuses and types bind distinct strings |
| RepoQueries.AllCondsComplete | src/infrastructure/repository/mysql_repo.py:434-472 | every condition kind is among those the query considers |
| RepoQueries.SelectedMembers | src/infrastructure/repository/mysql_repo.py:437-472 | the selected conditions are exactly the wanted ones |
| RepoQueries.SelectedStartsWithStatus | src/infrastructure/repository/mysql_repo.py:434 | the clause always starts with the status test |
| RepoQueries.WhereBound | src/infrastructure/repository/mysql_repo.py:474 | with every parameter bound by the filter, the conjunction holds when each condition does |
| RepoQueries.Accepts | src/infrastructure/repository/mysql_repo.py:434-472 | an accepted listing has the status asked for, approved by default; with no criterion set, exactly the approved listings are accepted |
| RepoQueries.FalsyCriteriaIgnored | src/infrastructure/repository/mysql_repo.py:440-455 | a bound or place of 0, 0.0 or "" restricts nothing, as if it were unset |
| RepoQueries.AcceptedHolds | src/infrastructure/repository/mysql_repo.py:434-472 | an accepted listing meets each wanted condition |
| RepoQueries.HoldsMatchesValues | src/infrastructure/repository/mysql_repo.py:434-457 | meeting the wanted value conditions is meeting the value criteria |
| RepoQueries.HoldsMatchesFeatures | src/infrastructure/repository/mysql_repo.py:458-472 | meeting the wanted flag conditions is meeting the feature criteria |
| RepoQueries.WantedHoldsIffAccepts | src/infrastructure/repository/mysql_repo.py:434-472 | the wanted conditions all hold exactly when the filter accepts the listing |
| RepoQueries.SelectedMeansAccepts | src/infrastructure/repository/mysql_repo.py:434-480 | the compiled clause holds of a listing exactly when the filter accepts it |
| RepoQueries.AppendIf | src/infrastructure/repository/mysql_repo.py:437-472 | one step appends the condition and its parameter together, exactly when the filter wants it |
| RepoQueries.PropertyConditions | src/infrastructure/repository/mysql_repo.py:434-474 | status first (approved by default); value criteria when truthy, flags when not None; selects exactly what the filter accepts |
| RepoQueries.KeepFloor | src/infrastructure/repository/mysql_repo.py:497-500 | exactly the listings with a known floor at least the minimum, in order |
| RepoQueries.FloorFilter | src/infrastructure/repository/mysql_repo.py:496-500 | no post-filter without a minimum floor |
| RepoQueries.KeepFloorAppend | src/infrastructure/repository/mysql_repo.py:497-500 | the filter distributes over concatenation, so it keeps order |
| RepoQueries.KeepFloorDistinct | src/infrastructure/repository/mysql_repo.py:497-500 | distinct listing ids stay distinct |
| RepoQueries.KeepFloorIdempotent | src/infrastructure/repository/mysql_repo.py:497-500 | filtering twice is filtering once |
| RepoQueries.CarWhereSnoc | src/infrastructure/repository/mysql_repo.py:617-628 | adding a condition adds its test to the conjunction |
| RepoQueries.CarConditions | src/infrastructure/repository/mysql_repo.py:615-630 | approved status first, the type when given, prices when truthy; holds exactly for the cars the filter accepts |
| RepoQueries.RoleValues | src/infrastructure/repository/mysql_repo.py:160 | one role string per role row, in order |
| RepoQueries.ParseRoleList | src/infrastructure/repository/mysql_repo.py:89 | at most one role per piece; `ParseRoleValues` proves it inverts `RoleValues` |
| RepoQueries.ParseRoles | src/infrastructure/repository/mysql_repo.py:88-89 | NULL or an empty column gives no roles; `RolesRoundTrip` proves stored roles read back |
| RepoQueries.ParseRoleValues | src/infrastructure/repository/mysql_repo.py:89 | the role strings parse back to the roles |
| RepoQueries.JoinStartsWithFirst | src/infrastructure/repository/mysql_repo.py:80 | a join is at least as long as its first part |
| RepoQueries.RolesRoundTrip | src/infrastructure/repository/mysql_repo.py:157-160 | roles stored as rows read back as the same roles, in order |
| RepoQueries.ParseRolesSkipsEmpty | src/infrastructure/repository/mysql_repo.py:89 | an empty piece in the column is skipped |
| RepoQueries.ParseImages | src/infrastructure/repository/mysql_repo.py:397 | a non-empty column gives at least one URL; `ImagesRoundTrip` proves stored URLs read back |
| RepoQueries.JoinEmpty | src/infrastructure/repository/mysql_repo.py:397 | a join is empty only for a single empty part |
| RepoQueries.ImagesRoundTrip | src/infrastructure/repository/mysql_repo.py:387-397 | comma-free URLs, unless the list is one empty URL, read back in stored order |
| RepoQueries.AsListed | src/infrastructure/repository/mysql_repo.py:396-403 | the id, status and reason are kept; only the images are re-read |
| RepoQueries.AsListedUnchanged | src/infrastructure/repository/mysql_repo.py:396-403 | with comma-free URLs the listed record is the stored one |
| RepoQueries.CarAsListed | src/infrastructure/repository/mysql_repo.py:609 | the car's id and status are kept |
| RepoQueries.ColumnUpdates | src/infrastructure/repository/mysql_repo.py:171-174 | no more SET entries than updates; `ColumnUpdatesMembers` says which |
| RepoQueries.ColumnUpdatesMembers | src/infrastructure/repository/mysql_repo.py:171-174 | the SET entries are exactly the non-`roles` entries |
| RepoQueries.NoUpdateForRolesOnly | src/infrastructure/repository/mysql_repo.py:176 | no UPDATE statement exactly when every entry is `roles` |
| RepoQueries.ColumnUpdatesAppend | src/infrastructure/repository/mysql_repo.py:171-174 | the selection distributes over concatenation |
| RepoQueries.SetClauses | src/infrastructure/repository/mysql_repo.py:168-174 | one "key = %s" clause and one parameter per non-`roles` entry, in order |
| RepoQueries.ApplyColumn | src/infrastructure/repository/mysql_repo.py:179 | a SET clause changes only its own column |
| RepoQueries.ApplyColumns | src/infrastructure/repository/mysql_repo.py:179 | the id and roles are kept by the UPDATE |
| RepoQueries.RolesEntry | src/infrastructure/repository/mysql_repo.py:182-186 | present exactly when a `roles` entry is given, and then one of the given ones |
| RepoQueries.ApplyUpdates | src/infrastructure/repository/mysql_repo.py:166-188 | the columns set in order, then the role rows replaced when `roles` is given; the id is kept |
| RepoQueries.RolesOnlyUpdate | src/infrastructure/repository/mysql_repo.py:176-186 | a roles-only update changes the roles and nothing else |
| RepoQueries.SingleColumnUpdate | src/infrastructure/repository/mysql_repo.py:171-180 | a one-column update is that column's SET clause |
| RepoQueries.ClaimUpdate | src/use_cases/user_use_cases.py:44-45 | the claim sets the Telegram id and name and keeps the rest |
| RepoQueries.ReadAttributes | src/infrastructure/repository/mysql_repo.py:449 | succeeds exactly when every attribute read is declared on its model |
| RepoQueries.QueryPropertiesAlwaysFails | src/infrastructure/repository/mysql_repo.py:432-504 | as written, every search raises a DatabaseError at the read of `location_site` |
| RepoQueries.CreatePropertyAlwaysFails | src/infrastructure/repository/mysql_repo.py:267-338 | as written, every submission raises a DatabaseError at the read of `location.site` |
| Repository.IdsSnoc | src/infrastructure/repository/mysql_repo.py:403 | appending a row adds its id |
| Repository.CarIdsSnoc | src/infrastructure/repository/mysql_repo.py:610 | appending a car adds its id |
| Repository.UserIdsSnoc | src/infrastructure/repository/mysql_repo.py:243 | appending a user adds its id |
| Repository.AdminEntries | src/infrastructure/repository/mysql_repo.py:195-198 | the admin entries only; non-empty exactly when the user is an admin |
| Repository.StoredHashVerifies | src/infrastructure/repository/mysql_repo.py:145 | a non-empty password is stored hashed, and it verifies against that hash |
| Repository.ApplyPropertyField | src/infrastructure/repository/mysql_repo.py:370-378 | one SET clause keeps the id and listing data |
| Repository.ApplyPropertyFields | src/infrastructure/repository/mysql_repo.py:370-378 | the UPDATE keeps the id and listing data |
| Repository.StoredLocation | src/infrastructure/repository/mysql_repo.py:275-277 | region, city and site stored; sub-city and area dropped |
| Repository.RealEstateRepository.constructor | src/infrastructure/repository/mysql_repo.py:15-25 | empty tables |
| Repository.RealEstateRepository.FindUser | src/infrastructure/repository/mysql_repo.py:86-91 | a stored account the WHERE clause selects, or None exactly when none matches |
| Repository.RealEstateRepository.GetUserByTelegramId | src/infrastructure/repository/mysql_repo.py:77-93 | an account with this Telegram id, or None exactly when there is none |
| Repository.RealEstateRepository.GetUserByPhoneNumber | src/infrastructure/repository/mysql_repo.py:116-132 | an account with this phone number, or None exactly when there is none |
| Repository.RealEstateRepository.GetUserById | src/infrastructure/repository/mysql_repo.py:95-114 | the stored account, or a UserNotFoundError naming the id exactly when it is unknown |
| Repository.RealEstateRepository.FindAdminUser | src/infrastructure/repository/mysql_repo.py:192-209 | some admin with only its admin role entries; None exactly when no account is an admin |
| Repository.RealEstateRepository.FindUnclaimedAdmin | src/infrastructure/repository/mysql_repo.py:211-228 | some admin whose Telegram id is 0; None exactly when there is none |
| Repository.RealEstateRepository.CreateUser | src/infrastructure/repository/mysql_repo.py:134-164 | the new account stored under the fresh id with the hashed password and roles in order; nothing else changes |
| Repository.RealEstateRepository.UpdateUser | src/infrastructure/repository/mysql_repo.py:166-190 | the stored account is `ApplyUpdates` of the old; an unknown id gives a DatabaseError and no change |
| Repository.RealEstateRepository.SetToList | src/infrastructure/repository/mysql_repo.py:255 | each role of the set exactly once |
| Repository.RealEstateRepository.SetUserRole | src/infrastructure/repository/mysql_repo.py:248-255 | the role added or removed, the others kept, each once; an unknown id gives UserNotFoundError |
| Repository.RealEstateRepository.SetUserActive | src/infrastructure/repository/mysql_repo.py:257-258 | the account comes back unchanged; an unknown id gives a DatabaseError |
| Repository.RealEstateRepository.ListUsers | src/infrastructure/repository/mysql_repo.py:230-246 | every stored account exactly once |
| Repository.RealEstateRepository.DeleteUser | src/infrastructure/repository/mysql_repo.py:260-264 | the account is gone; nothing else changes |
| Repository.RealEstateRepository.CreateProperty | src/infrastructure/repository/mysql_repo.py:267-338 | stored under the fresh id as pending with no reason, the location cut to its stored columns |
| Repository.RealEstateRepository.GetPropertyById | src/infrastructure/repository/mysql_repo.py:340-363 | the stored listing, or PropertyNotFoundError naming the id exactly when it is unknown |
| Repository.RealEstateRepository.UpdateProperty | src/infrastructure/repository/mysql_repo.py:365-382 | the entries applied in order; an unknown id gives a DatabaseError and no change |
| Repository.RealEstateRepository.SelectWhere | src/infrastructure/repository/mysql_repo.py:384-404 | exactly the stored listings the test keeps, each once, as listed |
| Repository.RealEstateRepository.SelectProperties | src/infrastructure/repository/mysql_repo.py:384-404 | exactly the listings the selector selects |
| Repository.RealEstateRepository.GetPropertiesByStatus | src/infrastructure/repository/mysql_repo.py:384-406 | exactly the listings in that status |
| Repository.RealEstateRepository.GetPropertiesByBrokerId | src/infrastructure/repository/mysql_repo.py:408-430 | exactly the broker's listings |
| Repository.RealEstateRepository.ListsSame | src/infrastructure/repository/mysql_repo.py:384-404 | selectors that agree on every listing list the same rows |
| Repository.RealEstateRepository.FloorKeptSelected | src/infrastructure/repository/mysql_repo.py:496-500 | a kept row is selected and on a high enough floor |
| Repository.RealEstateRepository.FloorSelectedKept | src/infrastructure/repository/mysql_repo.py:496-500 | a selected row on a high enough floor is kept |
| Repository.RealEstateRepository.ListsFloorFilter | src/infrastructure/repository/mysql_repo.py:496-500 | after the post-filter the rows are exactly the filter's matches |
| Repository.RealEstateRepository.QueryProperties | src/infrastructure/repository/mysql_repo.py:432-502 | exactly the listings the filter accepts, each once, as listed |
| Repository.RealEstateRepository.DeleteProperty | src/infrastructure/repository/mysql_repo.py:506-510 | the listing is gone in any status; nothing else changes |
| Repository.RealEstateRepository.CountWithStatus | src/infrastructure/repository/mysql_repo.py:516-518 | the number of listings in that status |
| Repository.RealEstateRepository.CountPropertiesByStatus | src/infrastructure/repository/mysql_repo.py:512-521 | one entry per status, each its count |
| Repository.RealEstateRepository.CountsCoverAll | src/infrastructure/repository/mysql_repo.py:512-521 | the four counts add up to the number of listings |
| Repository.RealEstateRepository.CreateCar | src/infrastructure/repository/mysql_repo.py:524-574 | stored under the fresh id as pending, whatever status the data carries |
| Repository.RealEstateRepository.GetCarById | src/infrastructure/repository/mysql_repo.py:576-594 | the stored car, or the property-not-found error naming the id |
| Repository.RealEstateRepository.UpdateCarStatus | src/infrastructure/repository/mysql_repo.py:656-662 | only the status changes; an unknown id gives a DatabaseError |
| Repository.RealEstateRepository.DeleteCar | src/infrastructure/repository/mysql_repo.py:650-654 | the car is gone; nothing else changes |
| Repository.RealEstateRepository.SelectCarsWhere | src/infrastructure/repository/mysql_repo.py:596-613 | exactly the cars the test keeps, each once |
| Repository.RealEstateRepository.SelectCars | src/infrastructure/repository/mysql_repo.py:596-648 | exactly the cars the selector selects |
| Repository.RealEstateRepository.GetCarsByBrokerId | src/infrastructure/repository/mysql_repo.py:596-613 | exactly the broker's cars |
| Repository.RealEstateRepository.QueryCars | src/infrastructure/repository/mysql_repo.py:615-648 | exactly the approved cars of the type and price range set |
| Repository.RealEstateRepository.CountCarsWithStatus | src/infrastructure/repository/mysql_repo.py:686-688 | the number of cars in that status |
| Repository.RealEstateRepository.CountCarsByStatus | src/infrastructure/repository/mysql_repo.py:682-691 | one entry per car status, each its count |
| Listings.Moderated | src/use_cases/property_use_cases.py:21-51 | approve sets approved and clears the reason; reject sets rejected with the reason; sold keeps the reason |
| Listings.Moderate | src/use_cases/property_use_cases.py:21-51 | refused, listing unchanged, unless the listing is in the action's required status |
| Listings.Run | src/use_cases/property_use_cases.py:21-51 | a run of actions keeps the listing's id and data |
| Listings.NeverBackToPending | src/use_cases/property_use_cases.py:21-51 | a reviewed listing never returns to pending |
| Listings.FinalStatusesStay | src/use_cases/property_use_cases.py:21-51 | rejected and sold are final |
| Listings.SoldOnlyAfterApproval | src/use_cases/property_use_cases.py:44-51 | a pending listing is sold only after an approval went through |
| Listings.ApproveTwiceRefused | src/use_cases/property_use_cases.py:21-29 | a second approval is refused and changes nothing |
| Listings.UpdatesModerate | src/use_cases/property_use_cases.py:21-51 | writing an action's entries is moderating the listing |
| Listings.PropertyCountsByValue | src/use_cases/property_use_cases.py:71 | keys are exactly the status strings, each with its status's count |
| Listings.CarCountsByValue | src/use_cases/property_use_cases.py:72 | the same for cars |
| Listings.PropertyUseCases.constructor | src/use_cases/property_use_cases.py:10-11 | the use cases hold the repository |
| Listings.PropertyUseCases.SubmitProperty | src/use_cases/property_use_cases.py:13-15 | stored as pending under the fresh id |
| Listings.PropertyUseCases.GetPendingProperties | src/use_cases/property_use_cases.py:17-19 | exactly the pending listings |
| Listings.PropertyUseCases.Perform | src/use_cases/property_use_cases.py:21-51 | not found, refused or moderated, with the store changed only on success |
| Listings.PropertyUseCases.ApproveProperty | src/use_cases/property_use_cases.py:21-29 | only a pending listing is approved, reason cleared |
| Listings.PropertyUseCases.RejectProperty | src/use_cases/property_use_cases.py:31-39 | only a pending listing is rejected, reason recorded |
| Listings.PropertyUseCases.MarkPropertyAsSold | src/use_cases/property_use_cases.py:44-51 | only an approved listing is sold |
| Listings.PropertyUseCases.DeleteProperty | src/use_cases/property_use_cases.py:52-56 | deleted in any status |
| Listings.PropertyUseCases.FindProperties | src/use_cases/property_use_cases.py:41-43 | exactly the listings the filter accepts |
| Listings.PropertyUseCases.GetPropertiesByBroker | src/use_cases/property_use_cases.py:58-60 | exactly the broker's listings |
| Listings.PropertyUseCases.GetPropertyDetails | src/use_cases/property_use_cases.py:62-64 | the listing, or not found |
| Listings.PropertyUseCases.GetAnalyticsSummary | src/use_cases/property_use_cases.py:65-73 | per status string, the listing and car counts |
| Listings.PropertyUseCases.GetAllProperties | src/use_cases/property_use_cases.py:74-77 | as written: exactly the approved listings |
| Listings.PropertyUseCases.ListAllProperties | src/use_cases/property_use_cases.py:74-77 | every listing, whatever its status or broker |
| Listings.PropertyUseCases.SubmitCar | src/use_cases/property_use_cases.py:80-84 | stored as pending |
| Listings.PropertyUseCases.FindCars | src/use_cases/property_use_cases.py:86-87 | exactly the approved cars the filter accepts |
| Listings.PropertyUseCases.GetCarDetails | src/use_cases/property_use_cases.py:89-90 | the car, or not found |
| Listings.PropertyUseCases.GetCarsByBroker | src/use_cases/property_use_cases.py:92-93 | exactly the broker's cars |
| Listings.EmptyFilterIsApproved | src/infrastructure/repository/mysql_repo.py:434-435 | the empty filter accepts exactly the approved listings |
| Listings.GetAllPropertiesMissesPending | src/use_cases/property_use_cases.py:74-77 | a pending listing is not among what `get_all_properties` returns |
| Accounts.WithRole | src/use_cases/user_use_cases.py:74-78 | the role appended unless already held; every other field kept |
| Accounts.WithRoleIdempotent | src/use_cases/user_use_cases.py:74-78 | adding a role twice is adding it once |
| Accounts.WithRoleKeepsDistinct | src/use_cases/user_use_cases.py:74-78 | no role is repeated |
| Accounts.WithProfile | src/use_cases/user_use_cases.py:94-102 | the given fields set, the rest kept |
| Accounts.ProfileUpdatesApply | src/use_cases/user_use_cases.py:95-102 | writing the profile entries gives `WithProfile` |
| Accounts.SupportedLanguage | src/use_cases/user_use_cases.py:115-116 | a code with a translation table, else "en" |
| Accounts.UserUseCases.constructor | src/use_cases/user_use_cases.py:9-11 | the use cases hold the repository |
| Accounts.UserUseCases.InitializeAdminUser | src/use_cases/user_use_cases.py:13-27 | afterwards an account has the admin phone; the placeholder, when created, is an unclaimed admin |
| Accounts.UserUseCases.GetOrCreateUserByTelegramId | src/use_cases/user_use_cases.py:29-56 | a stored account with this Telegram id: the existing one, else an unclaimed admin claimed by the sender, else a new role-less one |
| Accounts.UserUseCases.GetUserById | src/use_cases/user_use_cases.py:58-59 | the account, or UserNotFoundError |
| Accounts.UserUseCases.GetAdminTelegramId | src/use_cases/user_use_cases.py:61-66 | never the placeholder 0; none without admins; some when every admin is claimed |
| Accounts.UserUseCases.AddUserRole | src/use_cases/user_use_cases.py:68-78 | the account becomes `WithRole`; nothing is written when the role is held |
| Accounts.UserUseCases.ListUsers | src/use_cases/user_use_cases.py:81-82 | every account once |
| Accounts.UserUseCases.SetUserRole | src/use_cases/user_use_cases.py:84-85 | the role added or removed |
| Accounts.UserUseCases.SetUserActive | src/use_cases/user_use_cases.py:87-88 | the account as it was |
| Accounts.UserUseCases.DeleteUser | src/use_cases/user_use_cases.py:90-91 | the account is gone |
| Accounts.UserUseCases.UpdateProfile | src/use_cases/user_use_cases.py:94-102 | the given fields written; with neither given, the account or not found |
| Accounts.UserUseCases.ChangePassword | src/use_cases/user_use_cases.py:104-111 | refused, nothing written, without a stored password or when the current one fails; otherwise the new one verifies from then on |
| Accounts.UserUseCases.SetUserLanguage | src/use_cases/user_use_cases.py:113-117 | the stored language is `SupportedLanguage(code)` |
| Accounts.UserUseCases.AuthenticateUser | src/use_cases/user_use_cases.py:119-122 | an account with this phone whose stored hash the password verifies against; none when no account has the phone |
| BotSession.FilterOf | src/infrastructure/telegram_bot/handlers/buyer_handlers.py:120-135 | the collected keys copied, the rest unset; empty exactly for an empty search |
| BotSession.UserData.constructor | src/infrastructure/telegram_bot/handlers/common_handlers.py:82 | a new chat has no keys |
| BotSession.UserData.ClearFlows | src/infrastructure/telegram_bot/handlers/common_handlers.py:54-56 | the three flow keys are gone, the account kept |
| CommonHandlers.ErrorText | src/infrastructure/telegram_bot/handlers/common_handlers.py:28-47 | the application message after "⚠️ Error: ", the Telegram detail, or the fixed text |
| CommonHandlers.Recover | src/infrastructure/telegram_bot/handlers/common_handlers.py:28-56 | the flow keys gone, the account kept, the conversation ended |
| CommonHandlers.EnsureUserData | src/infrastructure/telegram_bot/handlers/common_handlers.py:74-104 | runs exactly when an account is cached or there is a sender; with an account cached, or no sender, the cache and every account are as they were; otherwise the sender's account is cached and stored, and every other account is as it was |
| CommonHandlers.Start | src/infrastructure/telegram_bot/handlers/common_handlers.py:107-133 | ends the conversation once it runs; the role prompt exactly for a sender without roles, the main menu exactly for an account with roles; with an account cached the cache and every account are as they were |
| CommonHandlers.RoleChoice | src/infrastructure/telegram_bot/handlers/common_handlers.py:141 | buyer exactly for the buyer button text, otherwise broker, never admin |
| CommonHandlers.BuyerButtonText | src/infrastructure/telegram_bot/handlers/common_handlers.py:141 | buyer exactly for "I'm a Buyer" |
| CommonHandlers.SetUserRole | src/infrastructure/telegram_bot/handlers/common_handlers.py:136-152 | with an account cached: the stored account with the chosen role added through `WithRole` replaces it in the cache and in the table, and every other account is kept, or for an account no longer stored the error path and no write; a first-time sender's new account holds the role and only that entry changes |
| CommonHandlers.LanguageChoice | src/infrastructure/telegram_bot/handlers/common_handlers.py:221 | "am" exactly when the text holds the Amharic name |
| CommonHandlers.LanguageChoiceIsSupported | src/infrastructure/telegram_bot/handlers/common_handlers.py:221-223 | both codes have a table, so the chosen code is stored as is |
| CommonHandlers.SetLanguage | src/infrastructure/telegram_bot/handlers/common_handlers.py:213-236 | with an account cached: the stored account with only its language replaced by the chosen code, in the cache and in the table, every other account kept, or for an account no longer stored the error path and no write; a first-time sender's new account stores the chosen language and only that entry changes |
| CommonHandlers.Cancel | src/infrastructure/telegram_bot/handlers/common_handlers.py:174-194 | the flow keys gone, the conversation ended; with an account cached the cache and every account are as they were |
| CommonHandlers.HandleStuck | src/infrastructure/telegram_bot/handlers/common_handlers.py:238-267 | the same cleanup and end as cancelling, through the error path when there is no sender; with an account cached the cache and every account are as they were |
| Text.ParseInt | src/infrastructure/telegram_bot/handlers/broker_handlers.py:39 | `int()` of a string of digits is its decimal value; the empty string does not parse |
| BrokerHandlers.RoomCount | src/infrastructure/telegram_bot/handlers/broker_handlers.py:39 | a plain string of digits reads as its value |
| BrokerHandlers.RemoveAllAbsentDigits | src/infrastructure/telegram_bot/handlers/broker_handlers.py:39 | digits without '+' are kept |
| BrokerHandlers.Midpoint | src/infrastructure/telegram_bot/handlers/broker_handlers.py:70-71 | succeeds exactly when the price-range parse does, with the mean of the two bounds; the first piece is read before the second is indexed, so the IndexError comes exactly for a value without '-' that reads as an integer, and every other failure is the ValueError |
| BrokerHandlers.MidpointOfRange | src/infrastructure/telegram_bot/handlers/broker_handlers.py:70-71 | a well-formed range's midpoint lies between its bounds |
| BrokerHandlers.BrokerName | src/infrastructure/telegram_bot/handlers/broker_handlers.py:129 | the display name, or "N/A" when it is missing or empty |
| BrokerHandlers.ListingFromDraft | src/infrastructure/telegram_bot/handlers/broker_handlers.py:127-131 | accepted exactly when every required field is present and the assembled listing validates |
| BrokerHandlers.DraftRoundTrip | src/infrastructure/telegram_bot/handlers/broker_handlers.py:24-131 | every valid listing using only the asked fields can be submitted through the chat |
| BrokerHandlers.DescriptionCompletes | src/infrastructure/telegram_bot/handlers/broker_handlers.py:111-131 | a draft at the description step becomes a listing exactly when the counts, size and price are positive |
| BrokerHandlers.StartSubmission | src/infrastructure/telegram_bot/handlers/broker_handlers.py:16-22 | a fresh empty draft, asking for the type |
| BrokerHandlers.ReceivePropertyType | src/infrastructure/telegram_bot/handlers/broker_handlers.py:24-35 | a type is stored and the bedrooms asked for; other text asks again |
| BrokerHandlers.ReceiveBedrooms | src/infrastructure/telegram_bot/handlers/broker_handlers.py:37-48 | the count is stored; other text asks again |
| BrokerHandlers.ReceiveBathrooms | src/infrastructure/telegram_bot/handlers/broker_handlers.py:50-61 | the count is stored; other text asks again |
| BrokerHandlers.ReceiveSize | src/infrastructure/telegram_bot/handlers/broker_handlers.py:63-78 | only a size-table label is accepted, and its midpoint stored; a malformed table value fails with the midpoint's error, the IndexError exactly for a value without '-' that reads as an integer |
| BrokerHandlers.ReceiveLocationRegion | src/infrastructure/telegram_bot/handlers/broker_handlers.py:80-88 | the text is the region, the city "N/A"; without a draft the handler raises |
| BrokerHandlers.ReceivePrice | src/infrastructure/telegram_bot/handlers/broker_handlers.py:90-99 | a number is stored and the photo list emptied; other text asks again |
| BrokerHandlers.ReceiveImages | src/infrastructure/telegram_bot/handlers/broker_handlers.py:101-109 | the largest size's id is appended; no photo, no change |
| BrokerHandlers.DoneReceivingImages | src/infrastructure/telegram_bot/handlers/broker_handlers.py:111-118 | the description is asked for exactly when at least three photos arrived |
| BrokerHandlers.ReceiveDescription | src/infrastructure/telegram_bot/handlers/broker_handlers.py:120-148 | a valid draft is stored as a pending listing; either way the draft goes and the chat ends |
| BuyerHandlers.ShowProperties | src/infrastructure/telegram_bot/handlers/buyer_handlers.py:12-46 | the filter's matches, the first five shown |
| BuyerHandlers.StartFiltering | src/infrastructure/telegram_bot/handlers/buyer_handlers.py:49-55 | a fresh search asking for the type |
| BuyerHandlers.ReceiveFilterPropType | src/infrastructure/telegram_bot/handlers/buyer_handlers.py:57-69 | a type is required; other text asks again |
| BuyerHandlers.ReceiveFilterBedrooms | src/infrastructure/telegram_bot/handlers/buyer_handlers.py:71-85 | "Any" sets no minimum, a count is the minimum, other text asks again |
| BuyerHandlers.ReceiveFilterRegion | src/infrastructure/telegram_bot/handlers/buyer_handlers.py:87-96 | "Any Region" sets nothing, other text is the region; without a search the handler raises |
| BuyerHandlers.Finish | src/infrastructure/telegram_bot/handlers/buyer_handlers.py:120-138 | the collected search is run, dropped, and the chat ends |
| BuyerHandlers.PriceBounds | src/infrastructure/telegram_bot/handlers/buyer_handlers.py:101-108 | bounds only for a label of the price table |
| BuyerHandlers.ReceiveFilterPriceRange | src/infrastructure/telegram_bot/handlers/buyer_handlers.py:98-123 | "Any Price" sets no bounds, a label sets both; condominiums go on to the scheme, others finish |
| BuyerHandlers.PriceLabelsSetBounds | src/infrastructure/telegram_bot/handlers/buyer_handlers.py:100-108 | every label but "Any Price" sets both bounds, lower below upper |
| BuyerHandlers.ReceiveFilterCondoScheme | src/infrastructure/telegram_bot/handlers/buyer_handlers.py:125-138 | "Any Scheme" sets none, a scheme is stored, other text asks again |
| BuyerHandlers.BrowseAllProperties | src/infrastructure/telegram_bot/handlers/buyer_handlers.py:140-142 | exactly the approved listings, the first five shown; the chat ends |
| BuyerHandlers.AnyChoicesFilterByTypeOnly | src/infrastructure/telegram_bot/handlers/buyer_handlers.py:57-123 | answering "Any" throughout finds the approved listings of the chosen type |
| AdminHandlers.CallbackId | src/infrastructure/telegram_bot/handlers/admin_handlers.py:70 | the last '_' piece; data without '_' is itself |
| AdminHandlers.CallbackRoundTrip | src/infrastructure/telegram_bot/keyboards.py:65-66 | both buttons of an id without '_' parse back to that id |
| AdminHandlers.UnderscoreIdIsCut | src/infrastructure/telegram_bot/handlers/admin_handlers.py:70 | for every id containing '_', both moderation buttons send back only its last piece, which differs from the id |
| AdminHandlers.NotifiedChat | src/infrastructure/telegram_bot/handlers/admin_handlers.py:75-84 | the broker's chat, unless missing or unclaimed |
| AdminHandlers.ApproveProperty | src/infrastructure/telegram_bot/handlers/admin_handlers.py:64-84 | a pending listing is approved and its broker notified; otherwise no change and the chat ends; with an account cached the cache and every account are as they were |
| AdminHandlers.RejectPropertyStart | src/infrastructure/telegram_bot/handlers/admin_handlers.py:87-105 | the listing id is remembered and a reason asked for; no listing written, the drafts kept, and with an account cached the cache and every account are as they were |
| AdminHandlers.RejectPropertyReason | src/infrastructure/telegram_bot/handlers/admin_handlers.py:107-130 | the remembered pending listing is rejected with the reason; the key is gone and the chat ends either way; on success the drafts are kept, and with an account cached the cache and every account are as they were |

## Left out

- Async and concurrency: each `await` is one sequential step that returns the awaited call's value. As written, several awaits are on synchronous code. Awaiting a plain value raises a TypeError after the call has already run. The model describes the synchronous calls instead. Under the code as written:
  - Every `PropertyUseCases` method awaits a synchronous repository method, so it runs that first repository call and then raises. No property use case returns a value, and approve, reject and mark-as-sold never reach their write.
  - The handlers await the synchronous user use cases: `get_or_create_user_by_telegram_id` in `ensure_user_data`, `add_user_role`, `set_user_language`, `get_user_by_id` and `get_admin_telegram_id`. Each call's write happens, and then the handler raises. In `ensure_user_data` the raise comes before the account is cached, so every wrapped handler whose account is not yet cached ends through `handle_exceptions` with the unexpected-error reply.
- SQL text, connections and the image-blob table are not modelled. Each query is the set of rows its WHERE clause selects, in an order the model leaves open.
- The Firestore repository, the HTTP controllers, start-up, configuration and the one-off database scripts are not part of this model.
- `list_all_cars` is not modelled: no use case calls it.
- Telegram transport is not modelled: the texts of replies, photos, media groups and `query.answer`/`edit_message_text`. Reply keyboards sent with a message are not modelled either.
- These handlers only send messages or menus and are not modelled: `admin_panel`, `view_pending_listings`, `back_to_main_menu`, `select_language_start` and `my_listings`.
- The bot's conversation wiring (`bot.py`) is not modelled. It names a sub-city step and constants with no handler bodies here.
- The keyboard module defines no `SIZE_RANGES`, `get_bathroom_keyboard`, `get_size_range_keyboard` or `get_website_inline_keyboard`. The size table is a parameter, and the calls that build those keyboards are treated as sending a keyboard.
- The buyer steps call `get_bedroom_keyboard` and `get_region_keyboard` with an `is_filter` argument those functions do not take. The model treats those calls as sending a keyboard. As written, the call raises a TypeError. `receive_filter_prop_type` catches only ValueError, so the error leaves the handler after the type has been stored in `filters` and before a state is returned. The conversation stays at the type step, and the buyer search never gets past it. `receive_filter_bedrooms` fails the same way after storing the bedroom count.
- Floating point is not modelled. `float()` is a parameter of the price step, prices and sizes are reals, and the card's `,.2f` number rendering is left out: card lines hold values, not text.
- Python `int()`: only an optional sign and ASCII digits are modelled. Whitespace, underscores and non-ASCII digits are left out.
- Keyboards.ParsePriceRange: reads the pieces of a price value with `int()` where the buyer step calls `float()`. The two agree on the price table, whose bounds are all decimal integers.
- Keyboards.Label: when `str.format` fails, `t` raises, but the label falls back to the key. None of the labels the keyboards show has a format field, so this case does not arise for them.
- I18n.EnMessage and I18n.AmMessage are the two message tables, written out entry by entry, and carry no contract. A property stated over every key costs more than the verifier allows on an 82-case match. Their entries enter the model through `T`, `GetAllTranslations` and the label lemmas.
- The `active` column is not on the account record. `SetUserActive` returns the account unchanged.
- `GROUP_CONCAT` has a length limit and gives no role order. These are left out: roles read back in insertion order. A role row for a deleted user is not modelled.
- Image URLs containing a comma are split apart by the list queries. `RepoQueries.ImagesRoundTrip` states the condition under which they are not.
- The `else` branch of `ensure_user_data`, when get-or-create returns nothing, is unreachable: the use case always returns an account.
- The admin notification in `receive_description` is a `pass`. Only the lookup of the admin's Telegram id around it is modelled.
- The conversation library keeps the current state when an unwrapped handler raises. The model returns `Failed` and leaves that state to the caller.
- bcrypt and JWT signing are not modelled: bcrypt is the `Crypt` parameter, and a token is its claims map. The clock is a parameter.
- `str.format` is modelled for plain `{name}` fields only, the only kind the tables use.

## Findings

| source | as written | input that shows it | evidently intended | confidence | as-written member | corrected member |
|---|---|---|---|---|---|---|
| src/infrastructure/repository/mysql_repo.py:277 | `create_property` reads `property_data.location.site`, which `Location` does not declare; the AttributeError is re-raised as a DatabaseError | any valid submission | store the location's site (or sub-city) and the listing | not executed | RepoQueries.CreatePropertyAlwaysFails | Repository.RealEstateRepository.CreateProperty |
| src/infrastructure/repository/mysql_repo.py:449 | `query_properties` reads `filters.location_site`, which `PropertyFilter` does not declare, so every search raises a DatabaseError | `PropertyFilter()` | search with the criteria the filter sets | not executed | RepoQueries.QueryPropertiesAlwaysFails | Repository.RealEstateRepository.QueryProperties |
| src/use_cases/property_use_cases.py:74-77 | `get_all_properties` searches with the empty filter, whose status defaults to approved | one pending listing in the store | every listing whatever its status or broker | not executed | Listings.GetAllPropertiesMissesPending | Listings.PropertyUseCases.ListAllProperties |

=== FILE: admin_handlers.dfy ===
/**
 * The admin's moderation handlers
 * (src/infrastructure/telegram_bot/handlers/admin_handlers.py): approving a
 * listing from its inline button, and rejecting one in two steps, the button
 * first and then a message giving the reason. Every handler runs under
 * `ensure_user_data` and `handle_exceptions`. Both use cases work on one shared
 * repository, as the bot builds them.
 */
module AdminHandlers {
  import opened Wrappers
  import opened Text
  import opened Exceptions
  import opened PropertyModels
  import opened CommonModels
  import opened Constants
  import opened Repository
  import opened Listings
  import opened Accounts
  import opened BotSession
  import opened CommonHandlers
  import Keyboards

  /** `query.data.split('_')[-1]`: the listing id a moderation button carries. */
  function CallbackId(data: string): (pid: string)
    ensures '_' !in pid
    ensures '_' !in data ==> pid == data
  {
    SplitPiecesPlain(data, '_');
    if '_' in data then LastSegment(data, '_')
    else
      SplitPlain(data, '_');
      LastSegment(data, '_')
  }

  /**
   * The approval keyboard and the handlers agree: both buttons of a listing whose
   * id holds no '_' send back exactly that id.
   */
  lemma CallbackRoundTrip(pid: string, lang: string)
    requires '_' !in pid
    ensures CallbackId(Keyboards.AdminApprovalKeyboard(pid, lang)[0][0].callbackData) == pid
    ensures CallbackId(Keyboards.AdminApprovalKeyboard(pid, lang)[0][1].callbackData) == pid
  {
    LastSegmentOfSuffix(CbAdminApprove, '_', pid);
    LastSegmentOfSuffix(CbAdminReject, '_', pid);
    assert CbAdminApprove + "_" + pid == CbAdminApprove + ['_'] + pid;
    assert CbAdminReject + "_" + pid == CbAdminReject + ['_'] + pid;
  }

  /**
   * An id with '_' in it does not come back: both buttons send only its last
   * piece, which differs from the id.
   */
  lemma UnderscoreIdIsCut(pid: string)
    requires '_' in pid
    ensures CallbackId(CbAdminApprove + "_" + pid) == LastSegment(pid, '_') != pid
    ensures CallbackId(CbAdminReject + "_" + pid) == LastSegment(pid, '_') != pid
  {
    assert CbAdminApprove + "_" + pid == CbAdminApprove + ['_'] + pid;
    assert CbAdminReject + "_" + pid == CbAdminReject + ['_'] + pid;
    LastSegmentAfter(CbAdminApprove, '_', pid);
    LastSegmentAfter(CbAdminReject, '_', pid);
  }

  /** The Telegram chat to notify of a decision: the broker's, unless the account is missing or unclaimed. */
  function NotifiedChat(users: map<string, UserModels.User>, brokerId: string): (chat: Option<int>)
    ensures chat.Some? <==> brokerId in users && users[brokerId].telegramId != Unclaimed
    ensures chat.Some? ==> chat.value == users[brokerId].telegramId
  {
    if brokerId in users && users[brokerId].telegramId != Unclaimed then Some(users[brokerId].telegramId) else None
  }

  /**
   * `approve_property`: the listing named by the button is approved and its
   * broker notified. The handler returns nothing, so the state is kept; an
   * approval that is refused (unknown or not pending) or a broker account that
   * cannot be found raises, and the error path ends the conversation. The broker
   * lookup comes after the write: a missing broker does not undo the approval.
   */
  method ApproveProperty(ud: UserData, users: UserUseCases, props: PropertyUseCases,
                         sender: Option<Sender>, uid: string, data: string)
    returns (o: Outcome, notify: Option<int>)
    requires users.repo == props.repo && users.repo.Valid() && uid !in users.repo.users
    modifies ud, users.repo
    ensures users.repo.Valid()
    ensures !Proceeds(old(ud.user), sender) ==>
      o == Unchanged && notify.None? && users.repo.properties == old(users.repo.properties)
    ensures Proceeds(old(ud.user), sender) ==>
      var pid := CallbackId(data);
      var before := old(users.repo.properties);
      if pid in before && before[pid].status == Pending then
        users.repo.properties == before[pid := before[pid].(status := Approved, rejectionReason := None)]
        && notify == NotifiedChat(users.repo.users, before[pid].data.brokerId)
        && (o == Unchanged <==> before[pid].data.brokerId in users.repo.users)
      else
        users.repo.properties == before && notify.None? && o == Next(End)
    ensures notify.Some? ==> notify.value != Unclaimed
    ensures o == Unchanged ==> ud.submission == old(ud.submission) && ud.filters == old(ud.filters) && ud.propToReject == old(ud.propToReject)
    ensures o != Unchanged ==> o == Next(End) && ud.Idle()
    ensures AccountsKept(old(ud.user), sender, old(users.repo.users), ud.user, users.repo.users)
    ensures users.repo.cars == old(users.repo.cars)
  {
    notify := None;
    var ready := EnsureUserData(ud, users, sender, uid);
    if !ready {
      return Unchanged, None;
    }
    var pid := CallbackId(data);
    var approved := props.ApproveProperty(pid);
    var errorReply;
    if approved.Err? {
      o, errorReply := Recover(ud, App(approved.error));
      return;
    }
    var broker := users.GetUserById(approved.value.data.brokerId);
    if broker.Err? {
      o, errorReply := Recover(ud, App(broker.error));
      return;
    }
    notify := if broker.value.telegramId != Unclaimed then Some(broker.value.telegramId) else None;
    o := Unchanged;
  }

  /**
   * `reject_property_start`: the listing named by the button is remembered under
   * `prop_to_reject` and the admin is asked for a reason. Nothing is written to
   * the repository yet.
   */
  method RejectPropertyStart(ud: UserData, users: UserUseCases, sender: Option<Sender>, uid: string, data: string)
    returns (o: Outcome)
    requires users.repo.Valid() && uid !in users.repo.users
    modifies ud, users.repo
    ensures users.repo.Valid()
    ensures !Proceeds(old(ud.user), sender) ==> o == Unchanged && ud.propToReject == old(ud.propToReject)
    ensures Proceeds(old(ud.user), sender) ==>
      o == Next(AdminRejectReasonInput) && ud.propToReject == Some(CallbackId(data))
    ensures ud.submission == old(ud.submission) && ud.filters == old(ud.filters)
    ensures AccountsKept(old(ud.user), sender, old(users.repo.users), ud.user, users.repo.users)
    ensures users.repo.properties == old(users.repo.properties) && users.repo.cars == old(users.repo.cars)
  {
    var ready := EnsureUserData(ud, users, sender, uid);
    if !ready {
      return Unchanged;
    }
    ud.propToReject := Some(CallbackId(data));
    o := Next(AdminRejectReasonInput);
  }

  /**
   * `reject_property_reason`: the remembered listing is rejected with the message
   * as its reason, the broker is notified and the conversation ends. Whichever
   * way it goes, once the handler runs `prop_to_reject` is gone and the
   * conversation is over: the error path wipes it with the other flow keys. With
   * no listing remembered the lookup is for `None`, which no listing matches.
   */
  method RejectPropertyReason(ud: UserData, users: UserUseCases, props: PropertyUseCases,
                              sender: Option<Sender>, uid: string, reason: string)
    returns (o: Outcome, notify: Option<int>)
    requires users.repo == props.repo && users.repo.Valid() && uid !in users.repo.users
    modifies ud, users.repo
    ensures users.repo.Valid()
    ensures !Proceeds(old(ud.user), sender) ==>
      o == Unchanged && notify.None? && ud.propToReject == old(ud.propToReject)
      && users.repo.properties == old(users.repo.properties)
    ensures Proceeds(old(ud.user), sender) ==> o == Next(End) && ud.propToReject.None?
    ensures Proceeds(old(ud.user), sender) ==>
      var before := old(users.repo.properties);
      var target := old(ud.propToReject);
      if target.Some? && target.value in before && before[target.value].status == Pending then
        var pid := target.value;
        users.repo.properties == before[pid := before[pid].(status := Rejected, rejectionReason := Some(reason))]
        && notify == NotifiedChat(users.repo.users, before[pid].data.brokerId)
        && if before[pid].data.brokerId in users.repo.users
           then ud.submission == old(ud.submission) && ud.filters == old(ud.filters)
           else ud.Idle()
      else
        users.repo.properties == before && notify.None? && ud.Idle()
    ensures notify.Some? ==> notify.value != Unclaimed
    ensures AccountsKept(old(ud.user), sender, old(users.repo.users), ud.user, users.repo.users)
    ensures users.repo.cars == old(users.repo.cars)
  {
    notify := None;
    var ready := EnsureUserData(ud, users, sender, uid);
    if !ready {
      return Unchanged, None;
    }
    var errorReply;
    if ud.propToReject.None? {
      o, errorReply := Recover(ud, App(PropertyNotFound("None")));
      return;
    }
    var rejected := props.RejectProperty(ud.propToReject.value, reason);
    if rejected.Err? {
      o, errorReply := Recover(ud, App(rejected.error));
      return;
    }
    var broker := users.GetUserById(rejected.value.data.brokerId);
    if broker.Err? {
      o, errorReply := Recover(ud, App(broker.error));
      return;
    }
    notify := if broker.value.telegramId != Unclaimed then Some(broker.value.telegramId) else None;
    ud.propToReject := None;
    o := Next(End);
  }
}

=== FILE: auth_utils.dfy ===
/**
 * Password and token helpers (src/utils/auth_utils.py). Bcrypt reads at most 72
 * bytes of its input, so passwords are cut to the longest run of whole characters
 * whose UTF-8 encoding fits in 72 bytes before hashing and before verifying.
 *
 * A Python string is a sequence of code points, lone surrogates included, so a
 * password here is a `seq<int>` of values below 0x110000; `CodePoints` converts a
 * Dafny string, which cannot hold a surrogate.
 */
module Auth {
  import opened Wrappers

  /** Bcrypt's input limit in bytes. */
  const BcryptMaxBytes := 72

  /** `ACCESS_TOKEN_EXPIRE_MINUTES`, the default token lifetime. */
  const AccessTokenExpireMinutes := 30

  type Password = seq<int>

  predicate IsCodePoint(c: int) { 0 <= c < 0x11_0000 }

  predicate IsSurrogate(c: int) { 0xD800 <= c < 0xE000 }

  /** A Python `str`: every element is a code point. */
  predicate IsText(s: Password) { forall i :: 0 <= i < |s| ==> IsCodePoint(s[i]) }

  /** UTF-8 can encode the string: it holds no lone surrogate. */
  predicate Encodable(s: Password) { forall i :: 0 <= i < |s| ==> !IsSurrogate(s[i]) }

  function CodePoints(s: string): (p: Password)
    ensures |p| == |s| && IsText(p) && Encodable(p)
  {
    seq(|s|, i requires 0 <= i < |s| => s[i] as int)
  }

  /** The number of bytes UTF-8 uses for one code point. */
  function CharLen(c: int): (n: nat)
    ensures 1 <= n <= 4
  {
    if c < 0x80 then 1 else if c < 0x800 then 2 else if c < 0x1_0000 then 3 else 4
  }

  /** The UTF-8 encoding of one code point. */
  function CharBytes(c: int): (b: seq<nat>)
    requires IsCodePoint(c)
    ensures |b| == CharLen(c)
    ensures forall i :: 0 <= i < |b| ==> b[i] < 256
  {
    if c < 0x80 then [c]
    else if c < 0x800 then [0xC0 + c / 64, 0x80 + c % 64]
    else if c < 0x1_0000 then [0xE0 + c / 4096, 0x80 + (c / 64) % 64, 0x80 + c % 64]
    else [0xF0 + c / 262144, 0x80 + (c / 4096) % 64, 0x80 + (c / 64) % 64, 0x80 + c % 64]
  }

  /** `s.encode("utf-8")`, on a string without surrogates. */
  function Encode(s: Password): (b: seq<nat>)
    requires IsText(s)
    ensures |b| == Utf8Len(s)
  {
    if |s| == 0 then [] else CharBytes(s[0]) + Encode(s[1..])
  }

  /** `len(s.encode("utf-8"))`. */
  function Utf8Len(s: Password): nat
  {
    if |s| == 0 then 0 else CharLen(s[0]) + Utf8Len(s[1..])
  }

  lemma {:induction false} EncodeAppend(a: Password, b: Password)
    requires IsText(a) && IsText(b)
    ensures IsText(a + b) && Encode(a + b) == Encode(a) + Encode(b)
    ensures Utf8Len(a + b) == Utf8Len(a) + Utf8Len(b)
  {
    assert IsText(a + b);
    if |a| > 0 {
      assert (a + b)[1..] == a[1..] + b;
      assert (a + b)[0] == a[0];
      EncodeAppend(a[1..], b);
    } else {
      assert a + b == b;
    }
  }

  /**
   * The whole characters at the front of `s` whose encodings fit in `budget`
   * bytes: what `bytes[:budget].decode("utf-8", errors="ignore")` gives back, the
   * cut final character being an incomplete sequence that the decoder drops.
   */
  function FitBytes(s: Password, budget: int): (t: Password)
    ensures t <= s
    ensures Utf8Len(t) <= budget || t == []
  {
    if |s| == 0 || CharLen(s[0]) > budget then []
    else
      var rest := FitBytes(s[1..], budget - CharLen(s[0]));
      assert ([s[0]] + rest)[1..] == rest;
      [s[0]] + rest
  }

  /**
   * `_truncate_bcrypt(password)`: encode, keep 72 bytes, decode ignoring errors;
   * when encoding raises, which only a lone surrogate causes, the first 72
   * characters instead.
   */
  function TruncateBcrypt(password: Password): (t: Password)
    requires IsText(password)
    ensures t <= password
    ensures Encodable(password) ==> Utf8Len(t) <= BcryptMaxBytes
    ensures !Encodable(password) ==> |t| == if |password| < 72 then |password| else 72
  {
    if Encodable(password) then FitBytes(password, BcryptMaxBytes)
    else password[..if |password| < 72 then |password| else 72]
  }

  lemma {:induction false} FitBytesKeepsShort(s: Password, budget: int)
    requires Utf8Len(s) <= budget
    ensures FitBytes(s, budget) == s
  {
    if |s| > 0 {
      FitBytesKeepsShort(s[1..], budget - CharLen(s[0]));
      assert [s[0]] + s[1..] == s;
    }
  }

  /** A password of 72 bytes or fewer comes back unchanged. */
  lemma ShortPasswordUnchanged(password: Password)
    requires IsText(password) && Encodable(password) && Utf8Len(password) <= BcryptMaxBytes
    ensures TruncateBcrypt(password) == password
  {
    FitBytesKeepsShort(password, BcryptMaxBytes);
  }

  lemma {:induction false} FitBytesMaximal(s: Password, budget: int)
    requires |FitBytes(s, budget)| < |s|
    ensures Utf8Len(FitBytes(s, budget)) + CharLen(s[|FitBytes(s, budget)|]) > budget
  {
    if |s| > 0 && CharLen(s[0]) <= budget {
      FitBytesMaximal(s[1..], budget - CharLen(s[0]));
    }
  }

  /**
   * Only a character that would cross the 72-byte mark is dropped, with everything
   * after it: the cut is as late as whole characters allow.
   */
  lemma TruncationIsMaximal(password: Password)
    requires IsText(password) && Encodable(password)
    requires |TruncateBcrypt(password)| < |password|
    ensures Utf8Len(TruncateBcrypt(password)) + CharLen(password[|TruncateBcrypt(password)|]) > BcryptMaxBytes
  {
    FitBytesMaximal(password, BcryptMaxBytes);
  }

  /** The kept characters encode to a prefix of the first 72 bytes of the password. */
  lemma TruncatedBytesArePrefix(password: Password)
    requires IsText(password) && Encodable(password)
    ensures Encode(TruncateBcrypt(password)) <= Encode(password)
    ensures |Encode(TruncateBcrypt(password))| <= BcryptMaxBytes
  {
    var t := TruncateBcrypt(password);
    var rest := password[|t|..];
    assert password == t + rest;
    EncodeAppend(t, rest);
  }

  /** For a password UTF-8 can encode, truncating twice is truncating once. */
  lemma TruncateIdempotent(password: Password)
    requires IsText(password) && Encodable(password)
    ensures IsText(TruncateBcrypt(password))
    ensures TruncateBcrypt(TruncateBcrypt(password)) == TruncateBcrypt(password)
  {
    var t := TruncateBcrypt(password);
    assert Encodable(t);
    ShortPasswordUnchanged(t);
  }

  /**
   * With a lone surrogate the fallback keeps 72 characters, which may encode to
   * more than 72 bytes once the surrogate is cut off; truncating that again cuts
   * more. Seventy-two two-byte characters followed by a surrogate show it.
   */
  lemma SurrogateTruncationNotIdempotent()
    ensures var p := seq(72, i => 0xE9) + [0xD800];
      IsText(p) && TruncateBcrypt(p) == seq(72, i => 0xE9)
      && TruncateBcrypt(TruncateBcrypt(p)) == seq(36, i => 0xE9)
  {
    var p := seq(72, i => 0xE9) + [0xD800];
    assert !Encodable(p) by { assert IsSurrogate(p[72]); }
    assert p[..72] == seq(72, i => 0xE9);
    FitRepeated(72, 72);
  }

  /** `n` copies of a two-byte character keep `budget / 2` of them. */
  lemma {:induction false} FitRepeated(n: nat, budget: nat)
    ensures FitBytes(seq(n, i => 0xE9), budget) == seq(if n < budget / 2 then n else budget / 2, i => 0xE9)
  {
    var s := seq(n, i => 0xE9);
    if n > 0 && budget >= 2 {
      var k := if n - 1 < (budget - 2) / 2 then n - 1 else (budget - 2) / 2;
      assert k + 1 == if n < budget / 2 then n else budget / 2;
      assert s[0] == 0xE9 && s[1..] == seq(n - 1, i => 0xE9);
      FitRepeated(n - 1, budget - 2);
      assert [0xE9] + seq(k, i => 0xE9) == seq(k + 1, i => 0xE9);
    }
  }

  /**
   * The hashing library, passed in: a salted hash and its verifier. It is correct
   * when a hash made with any salt verifies against the input it was made from.
   */
  datatype Crypt = Crypt(hash: (Password, nat) -> string, verify: (Password, string) -> bool)

  ghost predicate Correct(c: Crypt)
  {
    forall x, salt :: c.verify(x, c.hash(x, salt))
  }

  /** `hash_password`: bcrypt of the truncated password; a password of at most 72 bytes is hashed as given. */
  function HashPassword(password: Password, salt: nat, c: Crypt): (hashed: string)
    requires IsText(password)
    ensures Encodable(password) && Utf8Len(password) <= BcryptMaxBytes ==> hashed == c.hash(password, salt)
  {
    if Encodable(password) && Utf8Len(password) <= BcryptMaxBytes then
      ShortPasswordUnchanged(password);
      c.hash(TruncateBcrypt(password), salt)
    else
      c.hash(TruncateBcrypt(password), salt)
  }

  /** `verify_password`: bcrypt's check of the truncated password; a password of at most 72 bytes is checked as given. */
  function VerifyPassword(plain: Password, hashed: string, c: Crypt): (ok: bool)
    requires IsText(plain)
    ensures Encodable(plain) && Utf8Len(plain) <= BcryptMaxBytes ==> ok == c.verify(plain, hashed)
  {
    if Encodable(plain) && Utf8Len(plain) <= BcryptMaxBytes then
      ShortPasswordUnchanged(plain);
      c.verify(TruncateBcrypt(plain), hashed)
    else
      c.verify(TruncateBcrypt(plain), hashed)
  }

  /** Hashing and verifying truncate the same way, so a password verifies against its own hash. */
  lemma HashThenVerify(password: Password, salt: nat, c: Crypt)
    requires IsText(password) && Correct(c)
    ensures VerifyPassword(password, HashPassword(password, salt, c), c)
  {
  }

  /**
   * Two passwords that agree on their first 72 bytes' worth of whole characters
   * are interchangeable: each verifies against the other's hash.
   */
  lemma SameTruncationSameVerdict(a: Password, b: Password, hashed: string, c: Crypt)
    requires IsText(a) && IsText(b) && TruncateBcrypt(a) == TruncateBcrypt(b)
    ensures VerifyPassword(a, hashed, c) == VerifyPassword(b, hashed, c)
  {
  }

  /** A value in a token's claims: text, or the expiry as a point in time in seconds. */
  datatype Claim = Text(text: string) | Time(seconds: int)

  /**
   * The claims `create_access_token` signs: a copy of `data` with "exp" set to now
   * plus the delta, or plus the configured minutes when no delta is given or the
   * delta is zero (a zero `timedelta` is false). Times are in seconds; the clock
   * reading is a parameter and the JWT signing is not modelled.
   */
  function AccessTokenClaims(data: map<string, Claim>, expiresDelta: Option<int>, now: int): (claims: map<string, Claim>)
    ensures claims.Keys == data.Keys + {"exp"}
    ensures forall k :: k in data && k != "exp" ==> claims[k] == data[k]
    ensures expiresDelta.Some? && expiresDelta.value != 0 ==> claims["exp"] == Time(now + expiresDelta.value)
    ensures expiresDelta.None? || expiresDelta == Some(0) ==> claims["exp"] == Time(now + AccessTokenExpireMinutes * 60)
  {
    var expire := if expiresDelta.Some? && expiresDelta.value != 0 then now + expiresDelta.value
                  else now + AccessTokenExpireMinutes * 60;
    data["exp" := Time(expire)]
  }
}

=== FILE: broker_handlers.dfy ===
/**
 * The broker's listing submission
 * (src/infrastructure/telegram_bot/handlers/broker_handlers.py): a linear chat
 * that collects type, bedrooms, bathrooms, size, region and price, then at least
 * three photos, then a description, writing each answer into
 * `user_data['submission_data']`. These handlers run without the
 * `handle_exceptions` decorator, so what they raise escapes them (`Failed`).
 *
 * The size table `SIZE_RANGES` (label to "lo-hi") and Python's `float` are
 * parameters: the keyboard module does not define the table, and float parsing
 * is not modelled.
 */
module BrokerHandlers {
  import opened Wrappers
  import opened Text
  import opened Exceptions
  import opened CommonModels
  import opened PropertyModels
  import opened UserModels
  import opened Constants
  import opened Repository
  import opened Listings
  import opened Accounts
  import opened BotSession
  import Keyboards

  const SubmissionKey := "submission_data"
  const UserKey := "user"
  const ImagesKey := "image_urls"

  /** The city stored with the region, which the chat never asks for. */
  const UnknownCity := "N/A"

  /** The broker name stored for an account without a display name. */
  const UnknownBroker := "N/A"

  /** `int(text.replace('+', ''))`: the keyboards' "6+" counts as 6. */
  function RoomCount(text: string): (n: Option<int>)
    ensures AllDigits(text) && |text| >= 1 ==> n == Some(DigitsValue(text))
  {
    RemoveAllAbsentDigits(text);
    ParseInt(RemoveAll(text, '+'))
  }

  lemma RemoveAllAbsentDigits(text: string)
    ensures AllDigits(text) ==> RemoveAll(text, '+') == text
  {
    if AllDigits(text) {
      RemoveAllAbsent(text, '+');
    }
  }

  /**
   * `(int(parts[0]) + int(parts[1])) / 2` over `value.split('-')`, evaluated left
   * to right: the first piece is read before the second is indexed. The midpoint
   * of the range, or the `ValueError`/`IndexError` a malformed value raises.
   */
  function Midpoint(value: string): (r: Result<real, Raised>)
    ensures r.Ok? <==> Keyboards.ParsePriceRange(value).Some?
    ensures Keyboards.ParsePriceRange(value).Some? ==>
      var (lo, hi) := Keyboards.ParsePriceRange(value).value;
      r == Ok((lo + hi) as real / 2.0)
    ensures r == Err(Unexpected("IndexError")) <==> '-' !in value && ParseInt(value).Some?
    ensures r.Err? ==> r.error == Unexpected("IndexError") || r.error == Unexpected("ValueError")
  {
    var parts := Split(value, '-');
    SplitAtSeparator(value, '-');
    if '-' !in value then SplitPlain(value, '-'); MidpointOfParts(parts) else MidpointOfParts(parts)
  }

  /** The left-to-right evaluation over the pieces of the split. */
  function MidpointOfParts(parts: seq<string>): Result<real, Raised>
    requires |parts| >= 1
  {
    var lo := ParseInt(parts[0]);
    if lo.None? then Err(Unexpected("ValueError"))
    else if |parts| < 2 then Err(Unexpected("IndexError"))
    else
      var hi := ParseInt(parts[1]);
      if hi.None? then Err(Unexpected("ValueError"))
      else Ok((lo.value + hi.value) as real / 2.0)
  }

  /** A well-formed range gives a size between its bounds. */
  lemma MidpointOfRange(lo: nat, hi: nat)
    requires lo <= hi
    ensures Midpoint(Keyboards.Range(lo, hi)).Ok?
    ensures lo as real <= Midpoint(Keyboards.Range(lo, hi)).value <= hi as real
  {
    Keyboards.ParseRange(lo, hi);
  }

  /** `user.display_name or "N/A"`. */
  function BrokerName(u: User): (name: string)
    ensures name != ""
    ensures u.displayName.Some? && u.displayName.value != "" ==> name == u.displayName.value
  {
    if u.displayName.Some? && u.displayName.value != "" then u.displayName.value else UnknownBroker
  }

  /** Every field `PropertyCreate` requires is in the draft. */
  predicate Complete(d: Draft)
  {
    d.propertyType.Some? && d.bedrooms.Some? && d.bathrooms.Some? && d.sizeSqm.Some?
    && d.location.Some? && d.priceEtb.Some? && d.imageUrls.Some? && d.description.Some?
  }

  /** The record a complete draft describes; the optional extras keep their defaults. */
  function Assemble(d: Draft, brokerId: string, brokerName: string): PropertyCreate
    requires Complete(d)
  {
    PropertyCreate(
      propertyType := d.propertyType.value, location := d.location.value,
      bedrooms := d.bedrooms.value, bathrooms := d.bathrooms.value,
      sizeSqm := d.sizeSqm.value, priceEtb := d.priceEtb.value,
      description := d.description.value, imageUrls := d.imageUrls.value,
      brokerId := brokerId, brokerName := brokerName)
  }

  /**
   * `PropertyCreate(broker_id=..., broker_name=..., **submission_data)`: the
   * validated record, or the name of a field that is missing or breaks a constraint.
   */
  function ListingFromDraft(d: Draft, brokerId: string, brokerName: string): (r: Result<PropertyCreate, string>)
    ensures r.Ok? <==> Complete(d) && ValidPropertyCreate(Assemble(d, brokerId, brokerName))
    ensures r.Ok? ==> r.value == Assemble(d, brokerId, brokerName)
  {
    if d.propertyType.None? then Err("property_type")
    else if d.location.None? then Err("location")
    else if d.bedrooms.None? then Err("bedrooms")
    else if d.bathrooms.None? then Err("bathrooms")
    else if d.sizeSqm.None? then Err("size_sqm")
    else if d.priceEtb.None? then Err("price_etb")
    else if d.description.None? then Err("description")
    else if d.imageUrls.None? then Err("image_urls")
    else ValidatePropertyCreate(Assemble(d, brokerId, brokerName))
  }

  /** The draft the chat would have collected for `p`. */
  function DraftOf(p: PropertyCreate): Draft
  {
    Draft(Some(p.propertyType), Some(p.bedrooms), Some(p.bathrooms), Some(p.sizeSqm),
          Some(p.location), Some(p.priceEtb), Some(p.imageUrls), Some(p.description))
  }

  /**
   * Every valid listing that uses only the fields the chat asks for can be
   * submitted through it: its draft validates back to the listing itself.
   */
  lemma DraftRoundTrip(p: PropertyCreate)
    requires ValidPropertyCreate(p)
    requires p == Assemble(DraftOf(p), p.brokerId, p.brokerName)
    ensures ListingFromDraft(DraftOf(p), p.brokerId, p.brokerName) == Ok(p)
  {
  }

  /** The position of each submission state in the chat; 0 for every other state. */
  function Stage(state: ConvState): nat
  {
    match state
    case SubmitBedrooms => 1
    case SubmitBathrooms => 2
    case SubmitSize => 3
    case SubmitLocationRegion => 4
    case SubmitPrice => 5
    case SubmitImages => 6
    case SubmitDescription => 7
    case _ => 0
  }

  /**
   * The answers a draft holds when the chat is in `state`: every field asked for
   * before it, and in the description state the photos the listing needs.
   */
  predicate Collected(state: ConvState, d: Draft)
  {
    var k := Stage(state);
    (k >= 1 ==> d.propertyType.Some?) && (k >= 2 ==> d.bedrooms.Some?)
    && (k >= 3 ==> d.bathrooms.Some?) && (k >= 4 ==> d.sizeSqm.Some?)
    && (k >= 5 ==> d.location.Some?) && (k >= 6 ==> d.priceEtb.Some? && d.imageUrls.Some?)
    && (k >= 7 ==> |d.imageUrls.value| >= MinImages)
  }

  /**
   * A draft that has reached the description state becomes a listing once the
   * description is added, unless a count, the size or the price is not positive:
   * the photo bound the chat enforces is the one the record demands.
   */
  lemma DescriptionCompletes(d: Draft, text: string, brokerId: string, brokerName: string)
    requires Collected(SubmitDescription, d)
    ensures Complete(d.(description := Some(text)))
    ensures ListingFromDraft(d.(description := Some(text)), brokerId, brokerName).Ok?
      <==> d.bedrooms.value > 0 && d.bathrooms.value > 0 && d.sizeSqm.value > 0.0 && d.priceEtb.value > 0.0
  {
  }

  /** The session keys outside the submission are left alone. */
  twostate predicate OthersKept(ud: UserData)
    reads ud
  {
    ud.user == old(ud.user) && ud.filters == old(ud.filters) && ud.propToReject == old(ud.propToReject)
  }

  /** `start_submission`: a fresh, empty draft. */
  method StartSubmission(ud: UserData) returns (o: Outcome)
    modifies ud
    ensures o == Next(SubmitPropType) && ud.submission == Some(Draft())
    ensures Collected(SubmitPropType, ud.submission.value)
    ensures OthersKept(ud)
  {
    ud.submission := Some(Draft());
    o := Next(SubmitPropType);
  }

  /** `receive_property_type`: a property type's exact value is stored; other text is asked again. */
  method ReceivePropertyType(ud: UserData, text: string) returns (o: Outcome)
    modifies ud
    ensures ParsePropertyType(text).None? ==> o == Next(SubmitPropType) && ud.submission == old(ud.submission)
    ensures ParsePropertyType(text).Some? && old(ud.submission).None? ==>
      o == Failed(MissingKey(SubmissionKey)) && ud.submission == old(ud.submission)
    ensures ParsePropertyType(text).Some? && old(ud.submission).Some? ==>
      o == Next(SubmitBedrooms) && ud.submission == Some(old(ud.submission).value.(propertyType := ParsePropertyType(text)))
    ensures old(ud.submission).Some? && Collected(SubmitPropType, old(ud.submission).value) && o.Next? ==>
      ud.submission.Some? && Collected(o.state, ud.submission.value)
    ensures OthersKept(ud)
  {
    var t := ParsePropertyType(text);
    if t.None? {
      return Next(SubmitPropType);
    }
    if ud.submission.None? {
      return Failed(MissingKey(SubmissionKey));
    }
    ud.submission := Some(ud.submission.value.(propertyType := t));
    o := Next(SubmitBedrooms);
  }

  /** `receive_bedrooms`: the count is stored; text that is not a number is asked again. */
  method ReceiveBedrooms(ud: UserData, text: string) returns (o: Outcome)
    modifies ud
    ensures RoomCount(text).None? ==> o == Next(SubmitBedrooms) && ud.submission == old(ud.submission)
    ensures RoomCount(text).Some? && old(ud.submission).None? ==>
      o == Failed(MissingKey(SubmissionKey)) && ud.submission == old(ud.submission)
    ensures RoomCount(text).Some? && old(ud.submission).Some? ==>
      o == Next(SubmitBathrooms) && ud.submission == Some(old(ud.submission).value.(bedrooms := RoomCount(text)))
    ensures old(ud.submission).Some? && Collected(SubmitBedrooms, old(ud.submission).value) && o.Next? ==>
      ud.submission.Some? && Collected(o.state, ud.submission.value)
    ensures OthersKept(ud)
  {
    var n := RoomCount(text);
    if n.None? {
      return Next(SubmitBedrooms);
    }
    if ud.submission.None? {
      return Failed(MissingKey(SubmissionKey));
    }
    ud.submission := Some(ud.submission.value.(bedrooms := n));
    o := Next(SubmitBathrooms);
  }

  /** `receive_bathrooms`: as for bedrooms. */
  method ReceiveBathrooms(ud: UserData, text: string) returns (o: Outcome)
    modifies ud
    ensures RoomCount(text).None? ==> o == Next(SubmitBathrooms) && ud.submission == old(ud.submission)
    ensures RoomCount(text).Some? && old(ud.submission).None? ==>
      o == Failed(MissingKey(SubmissionKey)) && ud.submission == old(ud.submission)
    ensures RoomCount(text).Some? && old(ud.submission).Some? ==>
      o == Next(SubmitSize) && ud.submission == Some(old(ud.submission).value.(bathrooms := RoomCount(text)))
    ensures old(ud.submission).Some? && Collected(SubmitBathrooms, old(ud.submission).value) && o.Next? ==>
      ud.submission.Some? && Collected(o.state, ud.submission.value)
    ensures OthersKept(ud)
  {
    var n := RoomCount(text);
    if n.None? {
      return Next(SubmitBathrooms);
    }
    if ud.submission.None? {
      return Failed(MissingKey(SubmissionKey));
    }
    ud.submission := Some(ud.submission.value.(bathrooms := n));
    o := Next(SubmitSize);
  }

  /**
   * `receive_size`: only a label of the size table with a non-empty value is
   * accepted, and the midpoint of its range is stored. A malformed value raises.
   */
  method ReceiveSize(ud: UserData, text: string, sizeRanges: map<string, string>) returns (o: Outcome)
    modifies ud
    ensures text !in sizeRanges || sizeRanges[text] == "" ==> o == Next(SubmitSize) && ud.submission == old(ud.submission)
    ensures text in sizeRanges && sizeRanges[text] != "" ==>
      var size := Midpoint(sizeRanges[text]);
      if size.Err? then o == Failed(size.error) && ud.submission == old(ud.submission)
      else if old(ud.submission).None? then o == Failed(MissingKey(SubmissionKey)) && ud.submission.None?
      else o == Next(SubmitLocationRegion) && ud.submission == Some(old(ud.submission).value.(sizeSqm := Some(size.value)))
    ensures o == Failed(Unexpected("IndexError")) <==>
      text in sizeRanges && '-' !in sizeRanges[text] && ParseInt(sizeRanges[text]).Some?
    ensures old(ud.submission).Some? && Collected(SubmitSize, old(ud.submission).value) && o.Next? ==>
      ud.submission.Some? && Collected(o.state, ud.submission.value)
    ensures OthersKept(ud)
  {
    if text !in sizeRanges || sizeRanges[text] == "" {
      return Next(SubmitSize);
    }
    var size := Midpoint(sizeRanges[text]);
    if size.Err? {
      return Failed(size.error);
    }
    if ud.submission.None? {
      return Failed(MissingKey(SubmissionKey));
    }
    ud.submission := Some(ud.submission.value.(sizeSqm := Some(size.value)));
    o := Next(SubmitLocationRegion);
  }

  /** `receive_location_region`: any text is the region, with the city unknown. */
  method ReceiveLocationRegion(ud: UserData, text: string) returns (o: Outcome)
    modifies ud
    ensures old(ud.submission).None? ==> o == Failed(MissingKey(SubmissionKey)) && ud.submission.None?
    ensures old(ud.submission).Some? ==>
      o == Next(SubmitPrice) && ud.submission == Some(old(ud.submission).value.(location := Some(Location(text, UnknownCity))))
    ensures old(ud.submission).Some? && Collected(SubmitLocationRegion, old(ud.submission).value) ==>
      ud.submission.Some? && Collected(o.state, ud.submission.value)
    ensures OthersKept(ud)
  {
    if ud.submission.None? {
      return Failed(MissingKey(SubmissionKey));
    }
    ud.submission := Some(ud.submission.value.(location := Some(Location(text, UnknownCity))));
    o := Next(SubmitPrice);
  }

  /**
   * `receive_price`: a number is stored as the price and the photo list starts
   * empty; other text is asked again.
   */
  method ReceivePrice(ud: UserData, text: string, parseFloat: string -> Option<real>) returns (o: Outcome)
    modifies ud
    ensures parseFloat(text).None? ==> o == Next(SubmitPrice) && ud.submission == old(ud.submission)
    ensures parseFloat(text).Some? && old(ud.submission).None? ==>
      o == Failed(MissingKey(SubmissionKey)) && ud.submission.None?
    ensures parseFloat(text).Some? && old(ud.submission).Some? ==>
      o == Next(SubmitImages) && ud.submission == Some(old(ud.submission).value.(priceEtb := parseFloat(text), imageUrls := Some([])))
    ensures old(ud.submission).Some? && Collected(SubmitPrice, old(ud.submission).value) && o.Next? ==>
      ud.submission.Some? && Collected(o.state, ud.submission.value)
    ensures OthersKept(ud)
  {
    var price := parseFloat(text);
    if price.None? {
      return Next(SubmitPrice);
    }
    if ud.submission.None? {
      return Failed(MissingKey(SubmissionKey));
    }
    ud.submission := Some(ud.submission.value.(priceEtb := price, imageUrls := Some([])));
    o := Next(SubmitImages);
  }

  /**
   * `receive_images`: a photo, given as the file ids of its sizes from smallest
   * to largest, appends the largest one's id and stays; a message without a
   * photo changes nothing.
   */
  method ReceiveImages(ud: UserData, photo: seq<string>) returns (o: Outcome)
    modifies ud
    ensures |photo| == 0 ==> o == Next(SubmitImages) && ud.submission == old(ud.submission)
    ensures |photo| > 0 && (old(ud.submission).None? || old(ud.submission).value.imageUrls.None?) ==>
      o.Failed? && o.error.MissingKey? && ud.submission == old(ud.submission)
    ensures |photo| > 0 && old(ud.submission).Some? && old(ud.submission).value.imageUrls.Some? ==>
      o == Next(SubmitImages)
      && ud.submission == Some(old(ud.submission).value.(imageUrls := Some(old(ud.submission).value.imageUrls.value + [photo[|photo| - 1]])))
    ensures old(ud.submission).Some? && Collected(SubmitImages, old(ud.submission).value) && o.Next? ==>
      ud.submission.Some? && Collected(o.state, ud.submission.value)
    ensures OthersKept(ud)
  {
    if |photo| == 0 {
      return Next(SubmitImages);
    }
    if ud.submission.None? {
      return Failed(MissingKey(SubmissionKey));
    }
    var d := ud.submission.value;
    if d.imageUrls.None? {
      return Failed(MissingKey(ImagesKey));
    }
    ud.submission := Some(d.(imageUrls := Some(d.imageUrls.value + [photo[|photo| - 1]])));
    o := Next(SubmitImages);
  }

  /** The photos `done_receiving_images` counts: none when the draft or its list is missing. */
  function ImagesOf(submission: Option<Draft>): seq<string>
  {
    if submission.Some? && submission.value.imageUrls.Some? then submission.value.imageUrls.value else []
  }

  /**
   * `done_receiving_images`: the description is asked for exactly when at least
   * three photos have arrived; otherwise more are asked for. The session is not
   * touched either way.
   */
  method DoneReceivingImages(ud: UserData) returns (o: Outcome)
    ensures o == Next(SubmitDescription) <==> |ImagesOf(ud.submission)| >= MinImages
    ensures o == Next(SubmitImages) <==> |ImagesOf(ud.submission)| < MinImages
    ensures ud.submission.Some? && Collected(SubmitImages, ud.submission.value) ==> Collected(o.state, ud.submission.value)
  {
    var images := ImagesOf(ud.submission);
    if |images| < MinImages {
      return Next(SubmitImages);
    }
    o := Next(SubmitDescription);
  }

  /** The listing the description step builds from the draft and the cached account. */
  function Submitted(d: Draft, text: string, u: User): Result<PropertyCreate, string>
  {
    ListingFromDraft(d.(description := Some(text)), u.uid, BrokerName(u))
  }

  /**
   * `receive_description`: the description is stored; then, with an account
   * cached, the draft is submitted if it validates (as a pending listing under
   * the fresh id `pid`), and whether or not it does the draft is dropped and the
   * conversation ends. The two dictionary reads before the `try` raise when the
   * draft or the account is missing.
   */
  method ReceiveDescription(ud: UserData, props: PropertyUseCases, users: UserUseCases, text: string, pid: string)
    returns (o: Outcome)
    requires users.repo == props.repo && props.repo.Valid() && pid !in props.repo.properties
    modifies ud, props.repo
    ensures props.repo.Valid()
    ensures old(ud.submission).None? ==>
      o == Failed(MissingKey(SubmissionKey)) && ud.submission.None? && props.repo.properties == old(props.repo.properties)
    ensures old(ud.submission).Some? && old(ud.user).None? ==>
      o == Failed(MissingKey(UserKey)) && ud.submission == Some(old(ud.submission).value.(description := Some(text)))
      && props.repo.properties == old(props.repo.properties)
    ensures old(ud.submission).Some? && old(ud.user).Some? ==>
      o == Next(End) && ud.submission.None?
      && var listing := Submitted(old(ud.submission).value, text, old(ud.user).value);
         if listing.Ok? then
           props.repo.properties == old(props.repo.properties)[pid := Property(pid, listing.value.(location := StoredLocation(listing.value.location)))]
         else props.repo.properties == old(props.repo.properties)
    ensures props.repo.users == old(props.repo.users) && props.repo.cars == old(props.repo.cars)
    ensures OthersKept(ud)
  {
    if ud.submission.None? {
      return Failed(MissingKey(SubmissionKey));
    }
    ud.submission := Some(ud.submission.value.(description := Some(text)));
    if ud.user.None? {
      return Failed(MissingKey(UserKey));
    }
    var u := ud.user.value;
    var listing := ListingFromDraft(ud.submission.value, u.uid, BrokerName(u));
    if listing.Ok? {
      var p := props.SubmitProperty(listing.value, pid);
      var admin := users.GetAdminTelegramId();
    }
    ud.submission := None;
    o := Next(End);
  }
}

=== FILE: buyer_handlers.dfy ===
/**
 * The buyer's search (src/infrastructure/telegram_bot/handlers/buyer_handlers.py):
 * a chat that collects a property type, then optional bedroom, region and price
 * criteria (each with an "Any" choice), and a condominium scheme for
 * condominiums only, into `user_data['filters']`, then shows the first matches.
 * These handlers run without `handle_exceptions`, so what they raise escapes
 * them (`Failed`).
 */
module BuyerHandlers {
  import opened Wrappers
  import opened Text
  import opened Exceptions
  import opened CommonModels
  import opened PropertyModels
  import opened Constants
  import opened Repository
  import opened Listings
  import opened BotSession
  import Keyboards
  import BrokerHandlers

  const FiltersKey := "filters"

  /** At most this many matches are sent to the chat. */
  const MaxShown := 5

  function Min(a: int, b: int): int { if a < b then a else b }

  /**
   * `show_properties`: the listings the filter finds, of which the first five
   * are shown. The search reads the repository and changes nothing.
   */
  method ShowProperties(props: PropertyUseCases, f: PropertyFilter) returns (results: seq<Property>, shown: seq<Property>)
    requires props.repo.Valid()
    ensures props.repo.Lists(results, Queried(f))
    ensures shown == results[..Min(|results|, MaxShown)]
    ensures |shown| <= MaxShown && (|results| >= MaxShown ==> |shown| == MaxShown)
  {
    results := props.FindProperties(f);
    shown := results[..Min(|results|, MaxShown)];
  }

  /** The session keys outside the search are left alone. */
  twostate predicate OthersKept(ud: UserData)
    reads ud
  {
    ud.user == old(ud.user) && ud.submission == old(ud.submission) && ud.propToReject == old(ud.propToReject)
  }

  /** `start_filtering`: a fresh search with no criteria. */
  method StartFiltering(ud: UserData) returns (o: Outcome)
    modifies ud
    ensures o == Next(FilterPropType) && ud.filters == Some(FilterDraft())
    ensures IsEmptyFilter(FilterOf(ud.filters.value))
    ensures OthersKept(ud)
  {
    ud.filters := Some(FilterDraft());
    o := Next(FilterPropType);
  }

  /** `receive_filter_prop_type`: a type is required; any other text, "Any" included, is asked again. */
  method ReceiveFilterPropType(ud: UserData, text: string) returns (o: Outcome)
    modifies ud
    ensures ParsePropertyType(text).None? ==> o == Next(FilterPropType) && ud.filters == old(ud.filters)
    ensures ParsePropertyType(text).Some? && old(ud.filters).None? ==>
      o == Failed(MissingKey(FiltersKey)) && ud.filters.None?
    ensures ParsePropertyType(text).Some? && old(ud.filters).Some? ==>
      o == Next(FilterBedrooms) && ud.filters == Some(old(ud.filters).value.(propertyType := ParsePropertyType(text)))
    ensures OthersKept(ud)
  {
    var t := ParsePropertyType(text);
    if t.None? {
      return Next(FilterPropType);
    }
    if ud.filters.None? {
      return Failed(MissingKey(FiltersKey));
    }
    ud.filters := Some(ud.filters.value.(propertyType := t));
    o := Next(FilterBedrooms);
  }

  /** `receive_filter_bedrooms`: "Any" sets no minimum; a count is the minimum; other text is asked again. */
  method ReceiveFilterBedrooms(ud: UserData, text: string) returns (o: Outcome)
    modifies ud
    ensures text == AnyOption ==> o == Next(FilterLocationRegion) && ud.filters == old(ud.filters)
    ensures text != AnyOption && BrokerHandlers.RoomCount(text).None? ==>
      o == Next(FilterBedrooms) && ud.filters == old(ud.filters)
    ensures text != AnyOption && BrokerHandlers.RoomCount(text).Some? && old(ud.filters).None? ==>
      o == Failed(MissingKey(FiltersKey)) && ud.filters.None?
    ensures text != AnyOption && BrokerHandlers.RoomCount(text).Some? && old(ud.filters).Some? ==>
      o == Next(FilterLocationRegion)
      && ud.filters == Some(old(ud.filters).value.(minBedrooms := BrokerHandlers.RoomCount(text)))
    ensures OthersKept(ud)
  {
    if text != AnyOption {
      var n := BrokerHandlers.RoomCount(text);
      if n.None? {
        return Next(FilterBedrooms);
      }
      if ud.filters.None? {
        return Failed(MissingKey(FiltersKey));
      }
      ud.filters := Some(ud.filters.value.(minBedrooms := n));
    }
    o := Next(FilterLocationRegion);
  }

  /** `receive_filter_region`: "Any Region" sets nothing, any other text is the region; the step always advances. */
  method ReceiveFilterRegion(ud: UserData, text: string) returns (o: Outcome)
    modifies ud
    ensures text == AnyRegion ==> o == Next(FilterPriceRange) && ud.filters == old(ud.filters)
    ensures text != AnyRegion && old(ud.filters).None? ==> o == Failed(MissingKey(FiltersKey)) && ud.filters.None?
    ensures text != AnyRegion && old(ud.filters).Some? ==>
      o == Next(FilterPriceRange) && ud.filters == Some(old(ud.filters).value.(locationRegion := Some(text)))
    ensures OthersKept(ud)
  {
    if text != AnyRegion {
      if ud.filters.None? {
        return Failed(MissingKey(FiltersKey));
      }
      ud.filters := Some(ud.filters.value.(locationRegion := Some(text)));
    }
    o := Next(FilterPriceRange);
  }

  /**
   * The end of the search, shared by the price and scheme steps: the collected
   * criteria are searched for, the search is dropped and the conversation ends.
   */
  method Finish(ud: UserData, props: PropertyUseCases) returns (o: Outcome, results: seq<Property>, shown: seq<Property>)
    requires props.repo.Valid() && ud.filters.Some?
    modifies ud
    ensures o == Next(End) && ud.filters.None?
    ensures props.repo.Lists(results, Queried(FilterOf(old(ud.filters).value)))
    ensures shown == results[..Min(|results|, MaxShown)]
    ensures OthersKept(ud)
  {
    results, shown := ShowProperties(props, FilterOf(ud.filters.value));
    ud.filters := None;
    o := Next(End);
  }

  /** The bounds a price label stands for, when it is in the table and its value reads as "lo-hi". */
  function PriceBounds(text: string): (bounds: Option<(int, int)>)
    ensures bounds.Some? ==> Keyboards.PriceRangeFor(text).Some?
  {
    var value := Keyboards.PriceRangeFor(text);
    if value.None? then None else Keyboards.ParsePriceRange(value.value)
  }

  /**
   * `receive_filter_price_range`: "Any Price" sets no bounds; a label of the price
   * table sets both bounds from its "lo-hi" value; other text is asked again.
   * Then a condominium search asks for the scheme and any other search finishes.
   */
  method ReceiveFilterPriceRange(ud: UserData, props: PropertyUseCases, text: string)
    returns (o: Outcome, results: seq<Property>, shown: seq<Property>)
    requires props.repo.Valid()
    modifies ud
    ensures text != AnyPrice && Keyboards.PriceRangeFor(text).None? ==>
      o == Next(FilterPriceRange) && ud.filters == old(ud.filters)
    ensures old(ud.filters).Some? && (text == AnyPrice || PriceBounds(text).Some?) ==>
      var criteria := if text == AnyPrice then old(ud.filters).value
                      else old(ud.filters).value.(minPrice := Some(PriceBounds(text).value.0 as real),
                                                  maxPrice := Some(PriceBounds(text).value.1 as real));
      if criteria.propertyType == Some(Condominium) then
        o == Next(FilterCondoScheme) && ud.filters == Some(criteria)
      else
        o == Next(End) && ud.filters.None? && props.repo.Lists(results, Queried(FilterOf(criteria)))
    ensures old(ud.filters).None? ==> o.Failed? || o == Next(FilterPriceRange)
    ensures o.Next? && o.state == End ==> ud.filters.None? && shown == results[..Min(|results|, MaxShown)]
    ensures o == Next(FilterCondoScheme) ==> ud.filters.Some? && ud.filters.value.propertyType == Some(Condominium)
    ensures OthersKept(ud)
  {
    results, shown := [], [];
    if text != AnyPrice {
      var value := Keyboards.PriceRangeFor(text);
      if value.None? || value.value == "" {
        return Next(FilterPriceRange), [], [];
      }
      var parts := Split(value.value, '-');
      var lo := ParseInt(parts[0]);
      if lo.None? {
        return Failed(Unexpected("ValueError")), [], [];
      }
      if ud.filters.None? {
        return Failed(MissingKey(FiltersKey)), [], [];
      }
      ud.filters := Some(ud.filters.value.(minPrice := Some(lo.value as real)));
      if |parts| < 2 {
        return Failed(Unexpected("IndexError")), [], [];
      }
      var hi := ParseInt(parts[1]);
      if hi.None? {
        return Failed(Unexpected("ValueError")), [], [];
      }
      ud.filters := Some(ud.filters.value.(maxPrice := Some(hi.value as real)));
    }
    if ud.filters.None? {
      return Failed(MissingKey(FiltersKey)), [], [];
    }
    if ud.filters.value.propertyType == Some(Condominium) {
      return Next(FilterCondoScheme), [], [];
    }
    o, results, shown := Finish(ud, props);
  }

  /** Every price label but "Any Price" sets both bounds, the lower below the upper. */
  lemma PriceLabelsSetBounds(text: string)
    requires text in Keyboards.PriceRangeLabels && text != AnyPrice
    ensures PriceBounds(text).Some? && PriceBounds(text).value.0 < PriceBounds(text).value.1
  {
    Keyboards.PriceRangesWellFormed(text);
  }

  /**
   * `receive_filter_condo_scheme`: "Any Scheme" sets no scheme, a scheme value is
   * stored, other text is asked again; then the search finishes.
   */
  method ReceiveFilterCondoScheme(ud: UserData, props: PropertyUseCases, text: string)
    returns (o: Outcome, results: seq<Property>, shown: seq<Property>)
    requires props.repo.Valid()
    modifies ud
    ensures text != AnyScheme && ParseCondoScheme(text).None? ==>
      o == Next(FilterCondoScheme) && ud.filters == old(ud.filters)
    ensures old(ud.filters).None? && (text == AnyScheme || ParseCondoScheme(text).Some?) ==>
      o == Failed(MissingKey(FiltersKey)) && ud.filters.None?
    ensures old(ud.filters).Some? && (text == AnyScheme || ParseCondoScheme(text).Some?) ==>
      var criteria := if text == AnyScheme then old(ud.filters).value
                      else old(ud.filters).value.(condominiumScheme := ParseCondoScheme(text));
      o == Next(End) && ud.filters.None? && props.repo.Lists(results, Queried(FilterOf(criteria)))
      && shown == results[..Min(|results|, MaxShown)]
    ensures OthersKept(ud)
  {
    results, shown := [], [];
    if text != AnyScheme {
      var scheme := ParseCondoScheme(text);
      if scheme.None? {
        return Next(FilterCondoScheme), [], [];
      }
      if ud.filters.None? {
        return Failed(MissingKey(FiltersKey)), [], [];
      }
      ud.filters := Some(ud.filters.value.(condominiumScheme := scheme));
    }
    if ud.filters.None? {
      return Failed(MissingKey(FiltersKey)), [], [];
    }
    o, results, shown := Finish(ud, props);
  }

  /**
   * `browse_all_properties`: the search with no criteria, which the repository
   * narrows to approved listings. The session is not touched.
   */
  method BrowseAllProperties(props: PropertyUseCases) returns (o: Outcome, results: seq<Property>, shown: seq<Property>)
    requires props.repo.Valid()
    ensures o == Next(End)
    ensures props.repo.Lists(results, WithStatus(Approved))
    ensures shown == results[..Min(|results|, MaxShown)]
  {
    results, shown := ShowProperties(props, PropertyFilter());
    EmptyFilterIsApproved();
    props.repo.ListsSame(results, Queried(PropertyFilter()), WithStatus(Approved));
    o := Next(End);
  }

  /**
   * A search answered "Any" at every optional step carries the property type
   * alone: it finds the approved listings of that type.
   */
  lemma AnyChoicesFilterByTypeOnly(t: PropertyType)
    ensures var f := FilterOf(FilterDraft(propertyType := Some(t)));
      f == PropertyFilter(propertyType := Some(t))
  {
  }
}

=== FILE: car_models.dfy ===
/** Car listings (src/domain/models/car_models.py): enums, the submitted and stored record, the filter. */
module CarModels {
  import opened Wrappers

  datatype CarType = Sedan | Automobile | VanMinivan | PickupTruck | ElectricHybrid | LuxuryPremium {
    function Value(): string {
      match this
      case Sedan => "Sedan"
      case Automobile => "Automobile"
      case VanMinivan => "Van/Minivan"
      case PickupTruck => "Pickup Truck"
      case ElectricHybrid => "Electric/Hybrid"
      case LuxuryPremium => "Luxury/Premium"
    }
  }

  /** The four moderation states of a car listing, the same four as for properties. */
  datatype CarStatus = CarPending | CarApproved | CarRejected | CarSold {
    function Value(): string {
      match this
      case CarPending => "pending"
      case CarApproved => "approved"
      case CarRejected => "rejected"
      case CarSold => "sold"
    }
  }

  /** `CarCreate`: no photos and pending by default; every descriptive field and the broker are optional. */
  datatype CarCreate = CarCreate(
    carType: CarType,
    priceEtb: real,
    images: seq<string> := [],
    status: CarStatus := CarPending,
    manufacturer: Option<string> := None,
    modelName: Option<string> := None,
    modelYear: Option<int> := None,
    color: Option<string> := None,
    plate: Option<string> := None,
    engine: Option<string> := None,
    powerHp: Option<int> := None,
    transmission: Option<string> := None,
    fuelEfficiencyKmpl: Option<real> := None,
    motorType: Option<string> := None,
    mileageKm: Option<real> := None,
    description: Option<string> := None,
    brokerId: Option<string> := None,
    brokerName: Option<string> := None,
    brokerPhone: Option<string> := None)

  /** `CarInDB`: the stored car and its id. */
  datatype Car = Car(cid: string, data: CarCreate)

  datatype CarFilter = CarFilter(
    carType: Option<CarType> := None,
    minPrice: Option<real> := None,
    maxPrice: Option<real> := None)

  /** Pydantic validation of a car: the price must be positive; there is no photo minimum. */
  function ValidateCarCreate(c: CarCreate): (r: Result<CarCreate, string>)
    ensures r.Ok? <==> c.priceEtb > 0.0
    ensures r.Ok? ==> r.value == c
  {
    if c.priceEtb <= 0.0 then Err("price_etb") else Ok(c)
  }

  /** Pydantic validation of a car filter: each price bound, when given, must be positive. */
  function ValidateCarFilter(f: CarFilter): (r: Result<CarFilter, string>)
    ensures r.Ok? <==> (f.minPrice.Some? ==> f.minPrice.value > 0.0) && (f.maxPrice.Some? ==> f.maxPrice.value > 0.0)
    ensures r.Ok? ==> r.value == f
  {
    if f.minPrice.Some? && f.minPrice.value <= 0.0 then Err("min_price")
    else if f.maxPrice.Some? && f.maxPrice.value <= 0.0 then Err("max_price")
    else Ok(f)
  }

  function AllCarStatuses(): (all: seq<CarStatus>)
    ensures |all| == 4
    ensures forall i, j :: 0 <= i < j < |all| ==> all[i] != all[j]
  {
    [CarPending, CarApproved, CarRejected, CarSold]
  }

  lemma AllCarStatusesComplete(x: CarStatus)
    ensures x in AllCarStatuses()
  {
    match x
    case CarPending =>
    case CarApproved =>
    case CarRejected =>
    case CarSold =>
  }
}

=== FILE: common_handlers.dfy ===
/**
 * The handlers every conversation shares
 * (src/infrastructure/telegram_bot/handlers/common_handlers.py). Two decorators
 * wrap them: `ensure_user_data`, which caches the account in `user_data` before
 * the handler runs, and `handle_exceptions`, which turns anything the handler
 * raises into an error reply, wipes the flow keys and ends the conversation. In
 * the model the handler calls the first as `EnsureUserData` and routes every
 * error it meets through the second as `Recover`.
 */
module CommonHandlers {
  import opened Wrappers
  import opened Text
  import opened Exceptions
  import opened UserModels
  import opened CommonModels
  import opened Constants
  import opened Repository
  import opened Accounts
  import opened BotSession
  import Keyboards
  import I18n

  const UnexpectedErrorText := "An unexpected error occurred. Our team has been notified. Please try again later."

  /** The script of the Amharic button, which marks a choice of Amharic. */
  const AmharicName := "አማርኛ"

  /**
   * The reply `handle_exceptions` sends: the message of an application error, the
   * detail of a Telegram library error, and one fixed text for anything else.
   */
  function ErrorText(e: Raised): (text: string)
    ensures e.App? ==> text == "⚠️ Error: " + Message(e.error)
    ensures e.Telegram? ==> text == Message(NewTelegramApiError(Some("A Telegram error occurred: " + e.detail)))
    ensures e.MissingKey? || e.Unexpected? ==> text == UnexpectedErrorText
  {
    match e
    case App(error) => "⚠️ Error: " + Message(error)
    case Telegram(detail) => "A Telegram error occurred: " + detail
    case _ => UnexpectedErrorText
  }

  /**
   * `handle_exceptions` catching `e`, with `_send_error_response`: whatever was
   * raised, the three flow keys go, the cached account stays, and the
   * conversation ends.
   */
  method Recover(ud: UserData, e: Raised) returns (o: Outcome, reply: string)
    modifies ud
    ensures o == Next(End) && reply == ErrorText(e)
    ensures ud.Idle() && ud.user == old(ud.user)
  {
    ud.ClearFlows();
    o := Next(End);
    reply := ErrorText(e);
  }

  /** Whether `ensure_user_data` lets the handler run: an account is cached or the update has a sender. */
  predicate Proceeds(cached: Option<User>, sender: Option<Sender>)
  {
    cached.Some? || sender.Some?
  }

  /**
   * The accounts `ensure_user_data` leaves behind, from the cache and account
   * table before (`cached`, `before`) to those after (`after`, `now`): with an
   * account cached, or no sender, both as they were; otherwise the sender's
   * account cached and stored under its id, every other account as it was.
   */
  predicate AccountsKept(cached: Option<User>, sender: Option<Sender>, before: map<string, User>,
                         after: Option<User>, now: map<string, User>)
  {
    if cached.Some? || sender.None? then after == cached && now == before
    else after.Some? && after.value.telegramId == sender.value.id && now == before[after.value.uid := after.value]
  }

  /**
   * `ensure_user_data`: with no account cached, the sender's account is looked up
   * or created (under the fresh id `uid` if it must be created) and cached; with
   * no sender either, the handler does not run. A cached account is never
   * refreshed.
   */
  method EnsureUserData(ud: UserData, users: UserUseCases, sender: Option<Sender>, uid: string) returns (ready: bool)
    requires users.repo.Valid() && uid !in users.repo.users
    modifies ud, users.repo
    ensures users.repo.Valid()
    ensures ready == Proceeds(old(ud.user), sender) && (ready <==> ud.user.Some?)
    ensures old(ud.user).Some? || sender.None? ==> ud.user == old(ud.user) && users.repo.users == old(users.repo.users)
    ensures old(ud.user).None? && sender.Some? ==>
      ud.user.value.telegramId == sender.value.id
      && ud.user.value.uid in users.repo.users && users.repo.users[ud.user.value.uid] == ud.user.value
    ensures AccountsKept(old(ud.user), sender, old(users.repo.users), ud.user, users.repo.users)
    ensures ud.submission == old(ud.submission) && ud.filters == old(ud.filters) && ud.propToReject == old(ud.propToReject)
    ensures users.repo.properties == old(users.repo.properties) && users.repo.cars == old(users.repo.cars)
  {
    if ud.user.Some? {
      return true;
    }
    if sender.None? {
      return false;
    }
    var r := users.GetOrCreateUserByTelegramId(sender.value.id, Some(sender.value.fullName), uid);
    ud.user := Some(r.value);
    ready := true;
  }

  /** What `start` shows: role selection to an account without roles, the main menu otherwise. */
  datatype StartPrompt = RoleSelection | MainMenu

  /**
   * `start`: the conversation always ends. An account without roles is greeted by
   * the sender's first name and offered the role buttons, so it raises when the
   * update has no sender; any other account gets the main menu.
   */
  method Start(ud: UserData, users: UserUseCases, sender: Option<Sender>, uid: string)
    returns (o: Outcome, prompt: Option<StartPrompt>)
    requires users.repo.Valid() && uid !in users.repo.users
    modifies ud, users.repo
    ensures users.repo.Valid()
    ensures !Proceeds(old(ud.user), sender) ==> o == Unchanged && prompt.None? && ud.user.None?
    ensures Proceeds(old(ud.user), sender) ==> o == Next(End) && ud.user.Some?
    ensures prompt == Some(RoleSelection) <==> Proceeds(old(ud.user), sender) && sender.Some? && |ud.user.value.roles| == 0
    ensures prompt == Some(MainMenu) <==> Proceeds(old(ud.user), sender) && |ud.user.value.roles| > 0
    ensures prompt.None? && Proceeds(old(ud.user), sender) ==> ud.Idle()
    ensures prompt.Some? ==> ud.submission == old(ud.submission) && ud.filters == old(ud.filters) && ud.propToReject == old(ud.propToReject)
    ensures AccountsKept(old(ud.user), sender, old(users.repo.users), ud.user, users.repo.users)
    ensures users.repo.properties == old(users.repo.properties) && users.repo.cars == old(users.repo.cars)
  {
    var ready := EnsureUserData(ud, users, sender, uid);
    if !ready {
      return Unchanged, None;
    }
    if |ud.user.value.roles| == 0 {
      if sender.None? {
        var errorReply;
        o, errorReply := Recover(ud, Unexpected("AttributeError"));
        return o, None;
      }
      prompt := Some(RoleSelection);
    } else {
      prompt := Some(MainMenu);
    }
    o := Next(End);
  }

  /**
   * The role the first-time menu picks: buyer exactly when the text is the
   * English buyer button, broker for any other text. Admin is never chosen here.
   */
  function RoleChoice(text: string): (role: UserRole)
    ensures role == Buyer <==> text == Keyboards.Label("buyer_role", "en")
    ensures role == Broker <==> text != Keyboards.Label("buyer_role", "en")
  {
    if text == Keyboards.Label("buyer_role", "en") then Buyer else Broker
  }

  /** The buyer button reads "I'm a Buyer", so only that text makes a buyer. */
  lemma BuyerButtonText(text: string)
    ensures RoleChoice(text) == Buyer <==> text == "I'm a Buyer"
  {
    Keyboards.EnglishLabel("buyer_role", "I'm a Buyer");
  }

  /**
   * `set_user_role` once the role is chosen: `role` is added to the cached
   * account, which is replaced by the account as stored afterwards.
   */
  method AddRoleForSender(ud: UserData, users: UserUseCases, sender: Option<Sender>, uid: string, role: UserRole)
    returns (o: Outcome)
    requires users.repo.Valid() && uid !in users.repo.users
    modifies ud, users.repo
    ensures users.repo.Valid()
    ensures !Proceeds(old(ud.user), sender) ==> o == Unchanged && ud.user.None? && users.repo.users == old(users.repo.users)
    ensures Proceeds(old(ud.user), sender) ==> ud.user.Some?
    ensures o == Unchanged && ud.user.Some? ==>
      ud.user.value.uid in users.repo.users && ud.user.value == users.repo.users[ud.user.value.uid]
      && role in ud.user.value.roles
    ensures old(ud.user).Some? ==>
      var id, before := old(ud.user).value.uid, old(users.repo.users);
      if id in before then
        o == Unchanged && ud.user == Some(WithRole(before[id], role)) && users.repo.users == before[id := ud.user.value]
      else
        o == Next(End) && ud.user == old(ud.user) && users.repo.users == before
    ensures old(ud.user).None? && sender.Some? ==>
      o == Unchanged && ud.user.value.telegramId == sender.value.id
      && users.repo.users == old(users.repo.users)[ud.user.value.uid := ud.user.value]
    ensures o != Unchanged ==> o == Next(End) && ud.Idle()
    ensures o == Unchanged ==> ud.submission == old(ud.submission) && ud.filters == old(ud.filters) && ud.propToReject == old(ud.propToReject)
    ensures users.repo.properties == old(users.repo.properties) && users.repo.cars == old(users.repo.cars)
  {
    var ready := EnsureUserData(ud, users, sender, uid);
    if !ready {
      return Unchanged;
    }
    var r := users.AddUserRole(ud.user.value.uid, role);
    if r.Err? {
      var errorReply;
      o, errorReply := Recover(ud, App(r.error));
      return;
    }
    ud.user := Some(r.value);
    o := Unchanged;
  }

  /**
   * `set_user_role`: the chosen role is added to the cached account, which is
   * replaced by the account as stored afterwards. The conversation state is kept.
   */
  method SetUserRole(ud: UserData, users: UserUseCases, sender: Option<Sender>, uid: string, text: string)
    returns (o: Outcome)
    requires users.repo.Valid() && uid !in users.repo.users
    modifies ud, users.repo
    ensures users.repo.Valid()
    ensures !Proceeds(old(ud.user), sender) ==> o == Unchanged && ud.user.None? && users.repo.users == old(users.repo.users)
    ensures Proceeds(old(ud.user), sender) ==> ud.user.Some?
    ensures o == Unchanged && ud.user.Some? ==>
      ud.user.value.uid in users.repo.users && ud.user.value == users.repo.users[ud.user.value.uid]
      && RoleChoice(text) in ud.user.value.roles
    ensures old(ud.user).Some? ==>
      var id, before := old(ud.user).value.uid, old(users.repo.users);
      if id in before then
        o == Unchanged && ud.user == Some(WithRole(before[id], RoleChoice(text))) && users.repo.users == before[id := ud.user.value]
      else
        o == Next(End) && ud.user == old(ud.user) && users.repo.users == before
    ensures old(ud.user).None? && sender.Some? ==>
      o == Unchanged && ud.user.value.telegramId == sender.value.id
      && users.repo.users == old(users.repo.users)[ud.user.value.uid := ud.user.value]
    ensures o != Unchanged ==> o == Next(End) && ud.Idle()
    ensures o == Unchanged ==> ud.submission == old(ud.submission) && ud.filters == old(ud.filters) && ud.propToReject == old(ud.propToReject)
    ensures users.repo.properties == old(users.repo.properties) && users.repo.cars == old(users.repo.cars)
  {
    o := AddRoleForSender(ud, users, sender, uid, RoleChoice(text));
  }

  /** The language the menu picks: Amharic exactly when the text holds the Amharic name, English otherwise. */
  function LanguageChoice(text: string): (code: string)
    ensures code == "am" <==> Contains(text, AmharicName)
    ensures code == "en" <==> !Contains(text, AmharicName)
  {
    if Contains(text, AmharicName) then "am" else "en"
  }

  /** Both choices have a translation table, so the account stores exactly the chosen code. */
  lemma LanguageChoiceIsSupported(text: string)
    ensures I18n.Translations(LanguageChoice(text)).Some?
    ensures SupportedLanguage(LanguageChoice(text)) == LanguageChoice(text)
  {
  }

  /**
   * `set_language` once the code is chosen: the code, or English when it has no
   * translation table, is stored for the cached account, which is replaced by the
   * account as stored afterwards.
   */
  method StoreLanguageForSender(ud: UserData, users: UserUseCases, sender: Option<Sender>, uid: string, code: string)
    returns (o: Outcome)
    requires users.repo.Valid() && uid !in users.repo.users
    modifies ud, users.repo
    ensures users.repo.Valid()
    ensures !Proceeds(old(ud.user), sender) ==> o == Unchanged && ud.user.None? && users.repo.users == old(users.repo.users)
    ensures Proceeds(old(ud.user), sender) ==> ud.user.Some?
    ensures o == Unchanged && ud.user.Some? ==>
      ud.user.value.uid in users.repo.users && ud.user.value == users.repo.users[ud.user.value.uid]
      && ud.user.value.language == SupportedLanguage(code)
    ensures old(ud.user).Some? ==>
      var id, before := old(ud.user).value.uid, old(users.repo.users);
      if id in before then
        o == Unchanged && ud.user == Some(before[id].(language := SupportedLanguage(code)))
        && users.repo.users == before[id := ud.user.value]
      else
        o == Next(End) && ud.user == old(ud.user) && users.repo.users == before
    ensures old(ud.user).None? && sender.Some? ==>
      o == Unchanged && ud.user.value.telegramId == sender.value.id
      && users.repo.users == old(users.repo.users)[ud.user.value.uid := ud.user.value]
    ensures o != Unchanged ==> o == Next(End) && ud.Idle()
    ensures o == Unchanged ==> ud.submission == old(ud.submission) && ud.filters == old(ud.filters) && ud.propToReject == old(ud.propToReject)
    ensures users.repo.properties == old(users.repo.properties) && users.repo.cars == old(users.repo.cars)
  {
    var ready := EnsureUserData(ud, users, sender, uid);
    if !ready {
      return Unchanged;
    }
    var r := users.SetUserLanguage(ud.user.value.uid, code);
    if r.Err? {
      var errorReply;
      o, errorReply := Recover(ud, App(r.error));
      return;
    }
    ud.user := Some(r.value);
    o := Unchanged;
  }

  /**
   * `set_language`: the chosen language is stored for the cached account, which
   * is replaced by the account as stored afterwards. The conversation state is kept.
   */
  method SetLanguage(ud: UserData, users: UserUseCases, sender: Option<Sender>, uid: string, text: string)
    returns (o: Outcome)
    requires users.repo.Valid() && uid !in users.repo.users
    modifies ud, users.repo
    ensures users.repo.Valid()
    ensures !Proceeds(old(ud.user), sender) ==> o == Unchanged && ud.user.None? && users.repo.users == old(users.repo.users)
    ensures Proceeds(old(ud.user), sender) ==> ud.user.Some?
    ensures o == Unchanged && ud.user.Some? ==>
      ud.user.value.uid in users.repo.users && ud.user.value == users.repo.users[ud.user.value.uid]
      && ud.user.value.language == LanguageChoice(text)
    ensures old(ud.user).Some? ==>
      var id, before := old(ud.user).value.uid, old(users.repo.users);
      if id in before then
        o == Unchanged && ud.user == Some(before[id].(language := LanguageChoice(text)))
        && users.repo.users == before[id := ud.user.value]
      else
        o == Next(End) && ud.user == old(ud.user) && users.repo.users == before
    ensures old(ud.user).None? && sender.Some? ==>
      o == Unchanged && ud.user.value.telegramId == sender.value.id
      && users.repo.users == old(users.repo.users)[ud.user.value.uid := ud.user.value]
    ensures o != Unchanged ==> o == Next(End) && ud.Idle()
    ensures o == Unchanged ==> ud.submission == old(ud.submission) && ud.filters == old(ud.filters) && ud.propToReject == old(ud.propToReject)
    ensures users.repo.properties == old(users.repo.properties) && users.repo.cars == old(users.repo.cars)
  {
    LanguageChoiceIsSupported(text);
    o := StoreLanguageForSender(ud, users, sender, uid, LanguageChoice(text));
  }

  /** `cancel_conversation`: the flow keys go, the account stays cached, the conversation ends. */
  method Cancel(ud: UserData, users: UserUseCases, sender: Option<Sender>, uid: string) returns (o: Outcome)
    requires users.repo.Valid() && uid !in users.repo.users
    modifies ud, users.repo
    ensures users.repo.Valid()
    ensures !Proceeds(old(ud.user), sender) ==>
      o == Unchanged && ud.user.None? && ud.submission == old(ud.submission)
      && ud.filters == old(ud.filters) && ud.propToReject == old(ud.propToReject)
    ensures Proceeds(old(ud.user), sender) ==> o == Next(End) && ud.Idle() && ud.user.Some?
    ensures old(ud.user).Some? ==> ud.user == old(ud.user)
    ensures AccountsKept(old(ud.user), sender, old(users.repo.users), ud.user, users.repo.users)
    ensures users.repo.properties == old(users.repo.properties) && users.repo.cars == old(users.repo.cars)
  {
    var ready := EnsureUserData(ud, users, sender, uid);
    if !ready {
      return Unchanged;
    }
    ud.ClearFlows();
    o := Next(End);
  }

  /**
   * `handle_stuck_conversation`: the same cleanup and end as cancelling. The
   * handler reads the sender's id first, so with an account cached but no sender
   * it raises, and the error path cleans up and ends instead.
   */
  method HandleStuck(ud: UserData, users: UserUseCases, sender: Option<Sender>, uid: string)
    returns (o: Outcome, reply: Option<string>)
    requires users.repo.Valid() && uid !in users.repo.users
    modifies ud, users.repo
    ensures users.repo.Valid()
    ensures !Proceeds(old(ud.user), sender) ==>
      o == Unchanged && ud.user.None? && ud.submission == old(ud.submission)
      && ud.filters == old(ud.filters) && ud.propToReject == old(ud.propToReject)
    ensures Proceeds(old(ud.user), sender) ==> o == Next(End) && ud.Idle() && ud.user.Some?
    ensures reply.Some? <==> old(ud.user).Some? && sender.None?
    ensures reply.Some? ==> reply.value == UnexpectedErrorText
    ensures old(ud.user).Some? ==> ud.user == old(ud.user)
    ensures AccountsKept(old(ud.user), sender, old(users.repo.users), ud.user, users.repo.users)
    ensures users.repo.properties == old(users.repo.properties) && users.repo.cars == old(users.repo.cars)
  {
    var ready := EnsureUserData(ud, users, sender, uid);
    if !ready {
      return Unchanged, None;
    }
    if sender.None? {
      var errorReply;
      o, errorReply := Recover(ud, Unexpected("AttributeError"));
      return o, Some(errorReply);
    }
    ud.ClearFlows();
    o := Next(End);
    reply := None;
  }
}

=== FILE: common_models.dfy ===
/**
 * The closed enumerations shared by the whole platform and the `Location` record
 * (src/domain/models/common_models.py). Each enum carries its canonical string
 * (`Value`), and `Parse…` is the enum constructor applied to a string, which
 * succeeds on exact matches only.
 */
module CommonModels {
  import opened Wrappers

  datatype UserRole = Buyer | Broker | Admin {
    function Value(): string {
      match this
      case Buyer => "buyer"
      case Broker => "broker"
      case Admin => "admin"
    }
  }

  datatype PropertyType = Apartment | Condominium | Villa | Building | Penthouse | Duplex {
    function Value(): string {
      match this
      case Apartment => "Apartment"
      case Condominium => "Condominium"
      case Villa => "Villa"
      case Building => "Building"
      case Penthouse => "Penthouse"
      case Duplex => "Duplex"
    }
  }

  /** The moderation states of a listing; there is no "deleted" state. */
  datatype PropertyStatus = Pending | Approved | Rejected | Sold {
    function Value(): string {
      match this
      case Pending => "pending"
      case Approved => "approved"
      case Rejected => "rejected"
      case Sold => "sold"
    }
  }

  datatype CondoScheme = S20_80 | S40_60 | S10_90 {
    function Value(): string {
      match this
      case S20_80 => "20/80"
      case S40_60 => "40/60"
      case S10_90 => "10/90"
    }
  }

  datatype FurnishingStatus = Unfurnished | SemiFurnished | FullyFurnished {
    function Value(): string {
      match this
      case Unfurnished => "Unfurnished"
      case SemiFurnished => "Semi-furnished"
      case FullyFurnished => "Fully-furnished"
    }
  }

  /**
   * Where a listing is. Region and city are required, the rest optional. `site` is
   * not declared on the model but is what the MySQL repository stores and reads in
   * place of `sub_city`, so the record carries it.
   */
  datatype Location = Location(
    region: string,
    city: string,
    subCity: Option<string> := None,
    specificArea: Option<string> := None,
    site: Option<string> := None)

  /** `UserRole(s)`: exactly the three role strings parse, each to its own role. */
  function ParseUserRole(s: string): (r: Option<UserRole>)
    ensures r.Some? ==> r.value.Value() == s
    ensures forall x: UserRole :: x.Value() == s ==> r == Some(x)
  {
    if s == "buyer" then Some(Buyer)
    else if s == "broker" then Some(Broker)
    else if s == "admin" then Some(Admin)
    else None
  }

  /** `PropertyType(s)`: exact, case-sensitive match on the six canonical strings. */
  function ParsePropertyType(s: string): (r: Option<PropertyType>)
    ensures r.Some? ==> r.value.Value() == s
    ensures forall x: PropertyType :: x.Value() == s ==> r == Some(x)
  {
    if s == "Apartment" then Some(Apartment)
    else if s == "Condominium" then Some(Condominium)
    else if s == "Villa" then Some(Villa)
    else if s == "Building" then Some(Building)
    else if s == "Penthouse" then Some(Penthouse)
    else if s == "Duplex" then Some(Duplex)
    else None
  }

  function ParsePropertyStatus(s: string): (r: Option<PropertyStatus>)
    ensures r.Some? ==> r.value.Value() == s
    ensures forall x: PropertyStatus :: x.Value() == s ==> r == Some(x)
  {
    if s == "pending" then Some(Pending)
    else if s == "approved" then Some(Approved)
    else if s == "rejected" then Some(Rejected)
    else if s == "sold" then Some(Sold)
    else None
  }

  function ParseCondoScheme(s: string): (r: Option<CondoScheme>)
    ensures r.Some? ==> r.value.Value() == s
    ensures forall x: CondoScheme :: x.Value() == s ==> r == Some(x)
  {
    if s == "20/80" then Some(S20_80)
    else if s == "40/60" then Some(S40_60)
    else if s == "10/90" then Some(S10_90)
    else None
  }

  function ParseFurnishingStatus(s: string): (r: Option<FurnishingStatus>)
    ensures r.Some? ==> r.value.Value() == s
    ensures forall x: FurnishingStatus :: x.Value() == s ==> r == Some(x)
  {
    if s == "Unfurnished" then Some(Unfurnished)
    else if s == "Semi-furnished" then Some(SemiFurnished)
    else if s == "Fully-furnished" then Some(FullyFurnished)
    else None
  }

  /** Iterating the enum classes: every member once, in declaration order. */
  function AllPropertyTypes(): (all: seq<PropertyType>)
    ensures |all| == 6
    ensures forall i, j :: 0 <= i < j < |all| ==> all[i].Value() != all[j].Value()
  {
    [Apartment, Condominium, Villa, Building, Penthouse, Duplex]
  }

  lemma AllPropertyTypesComplete(x: PropertyType)
    ensures x in AllPropertyTypes()
  {
    match x
    case Apartment =>
    case Condominium =>
    case Villa =>
    case Building =>
    case Penthouse =>
    case Duplex =>
  }

  function AllPropertyStatuses(): (all: seq<PropertyStatus>)
    ensures |all| == 4
    ensures forall i, j :: 0 <= i < j < |all| ==> all[i] != all[j]
  {
    [Pending, Approved, Rejected, Sold]
  }

  lemma AllPropertyStatusesComplete(x: PropertyStatus)
    ensures x in AllPropertyStatuses()
  {
    match x
    case Pending =>
    case Approved =>
    case Rejected =>
    case Sold =>
  }

  function AllCondoSchemes(): (all: seq<CondoScheme>)
    ensures |all| == 3
    ensures forall i, j :: 0 <= i < j < |all| ==> all[i].Value() != all[j].Value()
  {
    [S20_80, S40_60, S10_90]
  }

  lemma AllCondoSchemesComplete(x: CondoScheme)
    ensures x in AllCondoSchemes()
  {
    match x
    case S20_80 =>
    case S40_60 =>
    case S10_90 =>
  }

  function AllFurnishingStatuses(): (all: seq<FurnishingStatus>)
    ensures |all| == 3
    ensures forall i, j :: 0 <= i < j < |all| ==> all[i].Value() != all[j].Value()
  {
    [Unfurnished, SemiFurnished, FullyFurnished]
  }

  lemma AllFurnishingStatusesComplete(x: FurnishingStatus)
    ensures x in AllFurnishingStatuses()
  {
    match x
    case Unfurnished =>
    case SemiFurnished =>
    case FullyFurnished =>
  }

  /** Two listing types with the same string are the same type, and likewise for roles. */
  lemma PropertyTypeValueInjective(a: PropertyType, b: PropertyType)
    requires a.Value() == b.Value()
    ensures a == b
  {
    assert ParsePropertyType(a.Value()) == Some(a);
  }

  lemma UserRoleValueInjective(a: UserRole, b: UserRole)
    requires a.Value() == b.Value()
    ensures a == b
  {
    assert ParseUserRole(a.Value()) == Some(a);
  }

  /** No role string contains a comma, which is what lets the roles column be a comma list. */
  lemma RoleValueHasNoComma(r: UserRole)
    ensures ',' !in r.Value() && |r.Value()| > 0
  {
  }
}

=== FILE: constants.dfy ===
/**
 * The chat constants (src/utils/constants.py): conversation states, the "Any"
 * choices of the reply keyboards and the admin callback prefixes.
 */
module Constants {

  /**
   * The eighteen conversation states, numbered 0 to 17 in declaration order, and
   * the conversation library's `END`, which is -1.
   */
  datatype ConvState =
    | Main
    | SubmitPropType | SubmitBedrooms | SubmitBathrooms | SubmitSize
    | SubmitLocationRegion | SubmitLocationCity | SubmitPrice | SubmitImages | SubmitDescription
    | FilterPropType | FilterBedrooms | FilterLocationRegion | FilterLocationCity
    | FilterPriceRange | FilterShowResults
    | AdminRejectReasonInput
    | FilterCondoScheme
    | End
  {
    /** The integer a handler returns for this state. */
    function Code(): int {
      match this
      case Main => 0
      case SubmitPropType => 1
      case SubmitBedrooms => 2
      case SubmitBathrooms => 3
      case SubmitSize => 4
      case SubmitLocationRegion => 5
      case SubmitLocationCity => 6
      case SubmitPrice => 7
      case SubmitImages => 8
      case SubmitDescription => 9
      case FilterPropType => 10
      case FilterBedrooms => 11
      case FilterLocationRegion => 12
      case FilterLocationCity => 13
      case FilterPriceRange => 14
      case FilterShowResults => 15
      case AdminRejectReasonInput => 16
      case FilterCondoScheme => 17
      case End => -1
    }
  }

  /** The codes are `range(18)` plus -1, one per state. */
  lemma CodesAreDistinct(a: ConvState, b: ConvState)
    ensures -1 <= a.Code() < 18
    ensures a.Code() == -1 <==> a == End
    ensures a.Code() == b.Code() ==> a == b
  {
  }

  const AnyOption := "Any"
  const AnyPrice := "Any Price"
  const AnyRegion := "Any Region"
  const AnyScheme := "Any Scheme"

  const CbAdminApprove := "admin_approve"
  const CbAdminReject := "admin_reject"
}

=== FILE: display_utils.dfy ===
/**
 * The listing card (src/utils/display_utils.py): a header that depends on who is
 * looking, the detail lines a listing has values for, the description and a
 * closing section for the admin, the owning broker or a buyer. The card is kept
 * as structure: each detail line is the value it shows, since the numbers on it
 * are rendered by Python's float formatting.
 */
module Display {
  import opened Wrappers
  import opened CommonModels
  import opened PropertyModels

  /** Who the card is for. The admin flag wins over the broker flag. */
  datatype Audience = AdminView | BrokerView | BuyerView

  function AudienceOf(forAdmin: bool, forBroker: bool): (a: Audience)
    ensures a == AdminView <==> forAdmin
    ensures a == BrokerView <==> !forAdmin && forBroker
    ensures a == BuyerView <==> !forAdmin && !forBroker
  {
    if forAdmin then AdminView else if forBroker then BrokerView else BuyerView
  }

  /** `type_emojis.get(prop.property_type, "🏠")`. */
  function HeaderEmoji(t: PropertyType): (e: string)
    ensures e == "🏠" <==> !(t == Apartment || t == Condominium || t == Villa)
  {
    match t
    case Apartment => "🏢"
    case Condominium => "🏙️"
    case Villa => "🏡"
    case _ => "🏠"
  }

  /** The three types with an emoji of their own each have a different one. */
  lemma HeaderEmojiDistinct(a: PropertyType, b: PropertyType)
    requires HeaderEmoji(a) == HeaderEmoji(b) && a != b
    ensures HeaderEmoji(a) == "🏠"
  {
  }

  datatype Header =
    | ReviewHeader(emoji: string, typeName: string)
    | ListingHeader(emoji: string, typeName: string)
    | BuyerHeader(emoji: string, typeName: string, city: string)
  {
    function Text(): string {
      match this
      case ReviewHeader(e, n) => "**" + e + " Property Review: " + n + "**"
      case ListingHeader(e, n) => "**" + e + " Your Listing: " + n + "**"
      case BuyerHeader(e, n, c) => "**" + e + " " + n + " in " + c + "**"
    }
  }

  /** The header for an audience: the review header for the admin, the listing header for the broker, else the buyer's. */
  function CardHeader(p: Property, audience: Audience): (h: Header)
    ensures h.emoji == HeaderEmoji(p.data.propertyType) && h.typeName == p.data.propertyType.Value()
    ensures h.ReviewHeader? <==> audience == AdminView
    ensures h.ListingHeader? <==> audience == BrokerView
    ensures h.BuyerHeader? ==> h.city == p.data.location.city
  {
    var e, n := HeaderEmoji(p.data.propertyType), p.data.propertyType.Value();
    match audience
    case AdminView => ReviewHeader(e, n)
    case BrokerView => ListingHeader(e, n)
    case BuyerView => BuyerHeader(e, n, p.data.location.city)
  }

  /** A detail line, holding the value it shows. */
  datatype Detail =
    | Price(priceEtb: real)
    | Place(location: string)
    | Size(sizeSqm: real)
    | Bedrooms(bedrooms: int)
    | Bathrooms(bathrooms: int)
    | Structure(floors: int)
    | FloorLevel(level: int)
    | Furnishing(furnishing: string)
    | Parking(spaces: int)
    | Scheme(scheme: string)
    | TitleDeed(deed: string)
  {
    /** The bold caption the line starts with, as the card writes it. */
    function Caption(): string {
      match this
      case Price(_) => "**💰 Price:**"
      case Place(_) => "**📍 Location:**"
      case Size(_) => "**📐 Size:**"
      case Bedrooms(_) => "**🛏️ Bedrooms:**"
      case Bathrooms(_) => "**🛁 Bathrooms:**"
      case Structure(_) => "**🧗 Structure:**"
      case FloorLevel(_) => "**🧗 Floor Level:**"
      case Furnishing(_) => "**🛋️ Furnishing:**"
      case Parking(_) => "**🚗 Parking:**"
      case Scheme(_) => "** схеме:**"
      case TitleDeed(_) => "**📜 Title Deed:**"
    }

    /** The place of the line on the card; a villa's structure line takes the floor line's place. */
    function Rank(): nat {
      match this
      case Price(_) => 0
      case Place(_) => 1
      case Size(_) => 2
      case Bedrooms(_) => 3
      case Bathrooms(_) => 4
      case Structure(_) => 5
      case FloorLevel(_) => 5
      case Furnishing(_) => 6
      case Parking(_) => 7
      case Scheme(_) => 8
      case TitleDeed(_) => 9
    }
  }

  /** Python's truthiness of an optional string: present and not empty. */
  predicate Truthy(s: Option<string>)
  {
    s.Some? && s.value != ""
  }

  /** "region - city", then " - sub_city" when the sub-city is set and not empty. */
  function LocationText(loc: Location): (r: string)
    ensures |r| >= |loc.region + " - " + loc.city| && r[..|loc.region + " - " + loc.city|] == loc.region + " - " + loc.city
    ensures |r| > |loc.region + " - " + loc.city| <==> Truthy(loc.subCity)
    ensures Truthy(loc.subCity) ==> r[|loc.region + " - " + loc.city|..] == " - " + loc.subCity.value
  {
    var s := loc.region + " - " + loc.city;
    if Truthy(loc.subCity) then s + " - " + loc.subCity.value else s
  }

  /** The floor line when the floor is set: a villa's structure "G+n", else the floor level. */
  function FloorLines(d: PropertyCreate): (lines: seq<Detail>)
    ensures |lines| <= 1 && forall x :: x in lines ==> x.Rank() == 5
    ensures forall n :: Structure(n) in lines <==> d.floorLevel == Some(n) && d.propertyType == Villa
    ensures forall n :: FloorLevel(n) in lines <==> d.floorLevel == Some(n) && d.propertyType != Villa
  {
    if d.floorLevel.None? then []
    else if d.propertyType == Villa then [Structure(d.floorLevel.value)]
    else [FloorLevel(d.floorLevel.value)]
  }

  /** The furnishing line when the furnishing status is set. */
  function FurnishingLines(d: PropertyCreate): (lines: seq<Detail>)
    ensures |lines| <= 1 && forall x :: x in lines ==> x.Rank() == 6
    ensures forall v :: Furnishing(v) in lines <==> d.furnishingStatus.Some? && v == d.furnishingStatus.value.Value()
  {
    if d.furnishingStatus.Some? then [Furnishing(d.furnishingStatus.value.Value())] else []
  }

  /** The parking line when the parking count is set, 0 included. */
  function ParkingLines(d: PropertyCreate): (lines: seq<Detail>)
    ensures |lines| <= 1 && forall x :: x in lines ==> x.Rank() == 7
    ensures forall n :: Parking(n) in lines <==> d.parkingSpaces == Some(n)
  {
    if d.parkingSpaces.Some? then [Parking(d.parkingSpaces.value)] else []
  }

  /** The scheme line, only for a condominium that has a scheme. */
  function SchemeLines(d: PropertyCreate): (lines: seq<Detail>)
    ensures |lines| <= 1 && forall x :: x in lines ==> x.Rank() == 8
    ensures forall v :: Scheme(v) in lines <==>
      d.propertyType == Condominium && d.condominiumScheme.Some? && v == d.condominiumScheme.value.Value()
  {
    if d.propertyType == Condominium && d.condominiumScheme.Some? then [Scheme(d.condominiumScheme.value.Value())] else []
  }

  /** At most one line of each rank from 5 to 8, in rank order, gives increasing ranks. */
  lemma RanksInCardOrder(f: seq<Detail>, u: seq<Detail>, p: seq<Detail>, c: seq<Detail>)
    requires |f| <= 1 && forall x :: x in f ==> x.Rank() == 5
    requires |u| <= 1 && forall x :: x in u ==> x.Rank() == 6
    requires |p| <= 1 && forall x :: x in p ==> x.Rank() == 7
    requires |c| <= 1 && forall x :: x in c ==> x.Rank() == 8
    ensures var all := f + u + p + c;
      (forall i :: 0 <= i < |all| ==> 5 <= all[i].Rank() <= 8)
      && forall i, j :: 0 <= i < j < |all| ==> all[i].Rank() < all[j].Rank()
  {
    var all := f + u + p + c;
    forall i | 0 <= i < |all|
      ensures 5 <= all[i].Rank() <= 8
    {
      assert all[i] in all;
    }
  }

  /**
   * The conditional appends of `create_property_card_text`, one after the other:
   * floor, furnishing, parking, scheme.
   */
  method OptionalDetails(d: PropertyCreate) returns (lines: seq<Detail>)
    ensures forall i :: 0 <= i < |lines| ==> 5 <= lines[i].Rank() <= 8
    ensures InCardOrder(lines)
    ensures OptionalShown(d, lines)
  {
    var floor, furnishing, parking, scheme := FloorLines(d), FurnishingLines(d), ParkingLines(d), SchemeLines(d);
    lines := floor;
    lines := lines + furnishing;
    lines := lines + parking;
    lines := lines + scheme;
    RanksInCardOrder(floor, furnishing, parking, scheme);
  }

  /**
   * Whether the listing calls for an optional line: the structure line for a villa
   * with a floor value and the floor line for any other type with one, the
   * furnishing and parking lines when those are set, the scheme line for a
   * condominium with a scheme.
   */
  ghost predicate CalledFor(d: PropertyCreate, x: Detail)
  {
    match x
    case Structure(n) => d.floorLevel == Some(n) && d.propertyType == Villa
    case FloorLevel(n) => d.floorLevel == Some(n) && d.propertyType != Villa
    case Furnishing(v) => d.furnishingStatus.Some? && v == d.furnishingStatus.value.Value()
    case Parking(n) => d.parkingSpaces == Some(n)
    case Scheme(v) => d.propertyType == Condominium && d.condominiumScheme.Some? && v == d.condominiumScheme.value.Value()
    case _ => false
  }

  /** The optional lines present are exactly those the listing calls for. */
  ghost predicate OptionalShown(d: PropertyCreate, lines: seq<Detail>)
  {
    forall x: Detail :: 5 <= x.Rank() <= 8 ==> (x in lines <==> CalledFor(d, x))
  }

  /** Each line's rank is below the next one's. */
  ghost predicate InCardOrder(lines: seq<Detail>)
  {
    forall i, j :: 0 <= i < j < |lines| ==> lines[i].Rank() < lines[j].Rank()
  }

  /**
   * The detail lines of a listing's card, in card order: price, location, size,
   * bedrooms and bathrooms always; the structure or floor line, furnishing, parking
   * and scheme exactly when the listing has a value for them; the title deed last.
   */
  ghost predicate ShowsDetails(p: Property, details: seq<Detail>)
  {
    && |details| >= 6
    && details[..5] == [Price(p.data.priceEtb), Place(LocationText(p.data.location)), Size(p.data.sizeSqm),
                        Bedrooms(p.data.bedrooms), Bathrooms(p.data.bathrooms)]
    && details[|details| - 1] == TitleDeed(if p.data.titleDeed then "✅ Yes" else "❌ No")
    && InCardOrder(details)
    && OptionalShown(p.data, details)
  }

  /** The fixed lines, then lines of ranks 5 to 8 in rank order, then the title deed: ranks increase along the card. */
  lemma RanksAcross(fixed: seq<Detail>, optional: seq<Detail>, last: Detail)
    requires forall i :: 0 <= i < |fixed| ==> fixed[i].Rank() == i
    requires |fixed| == 5 && last.Rank() == 9
    requires forall i :: 0 <= i < |optional| ==> 5 <= optional[i].Rank() <= 8
    requires InCardOrder(optional)
    ensures InCardOrder(fixed + optional + [last])
  {
    var all := fixed + optional + [last];
    forall i, j | 0 <= i < j < |all|
      ensures all[i].Rank() < all[j].Rank()
    {
      if j < 5 {
      } else if i < 5 {
        assert all[i] == fixed[i];
        if j < |all| - 1 {
          assert all[j] == optional[j - 5];
        }
      } else if j < |all| - 1 {
        assert all[i] == optional[i - 5] && all[j] == optional[j - 5];
      } else {
        assert all[i] == optional[i - 5];
      }
    }
  }

  lemma InAcross(fixed: seq<Detail>, optional: seq<Detail>, last: Detail)
    requires forall i :: 0 <= i < |fixed| ==> fixed[i].Rank() < 5
    requires last.Rank() == 9
    ensures forall x: Detail :: 5 <= x.Rank() <= 8 ==> (x in fixed + optional + [last] <==> x in optional)
  {
  }

  /** Lines of ranks below 5 before and a title deed after add no optional line. */
  lemma OptionalShownAcross(d: PropertyCreate, fixed: seq<Detail>, optional: seq<Detail>, last: Detail)
    requires forall i :: 0 <= i < |fixed| ==> fixed[i].Rank() < 5
    requires last.Rank() == 9
    requires OptionalShown(d, optional)
    ensures OptionalShown(d, fixed + optional + [last])
  {
    InAcross(fixed, optional, last);
  }

  /** `details_list` of `create_property_card_text`. */
  method CardDetails(p: Property) returns (details: seq<Detail>)
    ensures ShowsDetails(p, details)
  {
    var d := p.data;
    var place := LocationText(d.location);
    var always := [Price(d.priceEtb), Place(place), Size(d.sizeSqm), Bedrooms(d.bedrooms), Bathrooms(d.bathrooms)];
    var optional := OptionalDetails(d);
    var deed := TitleDeed(if d.titleDeed then "✅ Yes" else "❌ No");
    details := always + optional + [deed];
    assert details[..5] == always;
    RanksAcross(always, optional, deed);
    OptionalShownAcross(d, always, optional, deed);
  }

  /** The contact a buyer is shown: the admin's phone number and Telegram handle from the settings. */
  datatype Contact = Contact(phone: string, telegram: string)

  /** The closing section of the card. */
  datatype Extra =
    | AdminInfo(pid: string, status: PropertyStatus, brokerName: string, brokerId: string)
    | ListingStatus(status: PropertyStatus, reason: Option<string>)
    | ContactInfo(phone: string, telegram: string)

  /**
   * `extra_info`: the admin sees the id, status and broker; the broker sees the
   * status and, when one is set and not empty, the rejection reason; a buyer sees
   * the contact.
   */
  function ExtraInfo(p: Property, audience: Audience, contact: Contact): (e: Extra)
    ensures e.AdminInfo? <==> audience == AdminView
    ensures e.ListingStatus? <==> audience == BrokerView
    ensures e.AdminInfo? ==> e == AdminInfo(p.pid, p.status, p.data.brokerName, p.data.brokerId)
    ensures e.ListingStatus? ==> e.status == p.status
    ensures e.ListingStatus? ==> (e.reason.Some? <==> Truthy(p.rejectionReason))
    ensures e.ListingStatus? && e.reason.Some? ==> e.reason == p.rejectionReason
    ensures e.ContactInfo? ==> e.phone == contact.phone && e.telegram == contact.telegram
  {
    match audience
    case AdminView => AdminInfo(p.pid, p.status, p.data.brokerName, p.data.brokerId)
    case BrokerView => ListingStatus(p.status, if Truthy(p.rejectionReason) then p.rejectionReason else None)
    case BuyerView => ContactInfo(contact.phone, contact.telegram)
  }

  datatype Card = Card(header: Header, details: seq<Detail>, description: string, extra: Extra)

  /**
   * `create_property_card_text(prop, for_admin, for_broker)`: the admin flag takes
   * precedence over the broker flag for both the header and the closing section.
   */
  method CreatePropertyCardText(p: Property, forAdmin: bool, forBroker: bool, contact: Contact) returns (card: Card)
    ensures card.header == CardHeader(p, AudienceOf(forAdmin, forBroker))
    ensures card.header.ReviewHeader? <==> forAdmin
    ensures card.header.ListingHeader? <==> !forAdmin && forBroker
    ensures card.extra.AdminInfo? <==> forAdmin
    ensures card.extra.ListingStatus? <==> !forAdmin && forBroker
    ensures card.extra == ExtraInfo(p, AudienceOf(forAdmin, forBroker), contact)
    ensures card.description == p.data.description
    ensures ShowsDetails(p, card.details)
  {
    var audience := AudienceOf(forAdmin, forBroker);
    var header := CardHeader(p, audience);
    var details := CardDetails(p);
    var extra := ExtraInfo(p, audience, contact);
    card := Card(header, details, p.data.description, extra);
  }
}

=== FILE: exceptions.dfy ===
/**
 * The application's error taxonomy (src/utils/exceptions.py) as one datatype,
 * the message each error carries, and the HTTP status the API layer derives from it.
 */
module Exceptions {
  import opened Wrappers

  const DefaultPlatformMessage := "An application-specific error occurred."
  const DefaultDatabaseMessage := "A database error occurred. Please try again later."
  const DefaultInvalidOperationMessage := "This operation is not permitted."
  const DefaultTelegramMessage := "There was a problem communicating with Telegram. Please try again."

  /**
   * One constructor per exception class. `NotFound` is the bare base class, which
   * has no constructor of its own; the two subclasses keep the identifier they were
   * raised for and compute their message from it.
   */
  datatype AppError =
    | Platform(msg: string)
    | Database(msg: string)
    | NotFound(msg: string)
    | UserNotFound(identifier: string)
    | PropertyNotFound(identifier: string)
    | InvalidOperation(msg: string)
    | TelegramApi(msg: string)

  /** The constructors with a default message: `None` means the argument was omitted. */
  function NewPlatformError(message: Option<string>): (e: AppError)
    ensures Message(e) == message.GetOr(DefaultPlatformMessage)
  {
    Platform(message.GetOr(DefaultPlatformMessage))
  }

  function NewDatabaseError(message: Option<string>): (e: AppError)
    ensures Message(e) == message.GetOr(DefaultDatabaseMessage)
  {
    Database(message.GetOr(DefaultDatabaseMessage))
  }

  function NewNotFoundError(message: Option<string>): (e: AppError)
    ensures IsNotFound(e)
    ensures Message(e) == message.GetOr(DefaultPlatformMessage)
  {
    NotFound(message.GetOr(DefaultPlatformMessage))
  }

  function NewInvalidOperationError(message: Option<string>): (e: AppError)
    ensures !IsNotFound(e)
    ensures Message(e) == message.GetOr(DefaultInvalidOperationMessage)
  {
    InvalidOperation(message.GetOr(DefaultInvalidOperationMessage))
  }

  function NewTelegramApiError(message: Option<string>): (e: AppError)
    ensures Message(e) == message.GetOr(DefaultTelegramMessage)
  {
    TelegramApi(message.GetOr(DefaultTelegramMessage))
  }

  /** The `message` attribute every application error carries. */
  function Message(e: AppError): string
  {
    match e
    case Platform(m) => m
    case Database(m) => m
    case NotFound(m) => m
    case UserNotFound(id) => "Could not find user: " + id + "."
    case PropertyNotFound(id) => "Could not find property: " + id + "."
    case InvalidOperation(m) => m
    case TelegramApi(m) => m
  }

  /** `isinstance(e, NotFoundError)`. */
  predicate IsNotFound(e: AppError)
  {
    e.NotFound? || e.UserNotFound? || e.PropertyNotFound?
  }

  /** The status code of the API's exception handler. */
  function HttpStatus(e: AppError): (code: int)
    ensures code == 404 || code == 500
    ensures code == 404 <==> IsNotFound(e)
  {
    if IsNotFound(e) then 404 else 500
  }

  /** The not-found messages identify what was missing: no two identifiers share a message. */
  lemma NotFoundMessageIdentifies(a: AppError, b: AppError)
    requires a.UserNotFound? || a.PropertyNotFound?
    requires b.UserNotFound? || b.PropertyNotFound?
    requires Message(a) == Message(b)
    ensures a == b
  {
    var ma, mb := Message(a), Message(b);
    assert ma[15] == mb[15];
    assert a.UserNotFound? <==> b.UserNotFound?;
    var prefix := if a.UserNotFound? then "Could not find user: " else "Could not find property: ";
    assert ma == prefix + a.identifier + ".";
    assert mb == prefix + b.identifier + ".";
    assert a.identifier == ma[|prefix|..|ma| - 1];
    assert b.identifier == mb[|prefix|..|mb| - 1];
  }

  /**
   * Everything a bot handler can see raised: an application error, an error of the
   * Telegram library, a `KeyError` on a missing `user_data` key, or anything else.
   */
  datatype Raised =
    | App(error: AppError)
    | Telegram(detail: string)
    | MissingKey(key: string)
    | Unexpected(detail: string)
}

=== FILE: i18n.dfy ===
/**
 * The bot's translator (src/utils/i18n.py): two message tables, the fallback
 * chain of `t`, the list of every translation of a key and the regular
 * expression that recognises any of them.
 */
module I18n {
  import opened Wrappers
  import opened Text

  /** One language's messages: `dict.get`, `None` for a key the table lacks. */
  type Table = string -> Option<string>

  /** The English table, the fallback language. */
  function EnMessage(key: string): Option<string>
  {
    match key
    // General & Main Menu
    case "welcome" => Some("Welcome, {name}! Please choose your role:")
    case "main_menu_prompt" => Some("What would you like to do?")
    case "browse_properties" => Some("🔍 Browse Properties")
    case "filter_properties" => Some("📊 Filter Properties")
    case "submit_property" => Some("➕ Submit a Property")
    case "my_listings" => Some("📋 My Listings")
    case "admin_panel" => Some("👑 Admin Panel")
    case "language_select" => Some("🌐 Language")
    case "what_is_g_plus" => Some("What is the Villa's structure (e.g., G+1)?")
    case "back" => Some("⬅️ Back")
    case "cancel" => Some("❌ Cancel")
    case "yes" => Some("Yes")
    case "no" => Some("No")
    case "buyer_role" => Some("I'm a Buyer")
    case "broker_role" => Some("I'm a Broker")
    case "op_cancelled" => Some("Operation cancelled. Returning to the main menu.")
    case "error_occurred" => Some("An error occurred. Please try again.")
    // Language Selection
    case "select_language_prompt" => Some("Please select your preferred language:")
    case "language_updated" => Some("Language has been updated to {lang_name}.")
    // Admin Panel & Actions
    case "admin_pending_listings" => Some("⏳ View Pending Listings")
    case "admin_manage_listings" => Some("🗂️ Manage Listings")
    case "admin_view_analytics" => Some("📊 View Analytics")
    case "back_to_main_menu" => Some("⬅️ Back to Main Menu")
    case "admin_approve" => Some("✅ Approve")
    case "admin_reject" => Some("❌ Reject")
    case "admin_mark_sold" => Some("💰 Mark as Sold")
    case "admin_delete" => Some("🗑️ Delete")
    case "admin_delete_confirm_yes" => Some("⚠️ YES, DELETE PERMANENTLY ⚠️")
    case "admin_delete_confirm_no" => Some("❌ No, Cancel")
    // Property Filtering & Browsing Flow
    case "searching" => Some("Searching for properties...")
    case "no_properties_found" => Some("No properties found matching your criteria.")
    case "found_properties" => Some("Found {count} matching properties:")
    case "showing_first_10" => Some("Showing the first 10 results. For more, please refine your search.")
    case "search_complete" => Some("Search complete. Returning to the main menu.")
    case "browse_complete" => Some("Browse complete. Returning to the main menu.")
    case "select_property_type" => Some("First, select a property type:")
    case "select_price_range" => Some("Select a price range:")
    case "select_region" => Some("Which region?")
    case "select_condo_scheme" => Some("Select a Condominium scheme:")
    case "any_option" => Some("Any")
    case "any_price" => Some("Any Price")
    case "any_region" => Some("Any Region")
    case "any_scheme" => Some("Any Scheme")
    // Property Submission Flow
    case "property_submission_start" => Some("Let's submit a new property. First, what type is it?")
    case "select_sub_city" => Some("In which Sub-city is the property located?")
    case "select_neighborhood" => Some("Please select the nearest neighborhood/area.")
    case "select_condo_site" => Some("Please select the Condominium Site name.")
    case "type_specific_area" => Some("Could not find specific areas. Please type the specific area name.")
    case "how_many_bedrooms" => Some("How many bedrooms?")
    case "how_many_bathrooms" => Some("How many bathrooms?")
    case "what_is_size" => Some("What is the approximate size?")
    case "what_is_floor" => Some("What is the Floor Level? (Type the number, e.g., 5)")
    case "what_is_furnishing" => Some("What is the Furnishing Status?")
    case "has_title_deed" => Some("Does it have a Title Deed?")
    case "how_many_parking" => Some("How many Parking Spaces? (Type the number, e.g., 2)")
    case "what_is_condo_scheme" => Some("What is the Condominium Scheme Type?")
    case "what_is_price" => Some("Please type the exact price in ETB.")
    case "upload_images" => Some("Please upload at least 3 images. When finished, press the button below.")
    case "image_received" => Some("Image {count} received. Send more or click 'Done Uploading'.")
    case "need_more_images" => Some("You've only uploaded {count} image(s). Please upload at least 3 to continue.")
    case "enter_description" => Some("Great! Finally, please enter a short description for the property.")
    case "submission_complete" => Some("✅ Submission complete! Your property is pending admin approval.")
    case "invalid_number" => Some("That's not a valid number. Please use the buttons.")
    case "invalid_price" => Some("Please enter a valid number for the price.")
    case "not_an_image" => Some("That's not an image. Please send photos or click the 'Done' button.")
    // Broker Specific
    case "no_listings_yet" => Some("You have not submitted any properties yet.")
    case "displaying_your_listings" => Some("Displaying your submitted properties:")
    case "end_of_listings" => Some("End of your listings.")
    // Notifications
    case "property_approved_notification" => Some("Your property submission has been approved and is now live!")
    case "property_rejected_notification" => Some("Your property submission was rejected. Reason: {reason}")
    case "is_commercial" => Some("Is it a commercial or mixed-use building?")
    case "total_floors" => Some("How many floors does the building have?")
    case "total_units" => Some("How many total units (apartments/offices) are in the building?")
    case "has_elevator" => Some("Does the building have an elevator?")
    case "has_private_rooftop" => Some("Does the penthouse have a private rooftop terrace?")
    case "is_two_story_penthouse" => Some("Is it a two-story (duplex) penthouse?")
    case "has_private_entrance" => Some("Does the duplex have a private entrance?")
    // Filter prompts
    case "ask_filter_is_commercial" => Some("Show only commercial buildings?")
    case "ask_filter_has_elevator" => Some("Must have an elevator?")
    case "ask_filter_has_rooftop" => Some("Must have a private rooftop?")
    case "ask_filter_is_two_story" => Some("Show only two-story penthouses?")
    case "ask_filter_has_entrance" => Some("Must have a private entrance?")
    case _ => None
  }

  /** The Amharic table, with the same keys as the English one. */
  function AmMessage(key: string): Option<string>
  {
    match key
    // General & Main Menu
    case "welcome" => Some("እንኳን ደህና መጡ, {name}! እባክዎ ሚናዎን ይምረጡ:")
    case "main_menu_prompt" => Some("ምን ማድረግ ይፈልጋሉ?")
    case "browse_properties" => Some("🔍 ንብረቶችን ያስሱ")
    case "filter_properties" => Some("📊 ንብረቶችን ያጣሩ")
    case "submit_property" => Some("➕ ንብረት ያስገቡ")
    case "my_listings" => Some("📋 የእኔ ዝርዝሮች")
    case "admin_panel" => Some("👑 የአስተዳዳሪ ፓነል")
    case "language_select" => Some("🌐 ቋንቋ")
    case "back" => Some("⬅️ ተመለስ")
    case "cancel" => Some("❌ ሰርዝ")
    case "yes" => Some("አዎ")
    case "no" => Some("አይደለም")
    case "buyer_role" => Some("ገዢ ነኝ")
    case "broker_role" => Some("ደላላ ነኝ")
    case "op_cancelled" => Some("ክንውኑ ተሰርዟል። ወደ ዋናው ምናሌ በመመለስ ላይ።")
    case "error_occurred" => Some("ስህተት አጋጥሟል። እባክዎ እንደገና ይሞክሩ።")
    case "what_is_g_plus" => Some("የቪላው አሰራር እንዴት ነው (ለምሳሌ፡ G+1)?")
    // Language Selection
    case "select_language_prompt" => Some("እባክዎ ተመራጭ ቋንቋዎን ይምረጡ:")
    case "language_updated" => Some("ቋንቋ ወደ {lang_name} ተቀይሯል።")
    // Admin Panel & Actions
    case "admin_pending_listings" => Some("⏳ በመጠባበቅ ላይ ያሉ ዝርዝሮች")
    case "admin_manage_listings" => Some("🗂️ ዝርዝሮችን ያስተዳድሩ")
    case "admin_view_analytics" => Some("📊 ትንታኔዎችን ይመልከቱ")
    case "back_to_main_menu" => Some("⬅️ ወደ ዋና ማውጫ ተመለስ")
    case "admin_approve" => Some("✅ አጽድቅ")
    case "admin_reject" => Some("❌ ውድቅ አድርግ")
    case "admin_mark_sold" => Some("💰 እንደተሸጠ ምልክት ያድርጉ")
    case "admin_delete" => Some("🗑️ ይሰርዙ")
    case "admin_delete_confirm_yes" => Some("⚠️ አዎ፣ እስከመጨረሻው ይሰረዝ ⚠️")
    case "admin_delete_confirm_no" => Some("❌ አይ፣ ይሰረዝ")
    // Property Filtering & Browsing Flow
    case "searching" => Some("ንብረቶችን በመፈለግ ላይ...")
    case "no_properties_found" => Some("ከፍለጋዎ ጋር የሚዛመድ ምንም ንብረት አልተገኘም።")
    case "found_properties" => Some("{count} ተዛማጅ ንብረቶች ተገኝተዋል:")
    case "showing_first_10" => Some("የመጀመሪያዎቹን 10 ውጤቶች በማሳየት ላይ። ለተጨማሪ፣ እባክዎ ፍለጋዎን ያጥቡ።")
    case "search_complete" => Some("ፍለጋ ተጠናቋል። ወደ ዋናው ማውጫ በመመለስ ላይ።")
    case "browse_complete" => Some("ማሰስ ተጠናቋል። ወደ ዋናው ማውጫ በመመለስ ላይ።")
    case "select_property_type" => Some("በመጀመሪያ የንብረቱን አይነት ይምረጡ:")
    case "select_price_range" => Some("የዋጋ ወሰን ይምረጡ:")
    case "select_region" => Some("በየትኛው ክልል?")
    case "select_condo_scheme" => Some("የኮንዶሚኒየም የክፍያ አይነት ይምረጡ:")
    case "any_option" => Some("ማንኛውም")
    case "any_price" => Some("ማንኛውም ዋጋ")
    case "any_region" => Some("ማንኛውም ክልል")
    case "any_scheme" => Some("ማንኛውም አይነት")
    // Property Submission Flow
    case "property_submission_start" => Some("አዲስ ንብረት እናስገባ። በመጀመሪያ፣ የንብረቱ አይነት ምንድን ነው?")
    case "select_sub_city" => Some("ንብረቱ በየትኛው ክፍለ ከተማ ነው የሚገኘው?")
    case "select_neighborhood" => Some("እባክዎ በአቅራቢያ የሚገኘውን ሰፈር/አካባቢ ይምረጡ።")
    case "select_condo_site" => Some("እባክዎ የኮንዶሚኒየም ሳይቱን ስም ይምረጡ።")
    case "type_specific_area" => Some("የተወሰኑ ቦታዎችን ማግኘት አልተቻለም። እባክዎ የአካባቢውን ስም ይጻፉ።")
    case "how_many_bedrooms" => Some("ስንት መኝታ ክፍሎች አሉት?")
    case "how_many_bathrooms" => Some("ስንት ሽንት ቤት አሉት?")
    case "what_is_size" => Some("የቦታው ስፋት ስንት ነው?")
    case "what_is_floor" => Some("ስንተኛ ፎቅ ላይ ነው? (ቁጥሩን ያስገቡ, ለምሳሌ: 5)")
    case "what_is_furnishing" => Some("የፈርኒቸር ሁኔታው ምንድን ነው?")
    case "has_title_deed" => Some("ካርታ አለው?")
    case "how_many_parking" => Some("ስንት የመኪና ማቆሚያ ቦታ አለው? (ቁጥሩን ያስገቡ, ለምሳሌ: 2)")
    case "what_is_condo_scheme" => Some("የኮንዶሚኒየም የክፍያ አይነት ምንድን ነው?")
    case "what_is_price" => Some("እባክዎ ትክክለኛውን ዋጋ በብር ያስገቡ።")
    case "upload_images" => Some("እባክዎ ቢያንስ 3 ፎቶዎችን ይስቀሉ። ሲጨርሱ ከታች ያለውን ቁልፍ ይጫኑ።")
    case "image_received" => Some("ፎቶ {count} ተቀብለናል። ተጨማሪ ይላኩ ወይም 'መስቀል ጨርሻለሁ' የሚለውን ይጫኑ።")
    case "need_more_images" => Some("{count} ፎቶ(ዎች) ብቻ ነው የሰቀሉት። ለመቀጠል እባክዎ ቢያንስ 3 ይስቀሉ።")
    case "enter_description" => Some("በጣም ጥሩ! በመጨረሻም፣ እባክዎ ለንብረቱ አጭር መግለጫ ያስገቡ።")
    case "submission_complete" => Some("✅ ገብቷል! ያስገቡት ንብረት በአስተዳዳሪ እይታ ላይ ነው።")
    case "invalid_number" => Some("ይህ ትክክለኛ ቁጥር አይደለም። እባክዎ ያሉትን ቁልፎች ይጠቀሙ።")
    case "invalid_price" => Some("እባክዎ ትክክለኛ የዋጋ ቁጥር ያስገቡ።")
    case "not_an_image" => Some("ይህ ፎቶ አይደለም። እባክዎ ፎቶ ይላኩ ወይም 'ጨርሻለሁ' የሚለውን ቁልፍ ይጫኑ።")
    // Broker Specific
    case "no_listings_yet" => Some("እስካሁን ምንም አይነት ንብረት አላስገቡም።")
    case "displaying_your_listings" => Some("ያስገቧቸውን ንብረቶች ዝርዝር:")
    case "end_of_listings" => Some("የዝርዝሮችዎ መጨረሻ።")
    // Notifications
    case "property_approved_notification" => Some("ያስገቡት ንብረት ጸድቆ ገበያ ላይ ውሏል!")
    case "property_rejected_notification" => Some("ያስገቡት ንብረት ውድቅ ተደርጓል። ምክንያት: {reason}")
    case "is_commercial" => Some("ሕንፃው ለንግድ ወይስ ለተቀላቀለ አገልግሎት ነው?")
    case "total_floors" => Some("ሕንፃው ስንት ፎቆች አሉት?")
    case "total_units" => Some("ሕንፃው በድምሩ ስንት ክፍሎች (አፓርታማዎች/ቢሮዎች) አሉት?")
    case "has_elevator" => Some("ሕንፃው ሊፍት (አሳንሰር) አለው?")
    case "has_private_rooftop" => Some("ፔንትሃውሱ የግል የጣራ ላይ እርከን አለው?")
    case "is_two_story_penthouse" => Some("ባለ ሁለት ፎቅ (ዱፕሌክስ) ፔንትሃውስ ነው?")
    case "has_private_entrance" => Some("ዱፕሌክሱ የግል መግቢያ በር አለው?")
    // Filter prompts
    case "ask_filter_is_commercial" => Some("የንግድ ሕንፃዎችን ብቻ አሳይ?")
    case "ask_filter_has_elevator" => Some("ሊፍት የግድ ሊኖረው ይገባል?")
    case "ask_filter_has_rooftop" => Some("የግል ጣራ የግድ ሊኖረው ይገባል?")
    case "ask_filter_is_two_story" => Some("ባለ ሁለት ፎቅ ፔንትሃውሶችን ብቻ አሳይ?")
    case "ask_filter_has_entrance" => Some("የግል መግቢያ የግድ ሊኖረው ይገባል?")
    case _ => None
  }

  /** `translations.get(lang)`: the table of a language code. */
  function Translations(lang: string): Option<Table>
  {
    if lang == "en" then Some(EnMessage)
    else if lang == "am" then Some(AmMessage)
    else None
  }

  /** `translations.values()`, in the order the dictionary lists them. */
  const TableOrder: seq<Table> := [EnMessage, AmMessage]

  /**
   * `str.format(**kwargs)` on templates whose fields are plain names. `{{` and `}}`
   * stand for single braces; `None` is the `KeyError`/`ValueError` that `format`
   * raises for an unknown name, an empty field, a stray `}` or an unclosed `{`.
   */
  function Format(template: string, kwargs: map<string, string>): (r: Option<string>)
    decreases |template|
  {
    if |template| == 0 then Some("")
    else if template[0] == '{' then
      if |template| >= 2 && template[1] == '{' then Prepend("{", Format(template[2..], kwargs))
      else if '}' !in template[1..] then None
      else
        var j := IndexOf(template[1..], '}');
        var name := template[1..j + 1];
        if name == "" || '{' in name || name !in kwargs then None
        else Prepend(kwargs[name], Format(template[j + 2..], kwargs))
    else if template[0] == '}' then
      if |template| >= 2 && template[1] == '}' then Prepend("}", Format(template[2..], kwargs))
      else None
    else Prepend([template[0]], Format(template[1..], kwargs))
  }

  function Prepend(s: string, r: Option<string>): Option<string>
  {
    if r.Some? then Some(s + r.value) else None
  }

  predicate NoBraces(s: string)
  {
    '{' !in s && '}' !in s
  }

  /** A template without braces formats to itself, whatever the arguments. */
  lemma {:induction false} FormatPlain(s: string, kwargs: map<string, string>)
    requires NoBraces(s)
    ensures Format(s, kwargs) == Some(s)
    decreases |s|
  {
    if |s| > 0 {
      assert NoBraces(s[1..]);
      FormatPlain(s[1..], kwargs);
      assert s == [s[0]] + s[1..];
    }
  }

  /** A character other than a brace is copied as it is. */
  lemma FormatLiteral(c: char, tail: string, kwargs: map<string, string>)
    requires c != '{' && c != '}'
    ensures Format([c] + tail, kwargs) == Prepend([c], Format(tail, kwargs))
  {
    assert ([c] + tail)[1..] == tail;
  }

  lemma PrependTwice(x: string, y: string, r: Option<string>)
    ensures Prepend(x, Prepend(y, r)) == Prepend(x + y, r)
  {
    if r.Some? {
      assert x + (y + r.value) == (x + y) + r.value;
    }
  }

  /** A template that opens with a plain field formats as its argument followed by the rest. */
  lemma FormatFieldFirst(name: string, after: string, kwargs: map<string, string>)
    requires NoBraces(name) && name != "" && name in kwargs
    ensures Format("{" + name + "}" + after, kwargs) == Prepend(kwargs[name], Format(after, kwargs))
  {
    var s := "{" + name + "}" + after;
    assert s[1] == name[0] && name[0] in name;
    assert s[1..] == name + "}" + after;
    assert s[1..][..|name|] == name;
    IndexOfIs(s[1..], '}', |name|);
    assert s[1..|name| + 1] == name;
    assert s[|name| + 2..] == after;
  }

  /** A plain field is replaced by its argument and the rest of the template formats on its own. */
  lemma {:induction false} FormatField(before: string, name: string, after: string, kwargs: map<string, string>)
    requires NoBraces(before) && NoBraces(name) && name != "" && name in kwargs
    ensures Format(before + "{" + name + "}" + after, kwargs) == Prepend(before + kwargs[name], Format(after, kwargs))
    decreases |before|
  {
    if |before| == 0 {
      assert before + "{" + name + "}" + after == "{" + name + "}" + after;
      FormatFieldFirst(name, after, kwargs);
      assert before + kwargs[name] == kwargs[name];
    } else {
      var c := before[0];
      var tail := before[1..] + "{" + name + "}" + after;
      assert c in before;
      assert before + "{" + name + "}" + after == [c] + tail;
      FormatLiteral(c, tail, kwargs);
      assert NoBraces(before[1..]) by {
        assert forall x :: x in before[1..] ==> x in before;
      }
      FormatField(before[1..], name, after, kwargs);
      PrependTwice([c], before[1..] + kwargs[name], Format(after, kwargs));
      assert [c] + (before[1..] + kwargs[name]) == before + kwargs[name];
    }
  }

  /**
   * The fallback chain is stated over any dictionary of tables that has an English
   * one; `T` below applies it to the bot's own tables.
   */
  type Dictionary = string -> Option<Table>

  predicate HasEnglish(tr: Dictionary)
  {
    tr("en").Some?
  }

  /** `translations.get(lang, translations['en'])`. */
  function TableFor(tr: Dictionary, lang: string): (table: Table)
    requires HasEnglish(tr)
    ensures tr(lang).Some? ==> table == tr(lang).value
    ensures tr(lang).None? ==> table == tr("en").value
  {
    tr(lang).GetOr(tr("en").value)
  }

  /** Python's `default or key`: a non-empty default, otherwise the key. */
  function DefaultOrKey(default: Option<string>, key: string): string
  {
    if default.Some? && default.value != "" then default.value else key
  }

  /**
   * `t(key, lang, default, **kwargs)` over the tables `tr`. The entry of the
   * language's table, else the English entry, is formatted; with neither, the
   * non-empty default or else the key itself comes back unformatted. `None` is the
   * exception `format` raises.
   */
  function Translate(tr: Dictionary, key: string, lang: string, default: Option<string>, kwargs: map<string, string>): (r: Option<string>)
    requires HasEnglish(tr)
  {
    var message := TableFor(tr, lang)(key);
    if message.Some? then Format(message.value, kwargs)
    else
      var english := tr("en").value(key);
      if english.Some? then Format(english.value, kwargs)
      else Some(DefaultOrKey(default, key))
  }

  /** A key of the chosen table is that table's message, formatted. */
  lemma TranslatesFromOwnTable(tr: Dictionary, key: string, lang: string, default: Option<string>, kwargs: map<string, string>)
    requires HasEnglish(tr) && tr(lang).Some? && tr(lang).value(key).Some?
    ensures Translate(tr, key, lang, default, kwargs) == Format(tr(lang).value(key).value, kwargs)
  {
  }

  /** An unknown language code translates exactly as English does. */
  lemma UnknownLanguageIsEnglish(tr: Dictionary, key: string, lang: string, default: Option<string>, kwargs: map<string, string>)
    requires HasEnglish(tr) && tr(lang).None?
    ensures Translate(tr, key, lang, default, kwargs) == Translate(tr, key, "en", default, kwargs)
  {
  }

  /** A key the chosen table lacks but English has gets the English message. */
  lemma FallsBackToEnglish(tr: Dictionary, key: string, lang: string, default: Option<string>, kwargs: map<string, string>)
    requires HasEnglish(tr) && TableFor(tr, lang)(key).None? && tr("en").value(key).Some?
    ensures Translate(tr, key, lang, default, kwargs) == Format(tr("en").value(key).value, kwargs)
  {
  }

  /**
   * A key missing from the chosen table and from English comes back as the
   * non-empty default or the key, never formatted, so whatever the arguments it
   * cannot raise.
   */
  lemma MissingKeyIsNeverFormatted(tr: Dictionary, key: string, lang: string, default: Option<string>, kwargs: map<string, string>)
    requires HasEnglish(tr) && TableFor(tr, lang)(key).None? && tr("en").value(key).None?
    ensures Translate(tr, key, lang, default, kwargs) == Some(DefaultOrKey(default, key))
    ensures default.Some? && default.value != "" ==> Translate(tr, key, lang, default, kwargs) == Some(default.value)
    ensures default.None? ==> Translate(tr, key, lang, default, kwargs) == Some(key)
  {
  }

  /**
   * `t` itself, on the bot's tables: Amharic messages for "am" where the Amharic
   * table has the key, English ones for every other code and every other key, and
   * the non-empty default or the key when English lacks it too.
   */
  function T(key: string, lang: string, default: Option<string>, kwargs: map<string, string>): (r: Option<string>)
    ensures lang == "am" && AmMessage(key).Some? ==> r == Format(AmMessage(key).value, kwargs)
    ensures (lang != "am" || AmMessage(key).None?) && EnMessage(key).Some? ==> r == Format(EnMessage(key).value, kwargs)
    ensures (lang != "am" || AmMessage(key).None?) && EnMessage(key).None? ==> r == Some(DefaultOrKey(default, key))
  {
    Translate(Translations, key, lang, default, kwargs)
  }

  lemma WebsiteCtaNotEnglish()
    ensures EnMessage("website_cta").None?
  {
  }

  lemma WebsiteCtaNotAmharic()
    ensures AmMessage("website_cta").None?
  {
  }

  /** The call-to-action key is in neither table, so its default text is what users see in every language. */
  lemma WebsiteCtaUsesDefault(lang: string)
    ensures T("website_cta", lang, Some("Visit our website:"), map[]) == Some("Visit our website:")
  {
    WebsiteCtaNotEnglish();
    WebsiteCtaNotAmharic();
    MissingKeyIsNeverFormatted(Translations, "website_cta", lang, Some("Visit our website:"), map[]);
  }

  /** `[d.get(key) for d in tables if d.get(key)]`: the non-empty entries for `key`, in table order. */
  function TranslationsIn(tables: seq<Table>, key: string): (r: seq<string>)
    ensures |r| <= |tables|
    ensures forall s :: s in r ==> s != "" && exists t :: t in tables && t(key) == Some(s)
    ensures r == [] <==> forall t :: t in tables ==> t(key).None? || t(key) == Some("")
  {
    if |tables| == 0 then []
    else
      var rest := TranslationsIn(tables[1..], key);
      assert forall t :: t in tables[1..] ==> t in tables;
      var entry := tables[0](key);
      if entry.Some? && entry.value != "" then [entry.value] + rest else rest
  }

  /** Entries keep the order of their tables: the first table's entry, when there is one, comes first. */
  lemma TranslationsInOrder(tables: seq<Table>, key: string, message: string)
    requires |tables| >= 1 && tables[0](key) == Some(message) && message != ""
    ensures TranslationsIn(tables, key)[0] == message
  {
  }

  /** Over two tables the comprehension keeps the first table's truthy entry, then the second's. */
  lemma TranslationsInTwo(a: Table, b: Table, key: string)
    ensures TranslationsIn([a, b], key) == (if a(key).Some? && a(key).value != "" then [a(key).value] else [])
                                          + (if b(key).Some? && b(key).value != "" then [b(key).value] else [])
  {
    assert [a, b][1..] == [b] && [b][1..] == [];
  }

  /** `get_all_translations(key)`: at most one message per language, English first. */
  function GetAllTranslations(key: string): (r: seq<string>)
    ensures |r| <= 2
    ensures r == (if EnMessage(key).Some? && EnMessage(key).value != "" then [EnMessage(key).value] else [])
              + (if AmMessage(key).Some? && AmMessage(key).value != "" then [AmMessage(key).value] else [])
  {
    TranslationsInTwo(EnMessage, AmMessage, key);
    TranslationsIn(TableOrder, key)
  }

  /** The characters `re.escape` puts a backslash before (Python 3.7 and later). */
  predicate IsRegexSpecial(c: char)
  {
    || c == '(' || c == ')' || c == '[' || c == ']' || c == '{' || c == '}'
    || c == '?' || c == '*' || c == '+' || c == '-' || c == '|' || c == '^'
    || c == '$' || c == '\\' || c == '.' || c == '&' || c == '~' || c == '#'
    || c == ' ' || c == '\t' || c == '\n' || c == '\r' || c == '\U{B}' || c == '\U{C}'
  }

  function EscapeChar(c: char): (r: string)
  {
    if IsRegexSpecial(c) then ['\\', c] else [c]
  }

  /** `re.escape(s)`. */
  function Escape(s: string): (r: string)
    ensures |r| >= |s|
  {
    if |s| == 0 then "" else EscapeChar(s[0]) + Escape(s[1..])
  }

  /**
   * How a regex engine reads a `|`-separated alternation of literals: a backslash
   * makes the next character literal, an unescaped `|` starts the next alternative.
   */
  function Alternatives(p: string): (r: seq<string>)
    ensures |r| >= 1
    decreases |p|
  {
    if |p| == 0 then [""]
    else if p[0] == '|' then [""] + Alternatives(p[1..])
    else if p[0] == '\\' && |p| >= 2 then PrefixFirst([p[1]], Alternatives(p[2..]))
    else PrefixFirst([p[0]], Alternatives(p[1..]))
  }

  function PrefixFirst(s: string, r: seq<string>): (r': seq<string>)
    requires |r| >= 1
    ensures |r'| == |r| && r'[0] == s + r[0] && r'[1..] == r[1..]
  {
    [s + r[0]] + r[1..]
  }

  /** An escaped literal is read back character for character, whatever follows it. */
  lemma AlternativesOfEscapedChar(c: char, tail: string)
    ensures Alternatives(EscapeChar(c) + tail) == PrefixFirst([c], Alternatives(tail))
  {
    var p := EscapeChar(c) + tail;
    if IsRegexSpecial(c) {
      assert p[0] == '\\' && p[1] == c && p[2..] == tail;
    } else {
      assert p[0] == c && p[1..] == tail;
    }
  }

  /** An empty prefix leaves the alternatives as they are. */
  lemma PrefixEmpty(r: seq<string>)
    requires |r| >= 1
    ensures PrefixFirst("", r) == r
  {
    assert "" + r[0] == r[0];
  }

  /** Prefixing twice is prefixing once with the two joined. */
  lemma PrefixTwice(x: string, y: string, r: seq<string>)
    requires |r| >= 1
    ensures PrefixFirst(x, PrefixFirst(y, r)) == PrefixFirst(x + y, r)
  {
    assert x + (y + r[0]) == (x + y) + r[0];
  }

  lemma {:induction false} AlternativesOfEscaped(s: string, rest: string)
    ensures Alternatives(Escape(s) + rest) == PrefixFirst(s, Alternatives(rest))
    decreases |s|
  {
    if |s| == 0 {
      assert Escape(s) + rest == rest;
      PrefixEmpty(Alternatives(rest));
    } else {
      var tail := Escape(s[1..]) + rest;
      AlternativesOfEscaped(s[1..], rest);
      assert Escape(s) + rest == EscapeChar(s[0]) + tail;
      AlternativesOfEscapedChar(s[0], tail);
      PrefixTwice([s[0]], s[1..], Alternatives(rest));
      assert [s[0]] + s[1..] == s;
    }
  }

  function EscapeAll(options: seq<string>): (r: seq<string>)
    ensures |r| == |options|
  {
    if |options| == 0 then [] else [Escape(options[0])] + EscapeAll(options[1..])
  }

  /** An unescaped `|` closes the current alternative. */
  lemma AlternativesAfterBar(rest: string)
    ensures Alternatives("|" + rest) == [""] + Alternatives(rest)
  {
    var bar := "|" + rest;
    assert bar[0] == '|' && bar[1..] == rest;
  }

  /** Joining at least two parts puts the separator after the first. */
  lemma JoinCons(x: string, parts: seq<string>, sep: string)
    requires |parts| >= 1
    ensures Join([x] + parts, sep) == x + (sep + Join(parts, sep))
  {
    assert ([x] + parts)[1..] == parts;
  }

  /** The alternation of the escaped options matches exactly the options, in order. */
  lemma {:induction false} AlternativesOfJoin(options: seq<string>)
    requires |options| >= 1
    ensures Alternatives(Join(EscapeAll(options), "|")) == options
  {
    var first := options[0];
    if |options| == 1 {
      assert Join(EscapeAll(options), "|") == Escape(first) + "";
      AlternativesOfEscaped(first, "");
      assert first + "" == first;
    } else {
      var others := options[1..];
      var rest := Join(EscapeAll(others), "|");
      AlternativesOfJoin(others);
      assert Join(EscapeAll(options), "|") == Escape(first) + ("|" + rest) by {
        assert EscapeAll(options) == [Escape(first)] + EscapeAll(others);
        JoinCons(Escape(first), EscapeAll(others), "|");
      }
      AlternativesAfterBar(rest);
      AlternativesOfEscaped(first, "|" + rest);
      assert first + "" == first;
      assert options == [first] + others;
    }
  }

  /**
   * The body of `create_i18n_regex`: the options escaped and joined with `|`,
   * anchored. Read back as an alternation it is exactly the options, in order.
   */
  function AnchoredAlternation(options: seq<string>): (pattern: string)
    ensures |options| >= 1 ==>
      exists body :: pattern == "^(" + body + ")$" && Alternatives(body) == options
    ensures options == [] ==> pattern == "^()$"
  {
    var body := Join(EscapeAll(options), "|");
    if |options| >= 1 then
      AlternativesOfJoin(options);
      "^(" + body + ")$"
    else
      "^(" + body + ")$"
  }

  /** `create_i18n_regex(key)`: a pattern matching any translation of `key`. */
  function CreateI18nRegex(key: string): (pattern: string)
    ensures |GetAllTranslations(key)| >= 1 ==>
      exists body :: pattern == "^(" + body + ")$" && Alternatives(body) == GetAllTranslations(key)
    ensures GetAllTranslations(key) == [] ==> pattern == "^()$"
  {
    AnchoredAlternation(GetAllTranslations(key))
  }

  /** Both labels of the submit button, English first: the alternatives its menu pattern accepts. */
  lemma SubmitPropertyTranslations()
    ensures GetAllTranslations("submit_property") == ["➕ Submit a Property", "➕ ንብረት ያስገቡ"]
  {
    var en, am := "➕ Submit a Property", "➕ ንብረት ያስገቡ";
    assert EnMessage("submit_property") == Some(en);
    assert AmMessage("submit_property") == Some(am);
    assert TableOrder[1..][1..] == [];
    assert TranslationsIn(TableOrder[1..][1..], "submit_property") == [];
    assert TranslationsIn(TableOrder[1..], "submit_property") == [am];
  }
}

=== FILE: keyboards.dfy ===
/**
 * The bot's keyboards (src/infrastructure/telegram_bot/keyboards.py): the option
 * tables of the reply keyboards, the row chunking every reply keyboard goes
 * through, the role-dependent main menu and the admin's inline approval buttons.
 * A keyboard is its rows of button labels.
 */
module Keyboards {
  import opened Wrappers
  import opened Text
  import opened I18n
  import opened CommonModels
  import opened UserModels
  import opened Constants

  type Row = seq<string>

  const BedroomOptions: seq<string> := ["1", "2", "3", "4", "5", "6+"]
  const BathroomOptions: seq<string> := ["1", "2", "3", "4+"]

  /** A "lo-hi" range as the price table writes it: both bounds in decimal. */
  function Range(lo: nat, hi: nat): string
  {
    NatToString(lo) + "-" + NatToString(hi)
  }

  /** The labels of `PRICE_RANGES_TEXT`, in dictionary order. */
  const PriceRangeLabels: seq<string> := ["Under 5M", "5M - 10M", "10M - 20M", "20M - 33M", "Above 33M", AnyPrice]

  /**
   * `PRICE_RANGES_TEXT.get(choice)`: the choice's "lo-hi" range, or "any". The
   * dictionary's keys are exactly the listed labels, and only "Any Price" maps to "any".
   */
  function PriceRangeFor(choice: string): (value: Option<string>)
    ensures value.Some? <==> choice in PriceRangeLabels
    ensures value == Some("any") <==> choice == AnyPrice
  {
    match choice
    case "Under 5M" => Some(Range(0, 5000000))
    case "5M - 10M" => Some(Range(5000000, 10000000))
    case "10M - 20M" => Some(Range(10000000, 20000000))
    case "20M - 33M" => Some(Range(20000000, 33000000))
    case "Above 33M" => Some(Range(33000000, 9999999999))
    case "Any Price" => Some("any")
    case _ => None
  }

  const Regions: seq<string> := ["Addis Ababa", "Amhara", "Oromia", "Other", AnyRegion]

  /**
   * `CONDO_SCHEMES`: the scheme values in enum order, then the "Any Scheme" choice.
   * Every button but the last parses back to its scheme; the last does not parse.
   */
  function CondoSchemeOptions(): (options: seq<string>)
    ensures |options| == |AllCondoSchemes()| + 1
    ensures forall i :: 0 <= i < |options| - 1 ==> ParseCondoScheme(options[i]) == Some(AllCondoSchemes()[i])
    ensures options[|options| - 1] == AnyScheme && ParseCondoScheme(AnyScheme).None?
  {
    var schemes := AllCondoSchemes();
    seq(|schemes|, i requires 0 <= i < |schemes| => schemes[i].Value()) + [AnyScheme]
  }

  /**
   * A button's text, `t(key, lang)` without arguments. `t` raises only when `format`
   * fails, which needs a brace in the message; no label the keyboards show has one
   * (`LabelOf` and the label lemmas below), so `GetOr` never stands in for a raise on them.
   */
  function Label(key: string, lang: string): string
  {
    T(key, lang, None, map[]).GetOr(key)
  }

  /**
   * The message of the language's table, else the English one, is the label as
   * written when it has no format fields; a key neither table has is its own label.
   */
  lemma LabelOf(key: string, lang: string)
    ensures EnMessage(key).None? && AmMessage(key).None? ==> Label(key, lang) == key
    ensures lang != "am" && EnMessage(key).Some? && NoBraces(EnMessage(key).value) ==> Label(key, lang) == EnMessage(key).value
    ensures lang == "am" && AmMessage(key).Some? && NoBraces(AmMessage(key).value) ==> Label(key, lang) == AmMessage(key).value
  {
    if lang != "am" && EnMessage(key).Some? && NoBraces(EnMessage(key).value) {
      FormatPlain(EnMessage(key).value, map[]);
    }
    if lang == "am" && AmMessage(key).Some? && NoBraces(AmMessage(key).value) {
      FormatPlain(AmMessage(key).value, map[]);
    }
  }

  /** Concatenating the rows, as a reader scanning the keyboard sees the buttons. */
  function Flatten(rows: seq<Row>): seq<string>
  {
    if |rows| == 0 then [] else rows[0] + Flatten(rows[1..])
  }

  /**
   * `[options[i:i + columns] for i in range(0, len(options), columns)]`: the options
   * in order, `columns` to a row, the last row holding what is left.
   */
  function Chunk(options: seq<string>, columns: nat): (rows: seq<Row>)
    requires columns > 0
    ensures Flatten(rows) == options
    ensures forall i :: 0 <= i < |rows| ==> 1 <= |rows[i]| <= columns
    ensures forall i :: 0 <= i < |rows| - 1 ==> |rows[i]| == columns
    ensures rows == [] <==> options == []
    decreases |options|
  {
    if |options| == 0 then []
    else if |options| <= columns then
      assert Flatten([options]) == options + Flatten([]);
      [options]
    else
      var rest := Chunk(options[columns..], columns);
      var rows := [options[..columns]] + rest;
      assert rows[1..] == rest;
      assert options == options[..columns] + options[columns..];
      rows
  }

  /** There are as many rows as `range(0, len(options), columns)` has steps. */
  lemma {:induction false} ChunkCount(options: seq<string>, columns: nat)
    requires columns > 0
    ensures (|Chunk(options, columns)| - 1) * columns < |options| <= |Chunk(options, columns)| * columns
            || (options == [] && Chunk(options, columns) == [])
    decreases |options|
  {
    if |options| > columns {
      var k := |Chunk(options[columns..], columns)|;
      ChunkCount(options[columns..], columns);
      assert |Chunk(options, columns)| == k + 1;
      assert (k + 1) * columns == k * columns + columns;
    }
  }

  /**
   * `create_reply_options_keyboard`. `range` with a step of 0 raises, which is
   * `None`; a negative step gives no option rows. The cancel row, always in English
   * because `t` is called without a language, comes last exactly when asked for.
   */
  function ReplyOptionsKeyboard(options: seq<string>, columns: int, addCancel: bool): (kb: Option<seq<Row>>)
    ensures kb.None? <==> columns == 0
    ensures columns > 0 ==> kb.Some? && |kb.value| == |Chunk(options, columns)| + (if addCancel then 1 else 0)
    ensures columns > 0 ==> kb.Some? && kb.value[..|Chunk(options, columns)|] == Chunk(options, columns)
    ensures columns < 0 ==> kb.Some? && |kb.value| == (if addCancel then 1 else 0)
    ensures kb.Some? && addCancel ==> |kb.value| >= 1 && kb.value[|kb.value| - 1] == [Label("cancel", "en")]
  {
    if columns == 0 then None
    else
      var rows := if columns > 0 then Chunk(options, columns) else [];
      Some(if addCancel then rows + [[Label("cancel", "en")]] else rows)
  }

  /**
   * The options of `get_main_menu_keyboard`: browse and filter for everyone, submit
   * and my-listings for brokers, the admin panel for admins. The labels are always
   * English, whatever `lang` is.
   */
  function MainMenuOptions(user: User): (options: seq<string>)
    ensures |options| == 2 + (if Broker in user.roles then 2 else 0) + (if Admin in user.roles then 1 else 0)
    ensures options[..2] == [Label("browse_properties", "en"), Label("filter_properties", "en")]
    ensures Broker in user.roles ==> options[2..4] == [Label("submit_property", "en"), Label("my_listings", "en")]
    ensures Admin in user.roles ==> options[|options| - 1] == Label("admin_panel", "en")
  {
    [Label("browse_properties", "en"), Label("filter_properties", "en")]
    + (if Broker in user.roles then [Label("submit_property", "en"), Label("my_listings", "en")] else [])
    + (if Admin in user.roles then [Label("admin_panel", "en")] else [])
  }

  /** An English message without format fields is its button's text. */
  lemma EnglishLabel(key: string, message: string)
    requires EnMessage(key) == Some(message) && NoBraces(message)
    ensures Label(key, "en") == message
  {
    LabelOf(key, "en");
  }

  lemma BrowseLabel()
    ensures Label("browse_properties", "en") == "🔍 Browse Properties"
  {
    EnglishLabel("browse_properties", "🔍 Browse Properties");
  }

  lemma FilterLabel()
    ensures Label("filter_properties", "en") == "📊 Filter Properties"
  {
    EnglishLabel("filter_properties", "📊 Filter Properties");
  }

  /** The English labels of the buttons everyone sees. */
  lemma BrowseFilterLabels()
    ensures Label("browse_properties", "en") == "🔍 Browse Properties"
    ensures Label("filter_properties", "en") == "📊 Filter Properties"
  {
    BrowseLabel();
    FilterLabel();
  }

  lemma SubmitLabel()
    ensures Label("submit_property", "en") == "➕ Submit a Property"
  {
    EnglishLabel("submit_property", "➕ Submit a Property");
  }

  lemma MyListingsLabel()
    ensures Label("my_listings", "en") == "📋 My Listings"
  {
    EnglishLabel("my_listings", "📋 My Listings");
  }

  /** The English labels of the broker's buttons. */
  lemma BrokerLabels()
    ensures Label("submit_property", "en") == "➕ Submit a Property"
    ensures Label("my_listings", "en") == "📋 My Listings"
  {
    SubmitLabel();
    MyListingsLabel();
  }

  /** The English label of the admin's button. */
  lemma AdminLabel()
    ensures Label("admin_panel", "en") == "👑 Admin Panel"
  {
    EnglishLabel("admin_panel", "👑 Admin Panel");
  }

  /** The English label of the cancel button. */
  lemma CancelLabel()
    ensures Label("cancel", "en") == "❌ Cancel"
  {
    EnglishLabel("cancel", "❌ Cancel");
  }

  /** `get_main_menu_keyboard(user, lang)`: the menu options two to a row, no cancel row. */
  function MainMenuKeyboard(user: User, lang: string): (kb: seq<Row>)
    ensures Flatten(kb) == MainMenuOptions(user)
    ensures forall i :: 0 <= i < |kb| ==> 1 <= |kb[i]| <= 2
    ensures kb[0] == [Label("browse_properties", "en"), Label("filter_properties", "en")]
  {
    var options := MainMenuOptions(user);
    ReplyOptionsKeyboard(options, 2, false).value
  }

  /** The broker's two buttons are on the menu exactly when the user is a broker. */
  lemma MainMenuBrokerButtons(user: User, lang: string)
    ensures Label("submit_property", "en") in Flatten(MainMenuKeyboard(user, lang)) <==> Broker in user.roles
    ensures Label("my_listings", "en") in Flatten(MainMenuKeyboard(user, lang)) <==> Broker in user.roles
  {
    BrowseFilterLabels();
    BrokerLabels();
    AdminLabel();
  }

  /** The admin panel is on the menu exactly when the user is an admin. */
  lemma MainMenuAdminButton(user: User, lang: string)
    ensures Label("admin_panel", "en") in Flatten(MainMenuKeyboard(user, lang)) <==> Admin in user.roles
    ensures 2 <= |Flatten(MainMenuKeyboard(user, lang))| <= 5
  {
    BrowseFilterLabels();
    BrokerLabels();
    AdminLabel();
  }

  /** The menu never offers cancel. */
  lemma MainMenuHasNoCancel(user: User, lang: string)
    ensures Label("cancel", "en") !in Flatten(MainMenuKeyboard(user, lang))
  {
    BrowseFilterLabels();
    BrokerLabels();
    AdminLabel();
    CancelLabel();
  }

  /** `get_role_selection_keyboard`: the buyer and the broker choice on one row. */
  function RoleSelectionKeyboard(): (kb: seq<Row>)
    ensures kb == [[Label("buyer_role", "en"), Label("broker_role", "en")]]
  {
    ReplyOptionsKeyboard([Label("buyer_role", "en"), Label("broker_role", "en")], 2, false).value
  }

  /** The labels of the reply keyboards of the search and submission flows. */
  function PropertyTypeOptions(): seq<string>
  {
    var types := AllPropertyTypes();
    seq(|types|, i requires 0 <= i < |types| => types[i].Value())
  }

  function BedroomKeyboardOptions(): seq<string>
  {
    BedroomOptions + [AnyOption]
  }

  /** Every type button is a valid `PropertyType`, so the type steps accept every button. */
  lemma PropertyTypeButtonsParse()
    ensures forall o :: o in PropertyTypeOptions() ==> ParsePropertyType(o).Some?
    ensures |PropertyTypeOptions()| == 6
  {
  }

  /** With every `+` removed, every bedroom button but "Any" reads as a positive count. */
  lemma BedroomButtonsParse()
    ensures BedroomKeyboardOptions()[|BedroomKeyboardOptions()| - 1] == AnyOption
    ensures forall i :: 0 <= i < |BedroomOptions| ==>
      ParseInt(RemoveAll(BedroomOptions[i], '+')).Some? && ParseInt(RemoveAll(BedroomOptions[i], '+')).value > 0
  {
    forall i | 0 <= i < |BedroomOptions|
      ensures ParseInt(RemoveAll(BedroomOptions[i], '+')).Some? && ParseInt(RemoveAll(BedroomOptions[i], '+')).value > 0
    {
      if i < 5 {
        RemoveAllAbsent(BedroomOptions[i], '+');
      } else {
        assert RemoveAll("6+", '+') == "6";
      }
    }
  }

  /**
   * `value.split('-')`, then its pieces `[0]` and `[1]` read as numbers; pieces after
   * the second are not looked at. `None` is the `IndexError` of a value without '-'
   * or the `ValueError` of a piece that is not a number.
   */
  function ParsePriceRange(value: string): (r: Option<(int, int)>)
    ensures r.Some? ==> |Split(value, '-')| >= 2
    ensures '-' !in value ==> r.None?
  {
    var parts := Split(value, '-');
    SplitAtSeparator(value, '-');
    if |parts| < 2 then None
    else
      var lo, hi := ParseInt(parts[0]), ParseInt(parts[1]);
      if lo.Some? && hi.Some? then Some((lo.value, hi.value)) else None
  }

  /** Splitting a range on '-' and reading both halves gives back its bounds. */
  lemma ParseRange(lo: nat, hi: nat)
    ensures ParsePriceRange(Range(lo, hi)) == Some((lo, hi))
  {
    var a, b := NatToString(lo), NatToString(hi);
    SplitAround(a, '-', b);
    SplitJoin([a], '-');
    SplitJoin([b], '-');
    assert Range(lo, hi) == a + ['-'] + b;
    DigitsOfNatToString(lo);
    DigitsOfNatToString(hi);
  }

  /** Every price choice except "Any Price" maps to a "lo-hi" range with lo below hi; "any" reads as no range. */
  lemma PriceRangesWellFormed(choice: string)
    requires choice in PriceRangeLabels && choice != AnyPrice
    ensures ParsePriceRange(PriceRangeFor(choice).value).Some?
    ensures ParsePriceRange(PriceRangeFor(choice).value).value.0 < ParsePriceRange(PriceRangeFor(choice).value).value.1
    ensures ParsePriceRange("any").None?
  {
    match choice
    case "Under 5M" => ParseRange(0, 5000000);
    case "5M - 10M" => ParseRange(5000000, 10000000);
    case "10M - 20M" => ParseRange(10000000, 20000000);
    case "20M - 33M" => ParseRange(20000000, 33000000);
    case "Above 33M" => ParseRange(33000000, 9999999999);
  }

  /** An inline button: its text and the data it sends back when pressed. */
  datatype InlineButton = InlineButton(text: string, callbackData: string)

  /**
   * `create_admin_approval_keyboard(prop_id, lang)`: one row, approve then reject,
   * each button sending its action prefix, '_' and the listing id.
   */
  function AdminApprovalKeyboard(propId: string, lang: string): (kb: seq<seq<InlineButton>>)
    ensures |kb| == 1 && |kb[0]| == 2
    ensures kb[0][0].callbackData == CbAdminApprove + "_" + propId
    ensures kb[0][1].callbackData == CbAdminReject + "_" + propId
  {
    var approve := CbAdminApprove + "_" + propId;
    var reject := CbAdminReject + "_" + propId;
    [[InlineButton(Label(CbAdminApprove, lang), approve),
      InlineButton(Label(CbAdminReject, lang), reject)]]
  }
}

=== FILE: property_models.dfy ===
/**
 * Listing records (src/domain/models/property_models.py): the submission record,
 * the stored record and the search filter, with the field constraints that
 * Pydantic enforces when a record is built.
 */
module PropertyModels {
  import opened Wrappers
  import opened CommonModels

  /** The fewest photos a listing may have; the submission loop enforces the same bound. */
  const MinImages := 3

  /**
   * Optional listing features the MySQL repository stores and filters on. The
   * Pydantic model does not declare them; the record carries them so that the
   * repository can be modelled as written.
   */
  datatype ListingFeatures = ListingFeatures(
    isCommercial: Option<bool> := None,
    totalFloors: Option<int> := None,
    totalUnits: Option<int> := None,
    hasElevator: Option<bool> := None,
    hasPrivateRooftop: Option<bool> := None,
    isTwoStoryPenthouse: Option<bool> := None,
    hasPrivateEntrance: Option<bool> := None)

  /** `PropertyCreate`: a listing as a broker submits it. Prices and areas are reals. */
  datatype PropertyCreate = PropertyCreate(
    propertyType: PropertyType,
    location: Location,
    bedrooms: int,
    bathrooms: int,
    sizeSqm: real,
    priceEtb: real,
    description: string,
    imageUrls: seq<string>,
    brokerId: string,
    brokerName: string,
    furnishingStatus: Option<FurnishingStatus> := None,
    condominiumScheme: Option<CondoScheme> := None,
    floorLevel: Option<int> := None,
    debtStatus: Option<string> := None,
    structureType: Option<string> := None,
    plotSizeSqm: Option<real> := None,
    titleDeed: bool := false,
    kitchenType: Option<string> := None,
    livingRooms: Option<int> := None,
    waterTank: bool := false,
    parkingSpaces: Option<int> := Some(0),
    features: ListingFeatures := ListingFeatures(),
    brokerPhone: Option<string> := None)

  /** `PropertyInDB`: a stored listing, pending and without a rejection reason unless stated. */
  datatype Property = Property(
    pid: string,
    data: PropertyCreate,
    status: PropertyStatus := Pending,
    rejectionReason: Option<string> := None)

  /**
   * `PropertyFilter`: every criterion optional. The last six fields are the ones the
   * MySQL query reads although the Pydantic model does not declare them.
   */
  datatype PropertyFilter = PropertyFilter(
    status: Option<PropertyStatus> := None,
    propertyType: Option<PropertyType> := None,
    minBedrooms: Option<int> := None,
    maxBedrooms: Option<int> := None,
    locationRegion: Option<string> := None,
    locationCity: Option<string> := None,
    locationSubCity: Option<string> := None,
    minPrice: Option<real> := None,
    maxPrice: Option<real> := None,
    minSizeSqm: Option<real> := None,
    maxSizeSqm: Option<real> := None,
    condominiumScheme: Option<CondoScheme> := None,
    furnishingStatus: Option<FurnishingStatus> := None,
    minFloorLevel: Option<int> := None,
    locationSite: Option<string> := None,
    filterIsCommercial: Option<bool> := None,
    filterHasElevator: Option<bool> := None,
    filterHasPrivateRooftop: Option<bool> := None,
    filterIsTwoStoryPenthouse: Option<bool> := None,
    filterHasPrivateEntrance: Option<bool> := None)

  /** The field constraints of `PropertyBase`. */
  predicate ValidPropertyCreate(p: PropertyCreate)
  {
    p.bedrooms > 0 && p.bathrooms > 0 && p.sizeSqm > 0.0 && p.priceEtb > 0.0
    && |p.imageUrls| >= MinImages
  }

  /**
   * Pydantic validation of a submitted listing: the record itself when every
   * constraint holds, otherwise the name of the first field that breaks one.
   */
  function ValidatePropertyCreate(p: PropertyCreate): (r: Result<PropertyCreate, string>)
    ensures r.Ok? <==> ValidPropertyCreate(p)
    ensures r.Ok? ==> r.value == p
    ensures r.Err? ==> r.error in {"bedrooms", "bathrooms", "size_sqm", "price_etb", "image_urls"}
  {
    if p.bedrooms <= 0 then Err("bedrooms")
    else if p.bathrooms <= 0 then Err("bathrooms")
    else if p.sizeSqm <= 0.0 then Err("size_sqm")
    else if p.priceEtb <= 0.0 then Err("price_etb")
    else if |p.imageUrls| < MinImages then Err("image_urls")
    else Ok(p)
  }

  /** A filter that sets no criterion. */
  predicate IsEmptyFilter(f: PropertyFilter)
  {
    f.status.None? && f.propertyType.None? && f.minBedrooms.None? && f.maxBedrooms.None?
    && f.locationRegion.None? && f.locationCity.None? && f.locationSubCity.None?
    && f.minPrice.None? && f.maxPrice.None? && f.minSizeSqm.None? && f.maxSizeSqm.None?
    && f.condominiumScheme.None? && f.furnishingStatus.None? && f.minFloorLevel.None?
    && f.locationSite.None? && f.filterIsCommercial.None? && f.filterHasElevator.None?
    && f.filterHasPrivateRooftop.None? && f.filterIsTwoStoryPenthouse.None?
    && f.filterHasPrivateEntrance.None?
  }

  /** `PropertyFilter()`: with every field left at its default the filter is empty, and it is the only empty one. */
  lemma DefaultFilterIsEmpty(f: PropertyFilter)
    ensures IsEmptyFilter(PropertyFilter())
    ensures IsEmptyFilter(f) <==> f == PropertyFilter()
  {
  }
}

=== FILE: property_use_cases.dfy ===
/**
 * The listing use cases (src/use_cases/property_use_cases.py): submission,
 * moderation (approve, reject, mark as sold), search and the analytics summary,
 * over the repository. Each `await` on the repository is one step here.
 */
module Listings {
  import opened Wrappers
  import opened Exceptions
  import opened CommonModels
  import opened PropertyModels
  import opened CarModels
  import opened RepoQueries
  import opened Repository

  /** The moderation actions an admin takes on a listing. */
  datatype Action = Approve | Reject(reason: string) | MarkSold

  /** The status an action requires: approving and rejecting need a pending listing, selling an approved one. */
  function Required(a: Action): PropertyStatus
  {
    match a
    case Approve => Pending
    case Reject(_) => Pending
    case MarkSold => Approved
  }

  /** The listing after a successful action. */
  function Moderated(p: Property, a: Action): (q: Property)
    ensures q.pid == p.pid && q.data == p.data
  {
    match a
    case Approve => p.(status := Approved, rejectionReason := None)
    case Reject(reason) => p.(status := Rejected, rejectionReason := Some(reason))
    case MarkSold => p.(status := Sold)
  }

  /** The `InvalidOperationError` an action raises on a listing in the wrong status. */
  function Refusal(p: Property, a: Action): AppError
  {
    match a
    case Approve => InvalidOperation("Cannot approve property. Current status is '" + p.status.Value() + "'.")
    case Reject(_) => InvalidOperation("Cannot reject property. Current status is '" + p.status.Value() + "'.")
    case MarkSold => InvalidOperation("Cannot mark as sold. Property must be in 'approved' status.")
  }

  /** An action's effect on a listing: the moderated listing, or the refusal and no change. */
  function Moderate(p: Property, a: Action): (r: Result<Property, AppError>)
    ensures r.Ok? <==> p.status == Required(a)
    ensures r.Ok? ==> r.value == Moderated(p, a)
    ensures r.Err? ==> r.error.InvalidOperation? && !IsNotFound(r.error)
  {
    if p.status == Required(a) then Ok(Moderated(p, a)) else Err(Refusal(p, a))
  }

  /** A run of actions on one listing, a refused action leaving it as it was. */
  function Run(p: Property, actions: seq<Action>): (q: Property)
    ensures q.pid == p.pid && q.data == p.data
    decreases |actions|
  {
    if actions == [] then p
    else
      var r := Moderate(p, actions[0]);
      Run(if r.Ok? then r.value else p, actions[1..])
  }

  /** Once reviewed, a listing never returns to pending. */
  lemma {:induction false} NeverBackToPending(p: Property, actions: seq<Action>)
    requires p.status != Pending
    ensures Run(p, actions).status != Pending
    decreases |actions|
  {
    if actions != [] {
      var r := Moderate(p, actions[0]);
      NeverBackToPending(if r.Ok? then r.value else p, actions[1..]);
    }
  }

  /** Rejected and sold are final: no action moves a listing out of them. */
  lemma {:induction false} FinalStatusesStay(p: Property, actions: seq<Action>)
    requires p.status == Rejected || p.status == Sold
    ensures Run(p, actions) == p
  {
    if actions != [] {
      assert !Moderate(p, actions[0]).Ok?;
      FinalStatusesStay(p, actions[1..]);
    }
  }

  /** A pending listing is sold only after an approval that went through. */
  lemma {:induction false} SoldOnlyAfterApproval(p: Property, actions: seq<Action>)
    requires p.status == Pending && Run(p, actions).status == Sold
    ensures Approve in actions
  {
    var r := Moderate(p, actions[0]);
    var next := if r.Ok? then r.value else p;
    if actions[0] == Approve {
    } else if next.status == Pending {
      SoldOnlyAfterApproval(next, actions[1..]);
    } else {
      assert next.status == Rejected;
      FinalStatusesStay(next, actions[1..]);
    }
  }

  /** Approving the same listing twice: the second approval is refused and changes nothing. */
  lemma ApproveTwiceRefused(p: Property)
    requires p.status == Pending
    ensures var once := Moderate(p, Approve);
      once.Ok? && Moderate(once.value, Approve) == Err(InvalidOperation("Cannot approve property. Current status is 'approved'."))
  {
    var q := Moderate(p, Approve).value;
    assert q.status.Value() == "approved";
    assert "Cannot approve property. Current status is '" + "approved" + "'."
        == "Cannot approve property. Current status is 'approved'.";
  }

  /** The SET entries each action writes. */
  function Updates(a: Action): seq<PropertyField>
  {
    match a
    case Approve => [StatusField(Approved), RejectionReasonField(None)]
    case Reject(reason) => [StatusField(Rejected), RejectionReasonField(Some(reason))]
    case MarkSold => [StatusField(Sold)]
  }

  /** Writing an action's entries is moderating the listing. */
  lemma UpdatesModerate(p: Property, a: Action)
    ensures ApplyPropertyFields(p, Updates(a)) == Moderated(p, a)
  {
    var u := Updates(a);
    assert u[..|u| - 1][..0] == [];
    if |u| == 2 {
      assert u[..1][..0] == [];
    }
  }

  /** The status strings, shared by listings and cars. */
  const StatusValues: set<string> := {"pending", "approved", "rejected", "sold"}

  /** `{status.value: count for status, count in counts.items()}` over a count for every listing status. */
  function PropertyCountsByValue(counts: map<PropertyStatus, nat>): (r: map<string, nat>)
    requires forall s :: s in counts
    ensures r.Keys == StatusValues
    ensures forall s: PropertyStatus :: r[s.Value()] == counts[s]
  {
    map["pending" := counts[Pending], "approved" := counts[Approved], "rejected" := counts[Rejected], "sold" := counts[Sold]]
  }

  /** The same comprehension over the car counts. */
  function CarCountsByValue(counts: map<CarStatus, nat>): (r: map<string, nat>)
    requires forall s :: s in counts
    ensures r.Keys == StatusValues
    ensures forall s: CarStatus :: r[s.Value()] == counts[s]
  {
    map["pending" := counts[CarPending], "approved" := counts[CarApproved], "rejected" := counts[CarRejected], "sold" := counts[CarSold]]
  }

  class PropertyUseCases {
    const repo: RealEstateRepository

    constructor (repo: RealEstateRepository)
      ensures this.repo == repo
    {
      this.repo := repo;
    }

    /** `submit_property`: saved as pending under the fresh id `pid`. */
    method SubmitProperty(data: PropertyCreate, pid: string) returns (p: Property)
      requires repo.Valid() && pid !in repo.properties
      modifies repo
      ensures repo.Valid()
      ensures p.pid == pid && p.status == Pending && p.rejectionReason.None?
      ensures p.data == data.(location := StoredLocation(data.location))
      ensures repo.properties == old(repo.properties)[pid := p]
      ensures repo.users == old(repo.users) && repo.cars == old(repo.cars)
    {
      p := repo.CreateProperty(data, pid);
    }

    /** `get_pending_properties`: the moderation queue. */
    method GetPendingProperties() returns (r: seq<Property>)
      requires repo.Valid()
      ensures repo.Lists(r, WithStatus(Pending))
    {
      r := repo.GetPropertiesByStatus(Pending);
    }

    /**
     * The shared shape of `approve_property`, `reject_property` and
     * `mark_property_as_sold`: look the listing up, refuse unless it is in the
     * status the action requires, otherwise write the action's entries and return
     * the listing as read back.
     */
    method Perform(pid: string, a: Action) returns (r: Result<Property, AppError>)
      requires repo.Valid()
      modifies repo
      ensures repo.Valid()
      ensures pid !in old(repo.properties) ==> r == Err(PropertyNotFound(pid)) && repo.properties == old(repo.properties)
      ensures pid in old(repo.properties) ==> r == Moderate(old(repo.properties)[pid], a)
      ensures r.Ok? ==> repo.properties == old(repo.properties)[pid := r.value]
      ensures r.Err? ==> repo.properties == old(repo.properties)
      ensures repo.users == old(repo.users) && repo.cars == old(repo.cars)
    {
      var found := repo.GetPropertyById(pid);
      if found.Err? {
        return Err(found.error);
      }
      var p := found.value;
      if p.status != Required(a) {
        return Err(Refusal(p, a));
      }
      r := repo.UpdateProperty(pid, Updates(a));
      UpdatesModerate(p, a);
    }

    /** `approve_property`: only a pending listing; the rejection reason is cleared. */
    method ApproveProperty(pid: string) returns (r: Result<Property, AppError>)
      requires repo.Valid()
      modifies repo
      ensures repo.Valid()
      ensures pid !in old(repo.properties) ==> r == Err(PropertyNotFound(pid)) && repo.properties == old(repo.properties)
      ensures pid in old(repo.properties) && old(repo.properties)[pid].status != Pending ==>
        r == Err(InvalidOperation("Cannot approve property. Current status is '" + old(repo.properties)[pid].status.Value() + "'."))
        && repo.properties == old(repo.properties)
      ensures pid in old(repo.properties) && old(repo.properties)[pid].status == Pending ==>
        r == Ok(old(repo.properties)[pid].(status := Approved, rejectionReason := None))
        && repo.properties == old(repo.properties)[pid := r.value]
      ensures repo.users == old(repo.users) && repo.cars == old(repo.cars)
    {
      r := Perform(pid, Approve);
    }

    /** `reject_property`: only a pending listing; the reason is recorded. */
    method RejectProperty(pid: string, reason: string) returns (r: Result<Property, AppError>)
      requires repo.Valid()
      modifies repo
      ensures repo.Valid()
      ensures pid !in old(repo.properties) ==> r == Err(PropertyNotFound(pid)) && repo.properties == old(repo.properties)
      ensures pid in old(repo.properties) && old(repo.properties)[pid].status != Pending ==>
        r == Err(InvalidOperation("Cannot reject property. Current status is '" + old(repo.properties)[pid].status.Value() + "'."))
        && repo.properties == old(repo.properties)
      ensures pid in old(repo.properties) && old(repo.properties)[pid].status == Pending ==>
        r == Ok(old(repo.properties)[pid].(status := Rejected, rejectionReason := Some(reason)))
        && repo.properties == old(repo.properties)[pid := r.value]
      ensures repo.users == old(repo.users) && repo.cars == old(repo.cars)
    {
      r := Perform(pid, Reject(reason));
    }

    /** `mark_property_as_sold`: only an approved listing; the rejection reason is left as it is. */
    method MarkPropertyAsSold(pid: string) returns (r: Result<Property, AppError>)
      requires repo.Valid()
      modifies repo
      ensures repo.Valid()
      ensures pid !in old(repo.properties) ==> r == Err(PropertyNotFound(pid)) && repo.properties == old(repo.properties)
      ensures pid in old(repo.properties) && old(repo.properties)[pid].status != Approved ==>
        r == Err(InvalidOperation("Cannot mark as sold. Property must be in 'approved' status."))
        && repo.properties == old(repo.properties)
      ensures pid in old(repo.properties) && old(repo.properties)[pid].status == Approved ==>
        r == Ok(old(repo.properties)[pid].(status := Sold))
        && repo.properties == old(repo.properties)[pid := r.value]
      ensures repo.users == old(repo.users) && repo.cars == old(repo.cars)
    {
      r := Perform(pid, MarkSold);
    }

    /** `delete_property`: in any status. */
    method DeleteProperty(pid: string)
      requires repo.Valid()
      modifies repo
      ensures repo.Valid()
      ensures repo.properties == old(repo.properties) - {pid}
      ensures repo.users == old(repo.users) && repo.cars == old(repo.cars)
    {
      repo.DeleteProperty(pid);
    }

    /** `find_properties`. */
    method FindProperties(f: PropertyFilter) returns (r: seq<Property>)
      requires repo.Valid()
      ensures repo.Lists(r, Queried(f))
    {
      r := repo.QueryProperties(f);
    }

    /** `get_properties_by_broker`. */
    method GetPropertiesByBroker(brokerId: string) returns (r: seq<Property>)
      requires repo.Valid()
      ensures repo.Lists(r, ByBroker(brokerId))
    {
      r := repo.GetPropertiesByBrokerId(brokerId);
    }

    /** `get_property_details`. */
    method GetPropertyDetails(pid: string) returns (r: Result<Property, AppError>)
      requires repo.Valid()
      ensures r.Ok? <==> pid in repo.properties
      ensures r.Ok? ==> r.value == repo.properties[pid]
      ensures r.Err? ==> r.error == PropertyNotFound(pid)
    {
      r := repo.GetPropertyById(pid);
    }

    /**
     * `get_analytics_summary`: the listing and car counts keyed by status string,
     * one entry per status.
     */
    method GetAnalyticsSummary() returns (properties: map<string, nat>, cars: map<string, nat>)
      requires repo.Valid()
      ensures properties.Keys == StatusValues
      ensures forall s: PropertyStatus :: properties[s.Value()] == |repo.WithStatusIds(s)|
      ensures cars.Keys == StatusValues
      ensures forall s: CarStatus :: cars[s.Value()] == |repo.CarStatusIds(s)|
    {
      var propCounts := repo.CountPropertiesByStatus();
      var carCounts := repo.CountCarsByStatus();
      properties := PropertyCountsByValue(propCounts);
      cars := CarCountsByValue(carCounts);
    }

    /**
     * `get_all_properties` as written: a search with the empty filter, whose
     * missing status falls back to approved, so only approved listings come back.
     */
    method GetAllProperties() returns (r: seq<Property>)
      requires repo.Valid()
      ensures repo.Lists(r, WithStatus(Approved))
    {
      r := repo.QueryProperties(PropertyFilter());
      EmptyFilterIsApproved();
      repo.ListsSame(r, Queried(PropertyFilter()), WithStatus(Approved));
    }

    /** Every listing whatever its status or broker, which is what `get_all_properties` promises. */
    method ListAllProperties() returns (r: seq<Property>)
      requires repo.Valid()
      ensures repo.Lists(r, AllListings)
      ensures Ids(r) == repo.properties.Keys
    {
      r := repo.SelectProperties(AllListings);
    }

    /** `submit_car`: the status check always sees a status, so the car is stored as the repository stores it, pending. */
    method SubmitCar(data: CarCreate, cid: string) returns (c: Car)
      requires repo.Valid() && cid !in repo.cars
      modifies repo
      ensures repo.Valid()
      ensures c == Car(cid, data.(status := CarPending))
      ensures repo.cars == old(repo.cars)[cid := c]
      ensures repo.users == old(repo.users) && repo.properties == old(repo.properties)
    {
      c := repo.CreateCar(data, cid);
    }

    /** `find_cars`. */
    method FindCars(f: CarFilter) returns (r: seq<Car>)
      requires repo.Valid()
      ensures repo.CarLists(r, CarsMatching(f))
    {
      r := repo.QueryCars(f);
    }

    /** `get_car_details`. */
    method GetCarDetails(cid: string) returns (r: Result<Car, AppError>)
      requires repo.Valid()
      ensures r.Ok? <==> cid in repo.cars
      ensures r.Ok? ==> r.value == repo.cars[cid]
      ensures r.Err? ==> r.error == PropertyNotFound(cid)
    {
      r := repo.GetCarById(cid);
    }

    /** `get_cars_by_broker`. */
    method GetCarsByBroker(brokerId: string) returns (r: seq<Car>)
      requires repo.Valid()
      ensures repo.CarLists(r, CarsByBroker(brokerId))
    {
      r := repo.GetCarsByBrokerId(brokerId);
    }
  }

  /** The empty filter selects the approved listings and nothing else. */
  lemma EmptyFilterIsApproved()
    ensures forall p :: Selects(Queried(PropertyFilter()), p) <==> Selects(WithStatus(Approved), p)
  {
  }

  /** The search `get_all_properties` runs misses every listing that is not approved. */
  lemma GetAllPropertiesMissesPending(p: Property)
    requires p.status == Pending
    ensures !Selects(Queried(PropertyFilter()), p)
    ensures Selects(AllListings, p)
  {
  }
}

=== FILE: repo_queries.dfy ===
/**
 * The list-building parts of the MySQL repository
 * (src/infrastructure/repository/mysql_repo.py): the WHERE conditions of the
 * property and car searches with their parameters, the floor-level post-filter,
 * the SET clauses of a user update, and the comma-joined columns that
 * `GROUP_CONCAT` produces and the repository splits again. The SQL engine is
 * represented by what each condition means for a stored row (`Holds`).
 */
module RepoQueries {
  import opened Wrappers
  import opened Text
  import opened Exceptions
  import opened CommonModels
  import opened PropertyModels
  import opened CarModels
  import opened UserModels

  // Python truthiness of the optional values a filter carries: None, 0, 0.0 and "" are false.
  predicate TruthyInt(o: Option<int>) { o.Some? && o.value != 0 }
  predicate TruthyReal(o: Option<real>) { o.Some? && o.value != 0.0 }
  predicate TruthyText(o: Option<string>) { o.Some? && o.value != "" }

  /** A value bound to a `%s` placeholder. */
  datatype Param = PText(text: string) | PInt(n: int) | PReal(x: real) | PBool(b: bool)

  // ---------------------------------------------------------------------------
  // query_properties
  // ---------------------------------------------------------------------------

  /** The conditions `query_properties` can put in its WHERE clause, in the order it adds them. */
  datatype Cond =
    | StatusIs | TypeIs | MinBedrooms | MaxBedrooms | RegionIs | SiteIs | MinPrice | MaxPrice
    | IsCommercial | HasElevator | HasPrivateRooftop | IsTwoStoryPenthouse | HasPrivateEntrance
  {
    /** The SQL text of the condition. */
    function Sql(): string {
      match this
      case StatusIs => "p.status = %s"
      case TypeIs => "p.property_type = %s"
      case MinBedrooms => "p.bedrooms >= %s"
      case MaxBedrooms => "p.bedrooms <= %s"
      case RegionIs => "p.location_region = %s"
      case SiteIs => "p.location_site = %s"
      case MinPrice => "p.price_etb >= %s"
      case MaxPrice => "p.price_etb <= %s"
      case IsCommercial => "p.is_commercial = %s"
      case HasElevator => "p.has_elevator = %s"
      case HasPrivateRooftop => "p.has_private_rooftop = %s"
      case IsTwoStoryPenthouse => "p.is_two_story_penthouse = %s"
      case HasPrivateEntrance => "p.has_private_entrance = %s"
    }
  }

  /** A NULL column equals nothing, so a feature the listing leaves unknown fails the test. */
  predicate FlagHolds(column: Option<bool>, v: Param)
  {
    column.Some? && v == PBool(column.value)
  }

  /** Distinct statuses and distinct types are stored as distinct strings. */
  lemma ValuesInjective()
    ensures forall a: PropertyStatus, b: PropertyStatus :: a.Value() == b.Value() ==> a == b
    ensures forall a: PropertyType, b: PropertyType :: a.Value() == b.Value() ==> a == b
  {
    forall a: PropertyStatus, b: PropertyStatus | a.Value() == b.Value() ensures a == b {
      assert ParsePropertyStatus(a.Value()) == Some(b);
    }
    forall a: PropertyType, b: PropertyType | a.Value() == b.Value() ensures a == b {
      assert ParsePropertyType(a.Value()) == Some(b);
    }
  }

  /** What one condition, with the parameter bound to it, says about a stored listing. */
  predicate Holds(p: Property, c: Cond, v: Param)
  {
    match c
    case StatusIs => v == PText(p.status.Value())
    case TypeIs => v == PText(p.data.propertyType.Value())
    case MinBedrooms => v.PInt? && p.data.bedrooms >= v.n
    case MaxBedrooms => v.PInt? && p.data.bedrooms <= v.n
    case RegionIs => v == PText(p.data.location.region)
    case SiteIs => p.data.location.site.Some? && v == PText(p.data.location.site.value)
    case MinPrice => v.PReal? && p.data.priceEtb >= v.x
    case MaxPrice => v.PReal? && p.data.priceEtb <= v.x
    case IsCommercial => FlagHolds(p.data.features.isCommercial, v)
    case HasElevator => FlagHolds(p.data.features.hasElevator, v)
    case HasPrivateRooftop => FlagHolds(p.data.features.hasPrivateRooftop, v)
    case IsTwoStoryPenthouse => FlagHolds(p.data.features.isTwoStoryPenthouse, v)
    case HasPrivateEntrance => FlagHolds(p.data.features.hasPrivateEntrance, v)
  }

  /** `" AND ".join(where_conditions)` holds of a listing. */
  predicate Where(p: Property, conds: seq<Cond>, params: seq<Param>)
    requires |conds| == |params|
  {
    forall i :: 0 <= i < |conds| ==> Holds(p, conds[i], params[i])
  }

  /** A listing has the wanted feature value, or no value is wanted. */
  predicate FlagMatches(wanted: Option<bool>, column: Option<bool>)
  {
    wanted.None? || column == wanted
  }

  /**
   * The listings a search selects, stated on the filter: the status asked for, or
   * approved when none is; each criterion that is set to a true value; and each
   * feature flag that is set, false included.
   */
  predicate Accepts(f: PropertyFilter, p: Property)
    ensures Accepts(f, p) ==> p.status == f.status.GetOr(Approved)
    ensures IsEmptyFilter(f) ==> (Accepts(f, p) <==> p.status == Approved)
  {
    MatchesValues(f, p) && MatchesFeatures(f, p)
  }

  /** A bound or place set to 0, 0.0 or "" is false to Python and restricts nothing, as if it were unset. */
  lemma FalsyCriteriaIgnored(f: PropertyFilter, p: Property)
    ensures Accepts(f.(minBedrooms := Some(0), maxBedrooms := Some(0), minPrice := Some(0.0), maxPrice := Some(0.0),
                       locationRegion := Some(""), locationSite := Some("")), p)
         == Accepts(f.(minBedrooms := None, maxBedrooms := None, minPrice := None, maxPrice := None,
                       locationRegion := None, locationSite := None), p)
  {
  }

  /** The status, type, bedroom, place and price criteria. */
  predicate MatchesValues(f: PropertyFilter, p: Property)
  {
    p.status == f.status.GetOr(Approved)
    && (f.propertyType.Some? ==> p.data.propertyType == f.propertyType.value)
    && (TruthyInt(f.minBedrooms) ==> p.data.bedrooms >= f.minBedrooms.value)
    && (TruthyInt(f.maxBedrooms) ==> p.data.bedrooms <= f.maxBedrooms.value)
    && (TruthyText(f.locationRegion) ==> p.data.location.region == f.locationRegion.value)
    && (TruthyText(f.locationSite) ==> p.data.location.site == f.locationSite)
    && (TruthyReal(f.minPrice) ==> p.data.priceEtb >= f.minPrice.value)
    && (TruthyReal(f.maxPrice) ==> p.data.priceEtb <= f.maxPrice.value)
  }

  /** The feature-flag criteria. */
  predicate MatchesFeatures(f: PropertyFilter, p: Property)
  {
    FlagMatches(f.filterIsCommercial, p.data.features.isCommercial)
    && FlagMatches(f.filterHasElevator, p.data.features.hasElevator)
    && FlagMatches(f.filterHasPrivateRooftop, p.data.features.hasPrivateRooftop)
    && FlagMatches(f.filterIsTwoStoryPenthouse, p.data.features.isTwoStoryPenthouse)
    && FlagMatches(f.filterHasPrivateEntrance, p.data.features.hasPrivateEntrance)
  }

  /** Every condition, in the order `query_properties` considers them. */
  const AllConds: seq<Cond> :=
    [StatusIs, TypeIs, MinBedrooms, MaxBedrooms, RegionIs, SiteIs, MinPrice, MaxPrice,
     IsCommercial, HasElevator, HasPrivateRooftop, IsTwoStoryPenthouse, HasPrivateEntrance]

  lemma AllCondsComplete(c: Cond)
    ensures c in AllConds
  {
    match c
    case StatusIs => assert AllConds[0] == c;
    case TypeIs => assert AllConds[1] == c;
    case MinBedrooms => assert AllConds[2] == c;
    case MaxBedrooms => assert AllConds[3] == c;
    case RegionIs => assert AllConds[4] == c;
    case SiteIs => assert AllConds[5] == c;
    case MinPrice => assert AllConds[6] == c;
    case MaxPrice => assert AllConds[7] == c;
    case IsCommercial => assert AllConds[8] == c;
    case HasElevator => assert AllConds[9] == c;
    case HasPrivateRooftop => assert AllConds[10] == c;
    case IsTwoStoryPenthouse => assert AllConds[11] == c;
    case HasPrivateEntrance => assert AllConds[12] == c;
  }

  /**
   * Whether `query_properties` adds the condition for this filter: the status test
   * always, value criteria when true in Python's sense, feature flags when not None.
   */
  predicate Wanted(f: PropertyFilter, c: Cond)
  {
    match c
    case StatusIs => true
    case TypeIs => f.propertyType.Some?
    case MinBedrooms => TruthyInt(f.minBedrooms)
    case MaxBedrooms => TruthyInt(f.maxBedrooms)
    case RegionIs => TruthyText(f.locationRegion)
    case SiteIs => TruthyText(f.locationSite)
    case MinPrice => TruthyReal(f.minPrice)
    case MaxPrice => TruthyReal(f.maxPrice)
    case IsCommercial => f.filterIsCommercial.Some?
    case HasElevator => f.filterHasElevator.Some?
    case HasPrivateRooftop => f.filterHasPrivateRooftop.Some?
    case IsTwoStoryPenthouse => f.filterIsTwoStoryPenthouse.Some?
    case HasPrivateEntrance => f.filterHasPrivateEntrance.Some?
  }

  /** The parameter the filter binds to a condition: the status defaults to approved. */
  function ParamFor(f: PropertyFilter, c: Cond): Param
  {
    match c
    case StatusIs => PText(if f.status.Some? then f.status.value.Value() else Approved.Value())
    case TypeIs => PText(if f.propertyType.Some? then f.propertyType.value.Value() else "")
    case MinBedrooms => PInt(f.minBedrooms.GetOr(0))
    case MaxBedrooms => PInt(f.maxBedrooms.GetOr(0))
    case RegionIs => PText(f.locationRegion.GetOr(""))
    case SiteIs => PText(f.locationSite.GetOr(""))
    case MinPrice => PReal(f.minPrice.GetOr(0.0))
    case MaxPrice => PReal(f.maxPrice.GetOr(0.0))
    case IsCommercial => PBool(f.filterIsCommercial.GetOr(false))
    case HasElevator => PBool(f.filterHasElevator.GetOr(false))
    case HasPrivateRooftop => PBool(f.filterHasPrivateRooftop.GetOr(false))
    case IsTwoStoryPenthouse => PBool(f.filterIsTwoStoryPenthouse.GetOr(false))
    case HasPrivateEntrance => PBool(f.filterHasPrivateEntrance.GetOr(false))
  }

  /** Each parameter is the one the filter binds to its condition. */
  predicate Bound(f: PropertyFilter, conds: seq<Cond>, params: seq<Param>)
  {
    |conds| == |params| && forall i :: 0 <= i < |conds| ==> params[i] == ParamFor(f, conds[i])
  }

  function Opt(add: bool, c: Cond): seq<Cond>
  {
    if add then [c] else []
  }

  /** The conditions the filter wants among the first `k`, in order. */
  function Selected(f: PropertyFilter, k: nat): (conds: seq<Cond>)
    requires k <= |AllConds|
  {
    if k == 0 then [] else Selected(f, k - 1) + Opt(Wanted(f, AllConds[k - 1]), AllConds[k - 1])
  }

  lemma {:induction false} SelectedMembers(f: PropertyFilter, k: nat)
    requires k <= |AllConds|
    ensures forall c :: c in Selected(f, k) <==> c in AllConds[..k] && Wanted(f, c)
  {
    if k > 0 {
      SelectedMembers(f, k - 1);
      assert AllConds[..k] == AllConds[..k - 1] + [AllConds[k - 1]];
    }
  }

  lemma {:induction false} SelectedStartsWithStatus(f: PropertyFilter, k: nat)
    requires 1 <= k <= |AllConds|
    ensures |Selected(f, k)| >= 1 && Selected(f, k)[0] == StatusIs
  {
    if k > 1 {
      SelectedStartsWithStatus(f, k - 1);
    }
  }

  /** With every parameter bound by the filter, the clause holds when each listed condition does. */
  lemma WhereBound(f: PropertyFilter, p: Property, conds: seq<Cond>, params: seq<Param>)
    requires Bound(f, conds, params)
    ensures Where(p, conds, params) <==> forall c :: c in conds ==> Holds(p, c, ParamFor(f, c))
  {
    if Where(p, conds, params) {
      forall c | c in conds ensures Holds(p, c, ParamFor(f, c)) {
        var i :| 0 <= i < |conds| && conds[i] == c;
        assert Holds(p, conds[i], params[i]);
      }
    }
  }

  /** An accepted listing meets each wanted condition with the parameter bound to it. */
  lemma AcceptedHolds(f: PropertyFilter, p: Property, c: Cond)
    requires Accepts(f, p) && Wanted(f, c)
    ensures Holds(p, c, ParamFor(f, c))
  {
    match c
    case StatusIs =>
    case TypeIs =>
    case MinBedrooms =>
    case MaxBedrooms =>
    case RegionIs =>
    case SiteIs =>
    case MinPrice =>
    case MaxPrice =>
    case IsCommercial =>
    case HasElevator =>
    case HasPrivateRooftop =>
    case IsTwoStoryPenthouse =>
    case HasPrivateEntrance =>
  }

  /** A listing that meets the wanted value conditions meets the value criteria. */
  lemma HoldsMatchesValues(f: PropertyFilter, p: Property)
    requires forall c :: Wanted(f, c) ==> Holds(p, c, ParamFor(f, c))
    ensures MatchesValues(f, p)
  {
    ValuesInjective();
    assert Holds(p, StatusIs, ParamFor(f, StatusIs));
    assert Wanted(f, TypeIs) ==> Holds(p, TypeIs, ParamFor(f, TypeIs));
    assert Wanted(f, MinBedrooms) ==> Holds(p, MinBedrooms, ParamFor(f, MinBedrooms));
    assert Wanted(f, MaxBedrooms) ==> Holds(p, MaxBedrooms, ParamFor(f, MaxBedrooms));
    assert Wanted(f, RegionIs) ==> Holds(p, RegionIs, ParamFor(f, RegionIs));
    assert Wanted(f, SiteIs) ==> Holds(p, SiteIs, ParamFor(f, SiteIs));
    assert Wanted(f, MinPrice) ==> Holds(p, MinPrice, ParamFor(f, MinPrice));
    assert Wanted(f, MaxPrice) ==> Holds(p, MaxPrice, ParamFor(f, MaxPrice));
  }

  /** A listing that meets the wanted flag conditions meets the feature criteria. */
  lemma HoldsMatchesFeatures(f: PropertyFilter, p: Property)
    requires forall c :: Wanted(f, c) ==> Holds(p, c, ParamFor(f, c))
    ensures MatchesFeatures(f, p)
  {
    assert Wanted(f, IsCommercial) ==> Holds(p, IsCommercial, ParamFor(f, IsCommercial));
    assert Wanted(f, HasElevator) ==> Holds(p, HasElevator, ParamFor(f, HasElevator));
    assert Wanted(f, HasPrivateRooftop) ==> Holds(p, HasPrivateRooftop, ParamFor(f, HasPrivateRooftop));
    assert Wanted(f, IsTwoStoryPenthouse) ==> Holds(p, IsTwoStoryPenthouse, ParamFor(f, IsTwoStoryPenthouse));
    assert Wanted(f, HasPrivateEntrance) ==> Holds(p, HasPrivateEntrance, ParamFor(f, HasPrivateEntrance));
  }

  /** Each wanted condition, with its bound parameter, is the criterion `Accepts` states for it. */
  lemma WantedHoldsIffAccepts(f: PropertyFilter, p: Property)
    ensures (forall c :: Wanted(f, c) ==> Holds(p, c, ParamFor(f, c))) <==> Accepts(f, p)
  {
    if Accepts(f, p) {
      forall c | Wanted(f, c) ensures Holds(p, c, ParamFor(f, c)) {
        AcceptedHolds(f, p, c);
      }
    }
    if forall c :: Wanted(f, c) ==> Holds(p, c, ParamFor(f, c)) {
      HoldsMatchesValues(f, p);
      HoldsMatchesFeatures(f, p);
    }
  }

  /**
   * The clause the filter selects, with the filter's parameters bound, holds of a
   * listing exactly when the filter accepts it; it holds every wanted condition.
   */
  lemma SelectedMeansAccepts(f: PropertyFilter, conds: seq<Cond>, params: seq<Param>)
    requires conds == Selected(f, |AllConds|) && Bound(f, conds, params)
    ensures forall c :: c in conds <==> Wanted(f, c)
    ensures forall p :: Where(p, conds, params) <==> Accepts(f, p)
  {
    SelectedMembers(f, |AllConds|);
    assert AllConds[..|AllConds|] == AllConds;
    forall c ensures c in conds <==> Wanted(f, c) {
      AllCondsComplete(c);
    }
    forall p ensures Where(p, conds, params) <==> Accepts(f, p) {
      WhereBound(f, p, conds, params);
      WantedHoldsIffAccepts(f, p);
    }
  }

  /**
   * One `if …: where_conditions.append(…); params.append(…)` step, for the `k`-th
   * condition: it and the parameter the filter binds to it are appended together,
   * and only when the filter wants it.
   */
  method AppendIf(f: PropertyFilter, k: nat, conds: seq<Cond>, params: seq<Param>)
    returns (conds': seq<Cond>, params': seq<Param>)
    requires k < |AllConds| && conds == Selected(f, k) && Bound(f, conds, params)
    ensures conds' == Selected(f, k + 1) && Bound(f, conds', params')
  {
    var c := AllConds[k];
    if Wanted(f, c) {
      conds', params' := conds + [c], params + [ParamFor(f, c)];
    } else {
      conds', params' := conds, params;
    }
  }

  /**
   * The WHERE clause of `query_properties`, grown one condition and one parameter
   * at a time. It starts with the status test; value criteria are added only when
   * true in Python's sense, feature flags whenever they are not None; and it
   * selects exactly the listings `Accepts` describes.
   */
  method PropertyConditions(f: PropertyFilter) returns (conds: seq<Cond>, params: seq<Param>)
    ensures conds == Selected(f, |AllConds|) && Bound(f, conds, params)
    ensures |conds| >= 1 && conds[0] == StatusIs && params[0] == PText(f.status.GetOr(Approved).Value())
    ensures forall c :: c in conds <==> Wanted(f, c)
    ensures forall p :: Where(p, conds, params) <==> Accepts(f, p)
  {
    conds, params := [StatusIs], [ParamFor(f, StatusIs)];
    assert conds == Selected(f, 1);
    conds, params := AppendIf(f, 1, conds, params);  // TypeIs
    conds, params := AppendIf(f, 2, conds, params);  // MinBedrooms
    conds, params := AppendIf(f, 3, conds, params);  // MaxBedrooms
    conds, params := AppendIf(f, 4, conds, params);  // RegionIs
    conds, params := AppendIf(f, 5, conds, params);  // SiteIs
    conds, params := AppendIf(f, 6, conds, params);  // MinPrice
    conds, params := AppendIf(f, 7, conds, params);  // MaxPrice
    conds, params := AppendIf(f, 8, conds, params);  // IsCommercial
    conds, params := AppendIf(f, 9, conds, params);  // HasElevator
    conds, params := AppendIf(f, 10, conds, params);  // HasPrivateRooftop
    conds, params := AppendIf(f, 11, conds, params);  // IsTwoStoryPenthouse
    conds, params := AppendIf(f, 12, conds, params);  // HasPrivateEntrance
    SelectedStartsWithStatus(f, |AllConds|);
    SelectedMeansAccepts(f, conds, params);
  }

  // ---------------------------------------------------------------------------
  // Floor-level post-filter
  // ---------------------------------------------------------------------------

  /** A listing passes the floor test: its floor level is known and at least `minFloor`. */
  predicate FloorAtLeast(p: Property, minFloor: int)
  {
    p.data.floorLevel.Some? && p.data.floorLevel.value >= minFloor
  }

  /** The comprehension over the fetched listings, in their order. */
  function KeepFloor(props: seq<Property>, minFloor: int): (r: seq<Property>)
    ensures |r| <= |props|
    ensures forall p :: p in r <==> p in props && FloorAtLeast(p, minFloor)
  {
    if props == [] then []
    else (if FloorAtLeast(props[0], minFloor) then [props[0]] else []) + KeepFloor(props[1..], minFloor)
  }

  /** The post-filter runs only when a minimum floor level is given. */
  function FloorFilter(props: seq<Property>, minFloor: Option<int>): (r: seq<Property>)
    ensures minFloor.None? ==> r == props
    ensures minFloor.Some? ==> forall p :: p in r <==> p in props && FloorAtLeast(p, minFloor.value)
  {
    if minFloor.None? then props else KeepFloor(props, minFloor.value)
  }

  /** The filter keeps the original order: it distributes over concatenation. */
  lemma {:induction false} KeepFloorAppend(a: seq<Property>, b: seq<Property>, minFloor: int)
    ensures KeepFloor(a + b, minFloor) == KeepFloor(a, minFloor) + KeepFloor(b, minFloor)
  {
    if a != [] {
      assert (a + b)[0] == a[0];
      assert (a + b)[1..] == a[1..] + b;
      KeepFloorAppend(a[1..], b, minFloor);
    } else {
      assert a + b == b;
    }
  }

  /** No two listings in the list share an id. */
  predicate DistinctPids(r: seq<Property>)
  {
    forall i, j :: 0 <= i < j < |r| ==> r[i].pid != r[j].pid
  }

  /** The filter drops rows and never repeats one, so distinct listing ids stay distinct. */
  lemma {:induction false} KeepFloorDistinct(props: seq<Property>, minFloor: int)
    requires DistinctPids(props)
    ensures DistinctPids(KeepFloor(props, minFloor))
  {
    if props != [] {
      var rest := props[1..];
      assert DistinctPids(rest) by {
        forall i, j | 0 <= i < j < |rest| ensures rest[i].pid != rest[j].pid {
          assert rest[i] == props[i + 1] && rest[j] == props[j + 1];
        }
      }
      KeepFloorDistinct(rest, minFloor);
      var tail := KeepFloor(rest, minFloor);
      var r := KeepFloor(props, minFloor);
      if FloorAtLeast(props[0], minFloor) {
        assert r == [props[0]] + tail;
        forall i, j | 0 <= i < j < |r| ensures r[i].pid != r[j].pid {
          assert r[j] == tail[j - 1];
          if i > 0 {
            assert r[i] == tail[i - 1];
          } else {
            assert tail[j - 1] in rest;
            var k :| 0 <= k < |rest| && rest[k] == tail[j - 1];
            assert rest[k] == props[k + 1];
          }
        }
      } else {
        assert r == tail;
      }
    }
  }

  /** Filtering twice by the same floor is filtering once. */
  lemma {:induction false} KeepFloorIdempotent(props: seq<Property>, minFloor: int)
    ensures KeepFloor(KeepFloor(props, minFloor), minFloor) == KeepFloor(props, minFloor)
  {
    if props != [] {
      var head := if FloorAtLeast(props[0], minFloor) then [props[0]] else [];
      KeepFloorAppend(head, KeepFloor(props[1..], minFloor), minFloor);
      KeepFloorIdempotent(props[1..], minFloor);
      if head != [] {
        assert head[1..] == [];
      }
    }
  }

  // ---------------------------------------------------------------------------
  // query_cars
  // ---------------------------------------------------------------------------

  /** The conditions `query_cars` can put in its WHERE clause. */
  datatype CarCond = CarStatusIs | CarTypeIs | CarMinPrice | CarMaxPrice
  {
    function Sql(): string {
      match this
      case CarStatusIs => "c.status = %s"
      case CarTypeIs => "c.car_type = %s"
      case CarMinPrice => "c.price_etb >= %s"
      case CarMaxPrice => "c.price_etb <= %s"
    }
  }

  predicate CarHolds(c: Car, k: CarCond, v: Param)
  {
    match k
    case CarStatusIs => v == PText(c.data.status.Value())
    case CarTypeIs => v == PText(c.data.carType.Value())
    case CarMinPrice => v.PReal? && c.data.priceEtb >= v.x
    case CarMaxPrice => v.PReal? && c.data.priceEtb <= v.x
  }

  predicate CarWhere(c: Car, conds: seq<CarCond>, params: seq<Param>)
    requires |conds| == |params|
  {
    forall i :: 0 <= i < |conds| ==> CarHolds(c, conds[i], params[i])
  }

  lemma CarWhereSnoc(conds: seq<CarCond>, params: seq<Param>, k: CarCond, v: Param)
    requires |conds| == |params|
    ensures forall c :: CarWhere(c, conds + [k], params + [v]) <==> CarWhere(c, conds, params) && CarHolds(c, k, v)
  {
    forall c ensures CarWhere(c, conds + [k], params + [v]) <==> CarWhere(c, conds, params) && CarHolds(c, k, v) {
      if CarWhere(c, conds + [k], params + [v]) {
        forall i | 0 <= i < |conds| ensures CarHolds(c, conds[i], params[i]) {
          assert CarHolds(c, (conds + [k])[i], (params + [v])[i]);
        }
        assert CarHolds(c, (conds + [k])[|conds|], (params + [v])[|conds|]);
      }
    }
  }

  /** The cars a search selects: approved ones only, of the type and within the price bounds that are set. */
  predicate CarAccepts(f: CarFilter, c: Car)
  {
    c.data.status == CarApproved
    && (f.carType.Some? ==> c.data.carType == f.carType.value)
    && (TruthyReal(f.minPrice) ==> c.data.priceEtb >= f.minPrice.value)
    && (TruthyReal(f.maxPrice) ==> c.data.priceEtb <= f.maxPrice.value)
  }

  /** The WHERE clause of `query_cars`: approved status first, then type and price when true. */
  method CarConditions(f: CarFilter) returns (conds: seq<CarCond>, params: seq<Param>)
    ensures |conds| == |params| >= 1
    ensures conds[0] == CarStatusIs && params[0] == PText(CarApproved.Value())
    ensures CarTypeIs in conds <==> f.carType.Some?
    ensures CarMinPrice in conds <==> TruthyReal(f.minPrice)
    ensures CarMaxPrice in conds <==> TruthyReal(f.maxPrice)
    ensures forall c :: CarWhere(c, conds, params) <==> CarAccepts(f, c)
  {
    conds, params := [CarStatusIs], [PText(CarApproved.Value())];
    if f.carType.Some? {
      CarWhereSnoc(conds, params, CarTypeIs, PText(f.carType.value.Value()));
      conds, params := conds + [CarTypeIs], params + [PText(f.carType.value.Value())];
    }
    if TruthyReal(f.minPrice) {
      CarWhereSnoc(conds, params, CarMinPrice, PReal(f.minPrice.value));
      conds, params := conds + [CarMinPrice], params + [PReal(f.minPrice.value)];
    }
    if TruthyReal(f.maxPrice) {
      CarWhereSnoc(conds, params, CarMaxPrice, PReal(f.maxPrice.value));
      conds, params := conds + [CarMaxPrice], params + [PReal(f.maxPrice.value)];
    }
  }

  // ---------------------------------------------------------------------------
  // Comma-joined columns
  // ---------------------------------------------------------------------------

  /** The role strings of a user's role rows. */
  function RoleValues(roles: seq<UserRole>): (vals: seq<string>)
    ensures |vals| == |roles|
    ensures forall i :: 0 <= i < |roles| ==> vals[i] == roles[i].Value()
  {
    if roles == [] then [] else [roles[0].Value()] + RoleValues(roles[1..])
  }

  /** `GROUP_CONCAT(ur.role)`: NULL for a user without role rows, else the values joined by ','. */
  function RolesColumn(roles: seq<UserRole>): Option<string>
  {
    if roles == [] then None else Some(Join(RoleValues(roles), ","))
  }

  /** `[UserRole(role) for role in roles if role]`: None when a piece is not a role, which raises. */
  function ParseRoleList(parts: seq<string>): (r: Option<seq<UserRole>>)
    ensures r.Some? ==> |r.value| <= |parts|
  {
    if parts == [] then Some([])
    else if parts[0] == "" then ParseRoleList(parts[1..])
    else match ParseUserRole(parts[0])
      case None => None
      case Some(role) =>
        match ParseRoleList(parts[1..])
        case None => None
        case Some(rest) => Some([role] + rest)
  }

  /**
   * The roles a user row reads back as: none for a NULL or empty column, otherwise
   * the ','-separated pieces with empty ones dropped; None when a piece is not a
   * role name.
   */
  function ParseRoles(column: Option<string>): (r: Option<seq<UserRole>>)
    ensures column.None? || column == Some("") ==> r == Some([])
  {
    if column.None? || column.value == "" then Some([]) else ParseRoleList(Split(column.value, ','))
  }

  lemma {:induction false} ParseRoleValues(roles: seq<UserRole>)
    ensures ParseRoleList(RoleValues(roles)) == Some(roles)
  {
    if roles != [] {
      var vals := RoleValues(roles);
      RoleValueHasNoComma(roles[0]);
      assert vals[1..] == RoleValues(roles[1..]);
      ParseRoleValues(roles[1..]);
      assert [roles[0]] + roles[1..] == roles;
    }
  }

  /** A non-empty join starts with its first part. */
  lemma JoinStartsWithFirst(parts: seq<string>, sep: string)
    requires |parts| >= 1
    ensures |Join(parts, sep)| >= |parts[0]|
  {
  }

  /** The roles written as rows read back as the same roles. */
  lemma RolesRoundTrip(roles: seq<UserRole>)
    ensures ParseRoles(RolesColumn(roles)) == Some(roles)
  {
    if roles != [] {
      var vals := RoleValues(roles);
      forall i | 0 <= i < |vals| ensures ',' !in vals[i] {
        RoleValueHasNoComma(roles[i]);
      }
      RoleValueHasNoComma(roles[0]);
      JoinStartsWithFirst(vals, ",");
      SplitJoin(vals, ',');
      ParseRoleValues(roles);
    }
  }

  /** A stray empty piece in the column is skipped. */
  lemma ParseRolesSkipsEmpty(roles: seq<UserRole>)
    ensures ParseRoleList([""] + RoleValues(roles)) == Some(roles)
  {
    assert ([""] + RoleValues(roles))[1..] == RoleValues(roles);
    ParseRoleValues(roles);
  }

  /** `GROUP_CONCAT(pi.image_url ORDER BY pi.image_order)`: NULL without images, else the URLs joined by ','. */
  function ImagesColumn(urls: seq<string>): Option<string>
  {
    if urls == [] then None else Some(Join(urls, ","))
  }

  /** `result['image_urls'].split(',') if result.get('image_urls') else []`. */
  function ParseImages(column: Option<string>): (urls: seq<string>)
    ensures column.Some? && column.value != "" ==> |urls| >= 1
  {
    if column.None? || column.value == "" then [] else Split(column.value, ',')
  }

  /** A join is empty only for no parts or a single empty part. */
  lemma JoinEmpty(parts: seq<string>, sep: char)
    requires |parts| >= 1 && Join(parts, [sep]) == ""
    ensures parts == [""]
  {
  }

  /**
   * Listing queries give the images back in their stored order when no URL holds a
   * comma and the list is not one empty URL; a comma inside a URL would split it.
   */
  lemma ImagesRoundTrip(urls: seq<string>)
    requires forall i :: 0 <= i < |urls| ==> ',' !in urls[i]
    requires urls != [""]
    ensures ParseImages(ImagesColumn(urls)) == urls
  {
    if urls != [] {
      if Join(urls, ",") == "" {
        JoinEmpty(urls, ',');
      }
      SplitJoin(urls, ',');
    }
  }

  /** A listing as the list queries build it: images split back out of the joined column. */
  function AsListed(p: Property): (r: Property)
    ensures r.pid == p.pid && r.status == p.status && r.rejectionReason == p.rejectionReason
  {
    p.(data := p.data.(imageUrls := ParseImages(ImagesColumn(p.data.imageUrls))))
  }

  /** With comma-free URLs a listed property is the stored one. */
  lemma AsListedUnchanged(p: Property)
    requires forall i :: 0 <= i < |p.data.imageUrls| ==> ',' !in p.data.imageUrls[i]
    requires p.data.imageUrls != [""]
    ensures AsListed(p) == p
  {
    ImagesRoundTrip(p.data.imageUrls);
  }

  /** A car as the list queries build it. */
  function CarAsListed(c: Car): (r: Car)
    ensures r.cid == c.cid && r.data.status == c.data.status
  {
    c.(data := c.data.(images := ParseImages(ImagesColumn(c.data.images))))
  }

  // ---------------------------------------------------------------------------
  // update_user
  // ---------------------------------------------------------------------------

  /** One entry of the `updates` dict of `update_user`: the column and its new value. */
  datatype UserField =
    | TelegramIdField(telegramId: int)
    | DisplayNameField(displayName: Option<string>)
    | PhoneNumberField(phoneNumber: string)
    | LanguageField(language: string)
    | HashedPasswordField(hashedPassword: Option<string>)
    | ActiveField(active: bool)
    | RolesField(roles: seq<UserRole>)
  {
    function Key(): string {
      match this
      case TelegramIdField(_) => "telegram_id"
      case DisplayNameField(_) => "display_name"
      case PhoneNumberField(_) => "phone_number"
      case LanguageField(_) => "language"
      case HashedPasswordField(_) => "hashed_password"
      case ActiveField(_) => "active"
      case RolesField(_) => "roles"
    }
  }

  /** The entries that become SET clauses: every one but `roles`, in dict order. */
  function ColumnUpdates(updates: seq<UserField>): (cols: seq<UserField>)
    ensures |cols| <= |updates|
  {
    if updates == [] then []
    else (if updates[0].RolesField? then [] else [updates[0]]) + ColumnUpdates(updates[1..])
  }

  /** The SET clauses cover every entry but `roles`, and only those. */
  lemma {:induction false} ColumnUpdatesMembers(updates: seq<UserField>)
    ensures forall x :: x in ColumnUpdates(updates) <==> x in updates && !x.RolesField?
  {
    if updates != [] {
      ColumnUpdatesMembers(updates[1..]);
      assert updates == [updates[0]] + updates[1..];
    }
  }

  /** No SET clause, and so no UPDATE statement, exactly when every entry is `roles`. */
  lemma {:induction false} NoUpdateForRolesOnly(updates: seq<UserField>)
    ensures ColumnUpdates(updates) == [] <==> forall i :: 0 <= i < |updates| ==> updates[i].RolesField?
  {
    if updates != [] {
      NoUpdateForRolesOnly(updates[1..]);
      assert forall i :: 1 <= i < |updates| ==> updates[i] == updates[1..][i - 1];
    }
  }

  /** The SET clause for one entry, its key naming the column. */
  function SetClause(x: UserField): string
  {
    x.Key() + " = %s"
  }

  lemma {:induction false} ColumnUpdatesAppend(a: seq<UserField>, b: seq<UserField>)
    ensures ColumnUpdates(a + b) == ColumnUpdates(a) + ColumnUpdates(b)
  {
    if a == [] {
      assert a + b == b;
    } else {
      assert (a + b)[1..] == a[1..] + b;
      ColumnUpdatesAppend(a[1..], b);
    }
  }

  /**
   * The loop of `update_user` that turns the dict into SET clauses and their
   * parameters: one clause per entry except `roles`, in dict order.
   */
  method SetClauses(updates: seq<UserField>) returns (clauses: seq<string>, params: seq<UserField>)
    ensures params == ColumnUpdates(updates)
    ensures |clauses| == |params|
    ensures forall i :: 0 <= i < |clauses| ==> clauses[i] == SetClause(params[i])
  {
    clauses, params := [], [];
    for k := 0 to |updates|
      invariant params == ColumnUpdates(updates[..k])
      invariant |clauses| == |params|
      invariant forall i :: 0 <= i < |clauses| ==> clauses[i] == SetClause(params[i])
    {
      assert updates[..k + 1] == updates[..k] + [updates[k]];
      ColumnUpdatesAppend(updates[..k], [updates[k]]);
      if !updates[k].RolesField? {
        clauses, params := clauses + [SetClause(updates[k])], params + [updates[k]];
      }
    }
    assert updates[..|updates|] == updates;
  }

  /** The effect of one SET clause on the stored user; `active` is a column the record does not carry. */
  function ApplyColumn(u: User, x: UserField): (r: User)
    ensures r.uid == u.uid && r.roles == u.roles
  {
    match x
    case TelegramIdField(t) => u.(telegramId := t)
    case DisplayNameField(n) => u.(displayName := n)
    case PhoneNumberField(p) => u.(phoneNumber := p)
    case LanguageField(l) => u.(language := l)
    case HashedPasswordField(h) => u.(hashedPassword := h)
    case ActiveField(_) => u
    case RolesField(_) => u
  }

  /** The UPDATE statement: the SET clauses applied in order. */
  function ApplyColumns(u: User, cols: seq<UserField>): (r: User)
    ensures r.uid == u.uid && r.roles == u.roles
    decreases |cols|
  {
    if cols == [] then u else ApplyColumns(ApplyColumn(u, cols[0]), cols[1..])
  }

  /** The `roles` entry of the dict, if there is one. */
  function RolesEntry(updates: seq<UserField>): (r: Option<seq<UserRole>>)
    ensures r.Some? <==> exists i :: 0 <= i < |updates| && updates[i].RolesField?
    ensures r.Some? ==> RolesField(r.value) in updates
  {
    if updates == [] then None
    else if updates[0].RolesField? then Some(updates[0].roles)
    else
      var rest := RolesEntry(updates[1..]);
      assert forall i :: 1 <= i < |updates| ==> updates[i] == updates[1..][i - 1];
      rest
  }

  /**
   * The stored user after `update_user`: the columns set in dict order, then the
   * role rows replaced wholesale by the `roles` entry when there is one.
   */
  function ApplyUpdates(u: User, updates: seq<UserField>): (r: User)
    ensures r.uid == u.uid
    ensures RolesEntry(updates).Some? ==> r.roles == RolesEntry(updates).value
    ensures RolesEntry(updates).None? ==> r.roles == u.roles
  {
    var v := ApplyColumns(u, ColumnUpdates(updates));
    match RolesEntry(updates)
    case Some(roles) => v.(roles := roles)
    case None => v
  }

  /** A roles-only update touches the roles and nothing else. */
  lemma RolesOnlyUpdate(u: User, roles: seq<UserRole>)
    ensures ApplyUpdates(u, [RolesField(roles)]) == u.(roles := roles)
  {
    assert ColumnUpdates([RolesField(roles)]) == [];
  }

  /** An update of one column other than `roles` is that column's SET clause alone. */
  lemma SingleColumnUpdate(u: User, x: UserField)
    requires !x.RolesField?
    ensures ApplyUpdates(u, [x]) == ApplyColumn(u, x)
  {
    assert ColumnUpdates([x]) == [x];
    assert ApplyColumns(u, [x]) == ApplyColumns(ApplyColumn(u, x), []);
  }

  /** Setting the Telegram id and name changes those two columns and keeps the rest. */
  lemma ClaimUpdate(u: User, telegramId: int, name: Option<string>)
    ensures ApplyUpdates(u, [TelegramIdField(telegramId), DisplayNameField(name)])
         == u.(telegramId := telegramId, displayName := name)
  {
    var ups := [TelegramIdField(telegramId), DisplayNameField(name)];
    assert ups[1..] == [DisplayNameField(name)];
    assert ups[1..][1..] == [];
    assert ColumnUpdates(ups) == ups;
    assert RolesEntry(ups) == None;
    var v := ApplyColumn(u, ups[0]);
    assert ApplyColumns(u, ups) == ApplyColumns(v, ups[1..]);
    assert ApplyColumns(v, ups[1..]) == ApplyColumns(ApplyColumn(v, ups[1]), ups[1..][1..]);
  }

  // ---------------------------------------------------------------------------
  // Attribute reads the Pydantic records do not back
  // ---------------------------------------------------------------------------

  /** The two Pydantic classes whose attributes matter here. */
  datatype Model = LocationModel | PropertyFilterModel
  {
    function Name(): string {
      match this
      case LocationModel => "Location"
      case PropertyFilterModel => "PropertyFilter"
    }
  }

  /** Attribute names of `Location` and `PropertyFilter`, declared or read. */
  datatype Attr =
    | Region | City | SubCity | SpecificArea | Site
    | FStatus | FPropertyType | FMinBedrooms | FMaxBedrooms | FLocationRegion | FLocationCity
    | FLocationSubCity | FMinPrice | FMaxPrice | FMinSizeSqm | FMaxSizeSqm | FCondominiumScheme
    | FFurnishingStatus | FMinFloorLevel | FLocationSite
  {
    function Name(): string {
      match this
      case Region => "region"
      case City => "city"
      case SubCity => "sub_city"
      case SpecificArea => "specific_area"
      case Site => "site"
      case FStatus => "status"
      case FPropertyType => "property_type"
      case FMinBedrooms => "min_bedrooms"
      case FMaxBedrooms => "max_bedrooms"
      case FLocationRegion => "location_region"
      case FLocationCity => "location_city"
      case FLocationSubCity => "location_sub_city"
      case FMinPrice => "min_price"
      case FMaxPrice => "max_price"
      case FMinSizeSqm => "min_size_sqm"
      case FMaxSizeSqm => "max_size_sqm"
      case FCondominiumScheme => "condominium_scheme"
      case FFurnishingStatus => "furnishing_status"
      case FMinFloorLevel => "min_floor_level"
      case FLocationSite => "location_site"
    }
  }

  /** The fields each class declares. */
  function DeclaredFields(m: Model): set<Attr>
  {
    match m
    case LocationModel => {Region, City, SubCity, SpecificArea}
    case PropertyFilterModel =>
      {FStatus, FPropertyType, FMinBedrooms, FMaxBedrooms, FLocationRegion, FLocationCity,
       FLocationSubCity, FMinPrice, FMaxPrice, FMinSizeSqm, FMaxSizeSqm, FCondominiumScheme,
       FFurnishingStatus, FMinFloorLevel}
  }

  /** Reading an undeclared attribute of a Pydantic model raises AttributeError with this text. */
  function NoAttributeMessage(m: Model, a: Attr): string
  {
    "'" + m.Name() + "' object has no attribute '" + a.Name() + "'"
  }

  /** A sequence of attribute reads, stopping at the first the class does not declare. */
  function ReadAttributes(accesses: seq<(Model, Attr)>): (r: Result<(), string>)
    ensures r.Ok? <==> forall i :: 0 <= i < |accesses| ==> accesses[i].1 in DeclaredFields(accesses[i].0)
  {
    if accesses == [] then Ok(())
    else if accesses[0].1 !in DeclaredFields(accesses[0].0) then Err(NoAttributeMessage(accesses[0].0, accesses[0].1))
    else
      var rest := ReadAttributes(accesses[1..]);
      assert forall i :: 1 <= i < |accesses| ==> accesses[i] == accesses[1..][i - 1];
      rest
  }

  /** The filter attributes `query_properties` reads, up to the site. */
  const QueryPropertiesReads: seq<(Model, Attr)> :=
    [(PropertyFilterModel, FStatus), (PropertyFilterModel, FPropertyType),
     (PropertyFilterModel, FMinBedrooms), (PropertyFilterModel, FMaxBedrooms),
     (PropertyFilterModel, FLocationRegion), (PropertyFilterModel, FLocationSite)]

  /**
   * The error `query_properties` as written raises before it reaches the database,
   * if any: an AttributeError from the filter, which its handler turns into a
   * DatabaseError. The filter's values play no part.
   */
  function QueryPropertiesRaises(f: PropertyFilter): Option<AppError>
  {
    match ReadAttributes(QueryPropertiesReads)
    case Err(msg) => Some(Database("MySQL error while querying properties: " + msg))
    case Ok(_) => None
  }

  /** Against the declared `PropertyFilter` every search raises, at the read of `location_site`. */
  lemma QueryPropertiesAlwaysFails(f: PropertyFilter)
    ensures QueryPropertiesRaises(f)
         == Some(Database("MySQL error while querying properties: " + NoAttributeMessage(PropertyFilterModel, FLocationSite)))
  {
    var r := QueryPropertiesReads;
    assert ReadAttributes(r[5..]) == Err(NoAttributeMessage(PropertyFilterModel, FLocationSite));
    assert ReadAttributes(r[4..]) == ReadAttributes(r[5..]);
    assert ReadAttributes(r[3..]) == ReadAttributes(r[4..]);
    assert ReadAttributes(r[2..]) == ReadAttributes(r[3..]);
    assert ReadAttributes(r[1..]) == ReadAttributes(r[2..]);
    assert ReadAttributes(r) == ReadAttributes(r[1..]);
  }

  /** The `Location` attributes `create_property` reads. */
  const CreatePropertyReads: seq<(Model, Attr)> :=
    [(LocationModel, Region), (LocationModel, City), (LocationModel, Site)]

  /** The error `create_property` as written raises while building the row, if any. */
  function CreatePropertyRaises(data: PropertyCreate): Option<AppError>
  {
    match ReadAttributes(CreatePropertyReads)
    case Err(msg) => Some(Database("MySQL error while creating property: " + msg))
    case Ok(_) => None
  }

  /** Against the declared `Location` every submission raises, at the read of `location.site`. */
  lemma CreatePropertyAlwaysFails(data: PropertyCreate)
    ensures CreatePropertyRaises(data)
         == Some(Database("MySQL error while creating property: " + NoAttributeMessage(LocationModel, Site)))
  {
    var r := CreatePropertyReads;
    assert ReadAttributes(r[2..]) == Err(NoAttributeMessage(LocationModel, Site));
    assert ReadAttributes(r[1..]) == ReadAttributes(r[2..]);
    assert ReadAttributes(r) == ReadAttributes(r[1..]);
  }
}

=== FILE: repository.dfy ===
/**
 * The MySQL repository (src/infrastructure/repository/mysql_repo.py) over an
 * in-memory store: one map per table, keyed by the row id. The SQL engine is not
 * modelled; each query is the set of rows its WHERE clause selects, returned in
 * an order the model leaves open, as `GROUP BY` without `ORDER BY` does.
 *
 * The random `uuid4` ids are parameters that the caller guarantees fresh, the
 * clock is left out (the timestamps are never read back into a record), and the
 * bcrypt library is the `Crypt` parameter of the password helpers.
 */
module Repository {
  import opened Wrappers
  import opened Exceptions
  import opened CommonModels
  import opened PropertyModels
  import opened CarModels
  import opened UserModels
  import opened RepoQueries
  import Auth

  /** Which listings a list query selects. */
  datatype Selector =
    | WithStatus(status: PropertyStatus)
    | ByBroker(brokerId: string)
    | WhereClause(conds: seq<Cond>, params: seq<Param>)
    | Matching(filter: PropertyFilter)
    | Queried(query: PropertyFilter)
    | AllListings

  predicate Selects(sel: Selector, p: Property)
  {
    match sel
    case WithStatus(s) => p.status == s
    case ByBroker(b) => p.data.brokerId == b
    case WhereClause(conds, params) => |conds| == |params| && Where(p, conds, params)
    case Matching(f) => Accepts(f, p)
    case Queried(f) => Accepts(f, p) && (f.minFloorLevel.None? || FloorAtLeast(p, f.minFloorLevel.value))
    case AllListings => true
  }

  /** The ids of a list of listings. */
  function Ids(r: seq<Property>): set<string>
  {
    set i | 0 <= i < |r| :: r[i].pid
  }

  lemma IdsSnoc(r: seq<Property>, row: Property)
    ensures Ids(r + [row]) == Ids(r) + {row.pid}
  {
    var s := r + [row];
    forall x | x in Ids(r) ensures x in Ids(s) {
      var i :| 0 <= i < |r| && r[i].pid == x;
      assert s[i] == r[i];
    }
    assert s[|r|] == row;
  }

  /** Which cars a list query selects. */
  datatype CarSelector =
    | CarsByBroker(brokerId: string)
    | CarsWhere(conds: seq<CarCond>, params: seq<Param>)
    | CarsMatching(filter: CarFilter)

  predicate CarSelects(sel: CarSelector, c: Car)
  {
    match sel
    case CarsByBroker(b) => c.data.brokerId == Some(b)
    case CarsWhere(conds, params) => |conds| == |params| && CarWhere(c, conds, params)
    case CarsMatching(f) => CarAccepts(f, c)
  }

  function CarIds(r: seq<Car>): set<string>
  {
    set i | 0 <= i < |r| :: r[i].cid
  }

  predicate DistinctCids(r: seq<Car>)
  {
    forall i, j :: 0 <= i < j < |r| ==> r[i].cid != r[j].cid
  }

  lemma CarIdsSnoc(r: seq<Car>, row: Car)
    ensures CarIds(r + [row]) == CarIds(r) + {row.cid}
  {
    var s := r + [row];
    forall x | x in CarIds(r) ensures x in CarIds(s) {
      var i :| 0 <= i < |r| && r[i].cid == x;
      assert s[i] == r[i];
    }
    assert s[|r|] == row;
  }

  function UserIds(r: seq<User>): set<string>
  {
    set i | 0 <= i < |r| :: r[i].uid
  }

  lemma UserIdsSnoc(r: seq<User>, row: User)
    ensures UserIds(r + [row]) == UserIds(r) + {row.uid}
  {
    var s := r + [row];
    forall x | x in UserIds(r) ensures x in UserIds(s) {
      var i :| 0 <= i < |r| && r[i].uid == x;
      assert s[i] == r[i];
    }
    assert s[|r|] == row;
  }

  /** The single-row user lookups. */
  datatype UserSelector =
    | ByTelegramId(telegramId: int)
    | ByPhoneNumber(phoneNumber: string)
    | AdminRole
    | UnclaimedAdmin

  predicate UserSelects(sel: UserSelector, u: User)
  {
    match sel
    case ByTelegramId(t) => u.telegramId == t
    case ByPhoneNumber(p) => u.phoneNumber == p
    case AdminRole => Admin in u.roles
    case UnclaimedAdmin => Admin in u.roles && u.telegramId == 0
  }

  /** The admin entries of a role list: what `GROUP_CONCAT` sees once `WHERE ur.role = 'admin'` has filtered the joined rows. */
  function AdminEntries(roles: seq<UserRole>): (r: seq<UserRole>)
    ensures forall x :: x in r ==> x == Admin
    ensures |r| > 0 <==> Admin in roles
  {
    if roles == [] then []
    else (if roles[0] == Admin then [Admin] else []) + AdminEntries(roles[1..])
  }

  /** The `hashed_password` column of a new account: a hash only for a non-empty password. */
  function StoredHash(password: Option<string>, salt: nat, crypt: Auth.Crypt): Option<string>
  {
    if password.Some? && password.value != "" then
      Some(Auth.HashPassword(Auth.CodePoints(password.value), salt, crypt))
    else None
  }

  /** A new account's password verifies against the hash stored for it. */
  lemma StoredHashVerifies(password: string, salt: nat, crypt: Auth.Crypt)
    requires password != "" && Auth.Correct(crypt)
    ensures StoredHash(Some(password), salt, crypt).Some?
    ensures Auth.VerifyPassword(Auth.CodePoints(password), StoredHash(Some(password), salt, crypt).value, crypt)
  {
    Auth.HashThenVerify(Auth.CodePoints(password), salt, crypt);
  }

  /** One entry of the `updates` dict of `update_property`. */
  datatype PropertyField = StatusField(status: PropertyStatus) | RejectionReasonField(reason: Option<string>)

  function ApplyPropertyField(p: Property, x: PropertyField): (r: Property)
    ensures r.pid == p.pid && r.data == p.data
  {
    match x
    case StatusField(s) => p.(status := s)
    case RejectionReasonField(reason) => p.(rejectionReason := reason)
  }

  /** The UPDATE statement: every entry becomes a SET clause, applied in dict order. */
  function ApplyPropertyFields(p: Property, xs: seq<PropertyField>): (r: Property)
    ensures r.pid == p.pid && r.data == p.data
  {
    if xs == [] then p else ApplyPropertyField(ApplyPropertyFields(p, xs[..|xs| - 1]), xs[|xs| - 1])
  }

  /** The row `create_property` stores: the location reduced to the three columns it has. */
  function StoredLocation(loc: Location): (r: Location)
    ensures r.region == loc.region && r.city == loc.city && r.site == loc.site
    ensures r.subCity.None? && r.specificArea.None?
  {
    Location(loc.region, loc.city, site := loc.site)
  }

  const UpdateUserError := "MySQL error while updating user: "
  const UpdatePropertyError := "MySQL error while updating property: "
  const UpdateCarStatusError := "MySQL error while updating car status: "

  class RealEstateRepository {
    /** The `users` table joined with `user_roles`: each account with its role rows in insertion order. */
    var users: map<string, User>
    /** The `properties` table joined with `property_images`, images in `image_order`. */
    var properties: map<string, Property>
    /** The `cars` table joined with `car_images`. */
    var cars: map<string, Car>

    /** Every row is stored under its own id. */
    ghost predicate Valid()
      reads this
    {
      (forall uid :: uid in users ==> users[uid].uid == uid)
      && (forall pid :: pid in properties ==> properties[pid].pid == pid)
      && (forall cid :: cid in cars ==> cars[cid].cid == cid)
    }

    constructor ()
      ensures Valid()
      ensures users == map[] && properties == map[] && cars == map[]
    {
      users, properties, cars := map[], map[], map[];
    }

    // -------------------------------------------------------------------------
    // Users
    // -------------------------------------------------------------------------

    /**
     * A `fetch_one` lookup: some account the WHERE clause selects, or None when
     * none does. Which one, when several match, is up to the database.
     */
    method FindUser(sel: UserSelector) returns (r: Option<User>)
      requires Valid()
      ensures r.Some? ==> r.value.uid in users && users[r.value.uid] == r.value && UserSelects(sel, r.value)
      ensures r.None? <==> forall uid :: uid in users ==> !UserSelects(sel, users[uid])
    {
      if exists uid :: uid in users && UserSelects(sel, users[uid]) {
        var uid :| uid in users && UserSelects(sel, users[uid]);
        r := Some(users[uid]);
      } else {
        r := None;
      }
    }

    /** `get_user_by_telegram_id`. */
    method GetUserByTelegramId(telegramId: int) returns (r: Option<User>)
      requires Valid()
      ensures r.Some? ==> r.value.uid in users && users[r.value.uid] == r.value && r.value.telegramId == telegramId
      ensures r.None? <==> forall uid :: uid in users ==> users[uid].telegramId != telegramId
    {
      r := FindUser(ByTelegramId(telegramId));
    }

    /** `get_user_by_phone_number`. */
    method GetUserByPhoneNumber(phoneNumber: string) returns (r: Option<User>)
      requires Valid()
      ensures r.Some? ==> r.value.uid in users && users[r.value.uid] == r.value && r.value.phoneNumber == phoneNumber
      ensures r.None? <==> forall uid :: uid in users ==> users[uid].phoneNumber != phoneNumber
    {
      r := FindUser(ByPhoneNumber(phoneNumber));
    }

    /** `get_user_by_id`: the account, or `UserNotFoundError` carrying the id. */
    function GetUserById(uid: string): (r: Result<User, AppError>)
      reads this
      ensures r.Ok? <==> uid in users
      ensures r.Ok? ==> r.value == users[uid]
      ensures r.Err? ==> IsNotFound(r.error) && Message(r.error) == "Could not find user: " + uid + "."
    {
      if uid in users then Ok(users[uid]) else Err(UserNotFound(uid))
    }

    /**
     * `find_admin_user`: some account holding the admin role. The WHERE clause
     * filters the joined role rows, so the record comes back with its admin
     * entries only.
     */
    method FindAdminUser() returns (r: Option<User>)
      requires Valid()
      ensures r.Some? ==> r.value.uid in users && r.value == users[r.value.uid].(roles := AdminEntries(users[r.value.uid].roles))
      ensures r.Some? ==> Admin in users[r.value.uid].roles && |r.value.roles| > 0
      ensures r.None? <==> forall uid :: uid in users ==> Admin !in users[uid].roles
    {
      var found := FindUser(AdminRole);
      r := if found.Some? then Some(found.value.(roles := AdminEntries(found.value.roles))) else None;
    }

    /** `find_unclaimed_admin`: some admin account whose Telegram id is still the placeholder 0. */
    method FindUnclaimedAdmin() returns (r: Option<User>)
      requires Valid()
      ensures r.Some? ==> r.value.uid in users && r.value == users[r.value.uid].(roles := AdminEntries(users[r.value.uid].roles))
      ensures r.Some? ==> Admin in users[r.value.uid].roles && r.value.telegramId == 0
      ensures r.None? <==> forall uid :: uid in users ==> !(Admin in users[uid].roles && users[uid].telegramId == 0)
    {
      var found := FindUser(UnclaimedAdmin);
      r := if found.Some? then Some(found.value.(roles := AdminEntries(found.value.roles))) else None;
    }

    /**
     * `create_user` with `uid` as the fresh id: an active account whose password,
     * when one is given and non-empty, is stored hashed, and whose roles are
     * inserted in order.
     */
    method CreateUser(data: UserCreate, uid: string, salt: nat, crypt: Auth.Crypt) returns (u: User)
      requires Valid() && uid !in users
      modifies this
      ensures Valid()
      ensures u == User(uid, data.phoneNumber, data.telegramId, data.displayName, data.roles, data.language,
                        StoredHash(data.password, salt, crypt))
      ensures users == old(users)[uid := u]
      ensures properties == old(properties) && cars == old(cars)
    {
      u := User(uid, data.phoneNumber, data.telegramId, data.displayName, data.roles, data.language,
                StoredHash(data.password, salt, crypt));
      users := users[uid := u];
    }

    /**
     * `update_user`: the SET clauses for every entry but `roles`, an UPDATE only
     * when there is one, then the role rows replaced when `roles` is given, then
     * the account read back. For an unknown id the UPDATE touches nothing and the
     * read-back's `UserNotFoundError` is caught and re-raised as a `DatabaseError`.
     */
    method UpdateUser(uid: string, updates: seq<UserField>) returns (r: Result<User, AppError>)
      requires Valid()
      modifies this
      ensures Valid()
      ensures uid in old(users) ==> r == Ok(ApplyUpdates(old(users)[uid], updates)) && users == old(users)[uid := r.value]
      ensures uid !in old(users) ==> r == Err(Database(UpdateUserError + Message(UserNotFound(uid)))) && users == old(users)
      ensures properties == old(properties) && cars == old(cars)
    {
      var clauses, cols := SetClauses(updates);
      if uid !in users {
        r := Err(Database(UpdateUserError + Message(UserNotFound(uid))));
        return;
      }
      var u := users[uid];
      if |clauses| > 0 {
        u := ApplyColumns(u, cols);
      }
      var roles := RolesEntry(updates);
      if roles.Some? {
        u := u.(roles := roles.value);
      }
      users := users[uid := u];
      r := Ok(u);
    }

    /** The roles of a set in some order, each once: Python's `list(roles)` on a set. */
    static method SetToList(s: set<UserRole>) returns (xs: seq<UserRole>)
      ensures forall x :: x in xs <==> x in s
      ensures forall i, j :: 0 <= i < j < |xs| ==> xs[i] != xs[j]
    {
      xs := [];
      var rest := s;
      while rest != {}
        invariant rest <= s
        invariant forall x :: x in xs <==> x in s - rest
        invariant forall i, j :: 0 <= i < j < |xs| ==> xs[i] != xs[j]
        decreases rest
      {
        var x :| x in rest;
        assert x !in xs;
        xs := xs + [x];
        rest := rest - {x};
      }
    }

    /**
     * `set_user_role`: the account's roles as a set, with `role` added or
     * discarded, written back wholesale; the other roles are kept and each role
     * appears once. An unknown id raises `UserNotFoundError` from the lookup.
     */
    method SetUserRole(uid: string, role: UserRole, enable: bool) returns (r: Result<User, AppError>)
      requires Valid()
      modifies this
      ensures Valid()
      ensures uid !in old(users) ==> r == Err(UserNotFound(uid)) && users == old(users)
      ensures uid in old(users) ==>
        r.Ok? && users == old(users)[uid := r.value] && r.value == old(users)[uid].(roles := r.value.roles)
      ensures r.Ok? ==> forall x :: x in r.value.roles <==>
                          if enable then x in old(users)[uid].roles || x == role
                          else x in old(users)[uid].roles && x != role
      ensures r.Ok? ==> forall i, j :: 0 <= i < j < |r.value.roles| ==> r.value.roles[i] != r.value.roles[j]
      ensures properties == old(properties) && cars == old(cars)
    {
      var found := GetUserById(uid);
      if found.Err? {
        return found;
      }
      var roles := set x | x in found.value.roles;
      if enable {
        roles := roles + {role};
      } else {
        roles := roles - {role};
      }
      var list := SetToList(roles);
      r := UpdateUser(uid, [RolesField(list)]);
      RolesOnlyUpdate(old(users)[uid], list);
    }

    /** `set_user_active`: the `active` column is not part of the record, so the account comes back as it was. */
    method SetUserActive(uid: string, active: bool) returns (r: Result<User, AppError>)
      requires Valid()
      modifies this
      ensures Valid()
      ensures uid in old(users) ==> r == Ok(old(users)[uid])
      ensures uid !in old(users) ==> r == Err(Database(UpdateUserError + Message(UserNotFound(uid))))
      ensures users == old(users) && properties == old(properties) && cars == old(cars)
    {
      r := UpdateUser(uid, [ActiveField(active)]);
      if uid in old(users) {
        SingleColumnUpdate(old(users)[uid], ActiveField(active));
      }
    }

    /** `list_users`: every account once, in the order the rows come. */
    method ListUsers() returns (r: seq<User>)
      requires Valid()
      ensures forall i :: 0 <= i < |r| ==> r[i].uid in users && r[i] == users[r[i].uid]
      ensures UserIds(r) == users.Keys
      ensures forall i, j :: 0 <= i < j < |r| ==> r[i].uid != r[j].uid
    {
      r := [];
      var rest := users.Keys;
      while rest != {}
        invariant rest <= users.Keys
        invariant forall i :: 0 <= i < |r| ==> r[i].uid in users && r[i] == users[r[i].uid]
        invariant UserIds(r) == users.Keys - rest
        invariant forall i, j :: 0 <= i < j < |r| ==> r[i].uid != r[j].uid
        decreases rest
      {
        var uid :| uid in rest;
        forall i | 0 <= i < |r| ensures r[i].uid != uid {
          assert r[i].uid in UserIds(r);
        }
        UserIdsSnoc(r, users[uid]);
        r := r + [users[uid]];
        rest := rest - {uid};
      }
    }

    /** `delete_user`: no error for an unknown id. */
    method DeleteUser(uid: string)
      requires Valid()
      modifies this
      ensures Valid()
      ensures users == old(users) - {uid}
      ensures properties == old(properties) && cars == old(cars)
    {
      users := users - {uid};
    }

    // -------------------------------------------------------------------------
    // Properties
    // -------------------------------------------------------------------------

    /**
     * `create_property` with `pid` as the fresh id: stored as pending whatever the
     * submission, with no rejection reason, its images in submission order and its
     * location cut down to region, city and site.
     */
    method CreateProperty(data: PropertyCreate, pid: string) returns (p: Property)
      requires Valid() && pid !in properties
      modifies this
      ensures Valid()
      ensures p.pid == pid && p.status == Pending && p.rejectionReason.None?
      ensures p.data == data.(location := StoredLocation(data.location))
      ensures properties == old(properties)[pid := p]
      ensures users == old(users) && cars == old(cars)
    {
      p := Property(pid, data.(location := StoredLocation(data.location)), Pending, None);
      properties := properties[pid := p];
    }

    /** `get_property_by_id`: the listing, or `PropertyNotFoundError` carrying the id. */
    function GetPropertyById(pid: string): (r: Result<Property, AppError>)
      reads this
      ensures r.Ok? <==> pid in properties
      ensures r.Ok? ==> r.value == properties[pid]
      ensures r.Err? ==> IsNotFound(r.error) && Message(r.error) == "Could not find property: " + pid + "."
    {
      if pid in properties then Ok(properties[pid]) else Err(PropertyNotFound(pid))
    }

    /**
     * `update_property`: one SET clause per entry, applied in order, then the
     * listing read back; for an unknown id the read-back's error comes out as a
     * `DatabaseError`.
     */
    method UpdateProperty(pid: string, updates: seq<PropertyField>) returns (r: Result<Property, AppError>)
      requires Valid()
      modifies this
      ensures Valid()
      ensures pid in old(properties) ==>
        r == Ok(ApplyPropertyFields(old(properties)[pid], updates)) && properties == old(properties)[pid := r.value]
      ensures pid !in old(properties) ==>
        r == Err(Database(UpdatePropertyError + Message(PropertyNotFound(pid)))) && properties == old(properties)
      ensures users == old(users) && cars == old(cars)
    {
      if pid !in properties {
        r := Err(Database(UpdatePropertyError + Message(PropertyNotFound(pid))));
        return;
      }
      var p := properties[pid];
      for i := 0 to |updates|
        invariant p == ApplyPropertyFields(old(properties)[pid], updates[..i])
      {
        assert updates[..i + 1][..i] == updates[..i];
        p := ApplyPropertyField(p, updates[i]);
      }
      assert updates[..|updates|] == updates;
      properties := properties[pid := p];
      r := Ok(p);
    }

    /** The ids of the stored listings `sel` selects. */
    ghost function Wanted(sel: Selector): set<string>
      reads this
    {
      set pid | pid in properties && Selects(sel, properties[pid])
    }

    /** `r` holds the listings with ids `ids`, each once and as the list queries rebuild it. */
    ghost predicate Rows(r: seq<Property>, ids: set<string>)
      reads this
    {
      (forall i :: 0 <= i < |r| ==> r[i].pid in properties && r[i] == AsListed(properties[r[i].pid]))
      && Ids(r) == ids
      && DistinctPids(r)
    }

    /** `r` lists exactly the stored listings `sel` selects. */
    ghost predicate Lists(r: seq<Property>, sel: Selector)
      reads this
    {
      Rows(r, Wanted(sel))
    }

    /** A `SELECT … GROUP BY p.pid` over the listings, keeping the rows `keep` accepts, in the order they come. */
    method SelectWhere(keep: Property -> bool) returns (r: seq<Property>)
      requires Valid()
      ensures Rows(r, set pid | pid in properties && keep(properties[pid]))
    {
      r := [];
      var rest := properties.Keys;
      while rest != {}
        invariant rest <= properties.Keys
        invariant forall i :: 0 <= i < |r| ==> r[i].pid in properties && r[i] == AsListed(properties[r[i].pid])
        invariant Ids(r) == set pid | pid in properties && pid !in rest && keep(properties[pid])
        invariant DistinctPids(r)
        decreases rest
      {
        var pid :| pid in rest;
        if keep(properties[pid]) {
          var row := AsListed(properties[pid]);
          forall i | 0 <= i < |r| ensures r[i].pid != pid {
            assert r[i].pid in Ids(r);
          }
          IdsSnoc(r, row);
          r := r + [row];
        }
        rest := rest - {pid};
      }
    }

    /** The listings `sel` selects. */
    method SelectProperties(sel: Selector) returns (r: seq<Property>)
      requires Valid()
      ensures Lists(r, sel)
    {
      r := SelectWhere(p => Selects(sel, p));
      assert (set pid | pid in properties && (p => Selects(sel, p))(properties[pid])) == Wanted(sel);
    }

    /** `get_properties_by_status`. */
    method GetPropertiesByStatus(status: PropertyStatus) returns (r: seq<Property>)
      requires Valid()
      ensures Lists(r, WithStatus(status))
    {
      r := SelectProperties(WithStatus(status));
    }

    /** `get_properties_by_broker_id`. */
    method GetPropertiesByBrokerId(brokerId: string) returns (r: seq<Property>)
      requires Valid()
      ensures Lists(r, ByBroker(brokerId))
    {
      r := SelectProperties(ByBroker(brokerId));
    }

    /** Two selectors that agree on every listing list the same rows. */
    lemma ListsSame(r: seq<Property>, a: Selector, b: Selector)
      requires Lists(r, a)
      requires forall p :: Selects(a, p) <==> Selects(b, p)
      ensures Lists(r, b)
    {
      assert Wanted(a) == Wanted(b);
    }

    /** A row the floor filter keeps is a selected listing on a high enough floor. */
    lemma FloorKeptSelected(rows: seq<Property>, f: PropertyFilter, x: string)
      requires Lists(rows, Matching(f)) && f.minFloorLevel.Some?
      requires x in Ids(KeepFloor(rows, f.minFloorLevel.value))
      ensures x in Wanted(Queried(f))
    {
      var r := KeepFloor(rows, f.minFloorLevel.value);
      var i :| 0 <= i < |r| && r[i].pid == x;
      assert r[i] in rows;
      var k :| 0 <= k < |rows| && rows[k] == r[i];
      assert x in Ids(rows);
    }

    /** A selected listing on a high enough floor survives the floor filter. */
    lemma FloorSelectedKept(rows: seq<Property>, f: PropertyFilter, x: string)
      requires Lists(rows, Matching(f)) && f.minFloorLevel.Some?
      requires x in Wanted(Queried(f))
      ensures x in Ids(KeepFloor(rows, f.minFloorLevel.value))
    {
      var r := KeepFloor(rows, f.minFloorLevel.value);
      assert x in Wanted(Matching(f));
      var k :| 0 <= k < |rows| && rows[k].pid == x;
      assert FloorAtLeast(rows[k], f.minFloorLevel.value);
      assert rows[k] in r;
      var i :| 0 <= i < |r| && r[i] == rows[k];
    }

    /** The floor-level comprehension keeps exactly the selected listings on a high enough floor. */
    lemma ListsFloorFilter(rows: seq<Property>, f: PropertyFilter)
      requires Lists(rows, Matching(f))
      ensures Lists(FloorFilter(rows, f.minFloorLevel), Queried(f))
    {
      if f.minFloorLevel.None? {
        assert Wanted(Matching(f)) == Wanted(Queried(f));
      } else {
        var m := f.minFloorLevel.value;
        var r := KeepFloor(rows, m);
        forall i | 0 <= i < |r|
          ensures r[i].pid in properties && r[i] == AsListed(properties[r[i].pid])
        {
          assert r[i] in rows;
        }
        forall x ensures x in Ids(r) <==> x in Wanted(Queried(f)) {
          if x in Ids(r) {
            FloorKeptSelected(rows, f, x);
          }
          if x in Wanted(Queried(f)) {
            FloorSelectedKept(rows, f, x);
          }
        }
        KeepFloorDistinct(rows, m);
      }
    }

    /**
     * `query_properties`: the WHERE clause the filter compiles to, the listings it
     * selects, then the floor-level comprehension when a minimum floor is given.
     */
    method QueryProperties(f: PropertyFilter) returns (r: seq<Property>)
      requires Valid()
      ensures Lists(r, Queried(f))
    {
      var conds, params := PropertyConditions(f);
      var rows := SelectProperties(WhereClause(conds, params));
      ListsSame(rows, WhereClause(conds, params), Matching(f));
      r := FloorFilter(rows, f.minFloorLevel);
      ListsFloorFilter(rows, f);
    }

    /** `delete_property`: allowed in every status; no error for an unknown id. */
    method DeleteProperty(pid: string)
      requires Valid()
      modifies this
      ensures Valid()
      ensures properties == old(properties) - {pid}
      ensures users == old(users) && cars == old(cars)
    {
      properties := properties - {pid};
    }

    /** The ids of the listings in one status. */
    ghost function WithStatusIds(status: PropertyStatus): set<string>
      reads this
    {
      set pid | pid in properties && properties[pid].status == status
    }

    /** `SELECT COUNT(*) FROM properties WHERE status = %s`. */
    method CountWithStatus(status: PropertyStatus) returns (n: nat)
      requires Valid()
      ensures n == |WithStatusIds(status)|
    {
      n := 0;
      var rest := properties.Keys;
      ghost var counted: set<string> := {};
      while rest != {}
        invariant rest <= properties.Keys
        invariant counted == set pid | pid in properties && pid !in rest && properties[pid].status == status
        invariant n == |counted|
        decreases rest
      {
        var pid :| pid in rest;
        if properties[pid].status == status {
          assert pid !in counted;
          counted := counted + {pid};
          n := n + 1;
        }
        rest := rest - {pid};
      }
      assert counted == WithStatusIds(status);
    }

    /** `count_properties_by_status`: one entry per status, each the number of listings in it. */
    method CountPropertiesByStatus() returns (counts: map<PropertyStatus, nat>)
      requires Valid()
      ensures forall s :: s in counts && counts[s] == |WithStatusIds(s)|
    {
      counts := map[];
      var all := AllPropertyStatuses();
      for i := 0 to |all|
        invariant forall s :: s in counts <==> s in all[..i]
        invariant forall s :: s in counts ==> counts[s] == |WithStatusIds(s)|
      {
        var n := CountWithStatus(all[i]);
        counts := counts[all[i] := n];
      }
      forall s ensures s in counts {
        AllPropertyStatusesComplete(s);
        assert all[..|all|] == all;
      }
    }

    /** The four status counts add up to the number of listings. */
    lemma CountsCoverAll()
      ensures |WithStatusIds(Pending)| + |WithStatusIds(Approved)| + |WithStatusIds(Rejected)| + |WithStatusIds(Sold)|
           == |properties|
    {
      var a, b, c, d := WithStatusIds(Pending), WithStatusIds(Approved), WithStatusIds(Rejected), WithStatusIds(Sold);
      assert a * b == {} && (a + b) * c == {} && (a + b + c) * d == {};
      assert a + b + c + d == properties.Keys;
    }

    // -------------------------------------------------------------------------
    // Cars
    // -------------------------------------------------------------------------

    /** `create_car` with `cid` as the fresh id: stored as pending whatever status the data carries. */
    method CreateCar(data: CarCreate, cid: string) returns (c: Car)
      requires Valid() && cid !in cars
      modifies this
      ensures Valid()
      ensures c == Car(cid, data.(status := CarPending))
      ensures cars == old(cars)[cid := c]
      ensures users == old(users) && properties == old(properties)
    {
      c := Car(cid, data.(status := CarPending));
      cars := cars[cid := c];
    }

    /** `get_car_by_id`: the car, or the listing-not-found error the code raises for cars too. */
    function GetCarById(cid: string): (r: Result<Car, AppError>)
      reads this
      ensures r.Ok? <==> cid in cars
      ensures r.Ok? ==> r.value == cars[cid]
      ensures r.Err? ==> IsNotFound(r.error) && Message(r.error) == "Could not find property: " + cid + "."
    {
      if cid in cars then Ok(cars[cid]) else Err(PropertyNotFound(cid))
    }

    /** `update_car_status`: for an unknown id the read-back's error comes out as a `DatabaseError`. */
    method UpdateCarStatus(cid: string, status: CarStatus) returns (r: Result<Car, AppError>)
      requires Valid()
      modifies this
      ensures Valid()
      ensures cid in old(cars) ==> r == Ok(old(cars)[cid].(data := old(cars)[cid].data.(status := status)))
                                   && cars == old(cars)[cid := r.value]
      ensures cid !in old(cars) ==> r == Err(Database(UpdateCarStatusError + Message(PropertyNotFound(cid)))) && cars == old(cars)
      ensures users == old(users) && properties == old(properties)
    {
      if cid !in cars {
        r := Err(Database(UpdateCarStatusError + Message(PropertyNotFound(cid))));
        return;
      }
      var c := cars[cid].(data := cars[cid].data.(status := status));
      cars := cars[cid := c];
      r := Ok(c);
    }

    /** `delete_car`. */
    method DeleteCar(cid: string)
      requires Valid()
      modifies this
      ensures Valid()
      ensures cars == old(cars) - {cid}
      ensures users == old(users) && properties == old(properties)
    {
      cars := cars - {cid};
    }

    /** The ids of the stored cars `sel` selects. */
    ghost function CarWanted(sel: CarSelector): set<string>
      reads this
    {
      set cid | cid in cars && CarSelects(sel, cars[cid])
    }

    /** `r` lists, each once and as rebuilt, exactly the stored cars `sel` selects. */
    ghost predicate CarLists(r: seq<Car>, sel: CarSelector)
      reads this
    {
      (forall i :: 0 <= i < |r| ==> r[i].cid in cars && r[i] == CarAsListed(cars[r[i].cid]))
      && CarIds(r) == CarWanted(sel)
      && DistinctCids(r)
    }

    /** A `SELECT … GROUP BY c.cid` over the cars, keeping the rows `keep` accepts. */
    method SelectCarsWhere(keep: Car -> bool) returns (r: seq<Car>)
      requires Valid()
      ensures forall i :: 0 <= i < |r| ==> r[i].cid in cars && r[i] == CarAsListed(cars[r[i].cid])
      ensures CarIds(r) == set cid | cid in cars && keep(cars[cid])
      ensures DistinctCids(r)
    {
      r := [];
      var rest := cars.Keys;
      while rest != {}
        invariant rest <= cars.Keys
        invariant forall i :: 0 <= i < |r| ==> r[i].cid in cars && r[i] == CarAsListed(cars[r[i].cid])
        invariant CarIds(r) == set cid | cid in cars && cid !in rest && keep(cars[cid])
        invariant DistinctCids(r)
        decreases rest
      {
        var cid :| cid in rest;
        if keep(cars[cid]) {
          var row := CarAsListed(cars[cid]);
          forall i | 0 <= i < |r| ensures r[i].cid != cid {
            assert r[i].cid in CarIds(r);
          }
          CarIdsSnoc(r, row);
          r := r + [row];
        }
        rest := rest - {cid};
      }
    }

    /** The cars `sel` selects. */
    method SelectCars(sel: CarSelector) returns (r: seq<Car>)
      requires Valid()
      ensures CarLists(r, sel)
    {
      r := SelectCarsWhere(c => CarSelects(sel, c));
      assert (set cid | cid in cars && (c => CarSelects(sel, c))(cars[cid])) == CarWanted(sel);
    }

    /** `get_cars_by_broker_id`. */
    method GetCarsByBrokerId(brokerId: string) returns (r: seq<Car>)
      requires Valid()
      ensures CarLists(r, CarsByBroker(brokerId))
    {
      r := SelectCars(CarsByBroker(brokerId));
    }

    /** `query_cars`: approved cars of the type and price range the filter sets. */
    method QueryCars(f: CarFilter) returns (r: seq<Car>)
      requires Valid()
      ensures CarLists(r, CarsMatching(f))
    {
      var conds, params := CarConditions(f);
      r := SelectCars(CarsWhere(conds, params));
    }

    ghost function CarStatusIds(status: CarStatus): set<string>
      reads this
    {
      set cid | cid in cars && cars[cid].data.status == status
    }

    /** `SELECT COUNT(*) FROM cars WHERE status = %s`. */
    method CountCarsWithStatus(status: CarStatus) returns (n: nat)
      requires Valid()
      ensures n == |CarStatusIds(status)|
    {
      n := 0;
      var rest := cars.Keys;
      ghost var counted: set<string> := {};
      while rest != {}
        invariant rest <= cars.Keys
        invariant counted == set cid | cid in cars && cid !in rest && cars[cid].data.status == status
        invariant n == |counted|
        decreases rest
      {
        var cid :| cid in rest;
        if cars[cid].data.status == status {
          assert cid !in counted;
          counted := counted + {cid};
          n := n + 1;
        }
        rest := rest - {cid};
      }
      assert counted == CarStatusIds(status);
    }

    /** `count_cars_by_status`: one entry per car status. */
    method CountCarsByStatus() returns (counts: map<CarStatus, nat>)
      requires Valid()
      ensures forall s :: s in counts && counts[s] == |CarStatusIds(s)|
    {
      counts := map[];
      var all := AllCarStatuses();
      for i := 0 to |all|
        invariant forall s :: s in counts <==> s in all[..i]
        invariant forall s :: s in counts ==> counts[s] == |CarStatusIds(s)|
      {
        var n := CountCarsWithStatus(all[i]);
        counts := counts[all[i] := n];
      }
      forall s ensures s in counts {
        AllCarStatusesComplete(s);
        assert all[..|all|] == all;
      }
    }
  }
}

=== FILE: session.dfy ===
/**
 * A chat's `context.user_data` and what a handler hands back to the conversation
 * library. The dictionary holds at most four keys: the cached account under
 * `user`, the listing being submitted under `submission_data`, the search being
 * assembled under `filters` and the listing awaiting a rejection reason under
 * `prop_to_reject`. A key that is absent is `None` here.
 */
module BotSession {
  import opened Wrappers
  import opened CommonModels
  import opened PropertyModels
  import opened UserModels
  import opened Exceptions
  import opened Constants

  /**
   * `submission_data`: the keys the submission steps have written so far, each
   * under the name `PropertyCreate` gives the field.
   */
  datatype Draft = Draft(
    propertyType: Option<PropertyType> := None,
    bedrooms: Option<int> := None,
    bathrooms: Option<int> := None,
    sizeSqm: Option<real> := None,
    location: Option<Location> := None,
    priceEtb: Option<real> := None,
    imageUrls: Option<seq<string>> := None,
    description: Option<string> := None)

  /** `filters`: the keys the search steps have written so far. */
  datatype FilterDraft = FilterDraft(
    propertyType: Option<PropertyType> := None,
    minBedrooms: Option<int> := None,
    locationRegion: Option<string> := None,
    minPrice: Option<real> := None,
    maxPrice: Option<real> := None,
    condominiumScheme: Option<CondoScheme> := None)

  /** `PropertyFilter(**filters)`: the collected keys, every other criterion unset. */
  function FilterOf(d: FilterDraft): (f: PropertyFilter)
    ensures f.propertyType == d.propertyType && f.minBedrooms == d.minBedrooms
    ensures f.locationRegion == d.locationRegion && f.condominiumScheme == d.condominiumScheme
    ensures f.minPrice == d.minPrice && f.maxPrice == d.maxPrice
    ensures f.status.None? && f.maxBedrooms.None? && f.minFloorLevel.None?
    ensures d == FilterDraft() <==> IsEmptyFilter(f)
  {
    PropertyFilter(
      propertyType := d.propertyType, minBedrooms := d.minBedrooms,
      locationRegion := d.locationRegion, minPrice := d.minPrice, maxPrice := d.maxPrice,
      condominiumScheme := d.condominiumScheme)
  }

  /**
   * What a handler leaves the conversation in: the state it returns (`END`
   * included); `None`, which keeps the current state; or an exception that
   * escapes the handler, which the conversation library logs while the state
   * stays as it was.
   */
  datatype Outcome = Next(state: ConvState) | Unchanged | Failed(error: Raised)

  /** The Telegram account behind an update, `update.effective_user`. */
  datatype Sender = Sender(id: int, fullName: string)

  class UserData {
    var user: Option<User>
    var submission: Option<Draft>
    var filters: Option<FilterDraft>
    var propToReject: Option<string>

    /** A chat the bot has not seen: an empty dictionary. */
    constructor ()
      ensures user.None? && submission.None? && filters.None? && propToReject.None?
    {
      user := None;
      submission := None;
      filters := None;
      propToReject := None;
    }

    /** No conversation is under way: none of the three flow keys is present. */
    predicate Idle()
      reads this
    {
      submission.None? && filters.None? && propToReject.None?
    }

    /**
     * `pop('submission_data')`, `pop('filters')` and `pop('prop_to_reject')`, each
     * with a default, so that an absent key is no error. The account stays cached.
     */
    method ClearFlows()
      modifies this
      ensures Idle()
      ensures user == old(user)
    {
      submission := None;
      filters := None;
      propToReject := None;
    }
  }
}

=== FILE: text.dfy ===
/**
 * The handful of Python string operations the core relies on, written out:
 * `str.split(sep)`, `sep.join(parts)`, `str.replace(c, '')`, `int(text)`,
 * `str(n)` for natural numbers and the substring test `sub in s`.
 */
module Text {
  import opened Wrappers

  /** Position of the first occurrence of `c` in `s`. */
  function IndexOf(s: string, c: char): (i: nat)
    requires c in s
    ensures i < |s| && s[i] == c
    ensures c !in s[..i]
  {
    if s[0] == c then 0
    else
      var j := IndexOf(s[1..], c);
      assert s[..j + 1] == [s[0]] + s[1..][..j];
      j + 1
  }

  /**
   * Python's `s.split(sep)` for a one-character separator, read one character
   * at a time: a separator starts a new piece, any other character joins the
   * first piece. Never empty; `SplitPiecesPlain` shows no piece holds `sep`.
   */
  function Split(s: string, sep: char): (parts: seq<string>)
    ensures |parts| >= 1
  {
    if |s| == 0 then [""]
    else
      var rest := Split(s[1..], sep);
      if s[0] == sep then [""] + rest
      else [[s[0]] + rest[0]] + rest[1..]
  }

  /** Python's `sep.join(parts)`. */
  function Join(parts: seq<string>, sep: string): string
  {
    if |parts| == 0 then ""
    else if |parts| == 1 then parts[0]
    else parts[0] + sep + Join(parts[1..], sep)
  }

  /** Python's `s.split(sep)[-1]`. */
  function LastSegment(s: string, sep: char): string
  {
    var parts := Split(s, sep);
    parts[|parts| - 1]
  }

  /** The first occurrence is characterised by position and by absence before it. */
  lemma IndexOfIs(s: string, c: char, i: nat)
    requires i < |s| && s[i] == c && c !in s[..i]
    ensures IndexOf(s, c) == i
  {
  }

  /** No piece of a split holds the separator. */
  lemma {:induction false} SplitPiecesPlain(s: string, sep: char)
    ensures forall i :: 0 <= i < |Split(s, sep)| ==> sep !in Split(s, sep)[i]
    decreases |s|
  {
    if |s| > 0 {
      SplitPiecesPlain(s[1..], sep);
    }
  }

  /** A string splits into two pieces or more exactly when it holds the separator. */
  lemma {:induction false} SplitAtSeparator(s: string, sep: char)
    ensures |Split(s, sep)| >= 2 <==> sep in s
    decreases |s|
  {
    if sep !in s {
      SplitPlain(s, sep);
    } else if s[0] != sep {
      assert sep in s[1..] by {
        var k :| 0 <= k < |s| && s[k] == sep;
        assert s[1..][k - 1] == sep;
      }
      SplitAtSeparator(s[1..], sep);
    }
  }

  lemma {:induction false} SplitPlain(s: string, sep: char)
    requires sep !in s
    ensures Split(s, sep) == [s]
    decreases |s|
  {
    if |s| > 0 {
      SplitPlain(s[1..], sep);
      assert [s[0]] + s[1..] == s;
    }
  }

  /** The step of `Split` on a first character commutes with appending further pieces. */
  lemma FirstPieceAppend(c: char, sep: char, r: seq<string>, t: seq<string>)
    requires |r| >= 1
    ensures (if c == sep then [""] + (r + t) else [[c] + (r + t)[0]] + (r + t)[1..])
         == (if c == sep then [""] + r else [[c] + r[0]] + r[1..]) + t
  {
    if c != sep {
      assert (r + t)[1..] == r[1..] + t;
    }
  }

  /** Splitting at a separator that is known to be there splits both sides independently. */
  lemma {:induction false} SplitAround(a: string, sep: char, b: string)
    ensures Split(a + [sep] + b, sep) == Split(a, sep) + Split(b, sep)
    decreases |a|
  {
    var s := a + [sep] + b;
    if |a| == 0 {
      assert s[0] == sep && s[1..] == b;
    } else {
      assert s[0] == a[0] && s[1..] == a[1..] + [sep] + b;
      SplitAround(a[1..], sep, b);
      FirstPieceAppend(a[0], sep, Split(a[1..], sep), Split(b, sep));
    }
  }

  /** Putting a string in front of the first part puts it in front of the join. */
  lemma JoinPrefixFirst(x: string, parts: seq<string>, sep: string)
    requires |parts| >= 1
    ensures Join([x + parts[0]] + parts[1..], sep) == x + Join(parts, sep)
  {
    if |parts| > 1 {
      assert ([x + parts[0]] + parts[1..])[1..] == parts[1..];
    }
  }

  /** Joining the pieces of a split puts the original string back together. */
  lemma {:induction false} JoinSplit(s: string, sep: char)
    ensures Join(Split(s, sep), [sep]) == s
    decreases |s|
  {
    if |s| > 0 {
      var rest := Split(s[1..], sep);
      JoinSplit(s[1..], sep);
      assert s == [s[0]] + s[1..];
      if s[0] == sep {
        assert ([""] + rest)[1..] == rest;
      } else {
        JoinPrefixFirst([s[0]], rest, [sep]);
      }
    }
  }

  /** Splitting a join of separator-free pieces gives the pieces back. */
  lemma {:induction false} SplitJoin(parts: seq<string>, sep: char)
    requires |parts| >= 1
    requires forall i :: 0 <= i < |parts| ==> sep !in parts[i]
    ensures Split(Join(parts, [sep]), sep) == parts
  {
    if |parts| == 1 {
      SplitPlain(parts[0], sep);
    } else {
      SplitJoin(parts[1..], sep);
      SplitAround(parts[0], sep, Join(parts[1..], [sep]));
      SplitPlain(parts[0], sep);
      assert parts == [parts[0]] + parts[1..];
    }
  }

  /** `LastSegment(prefix + sep + id)` is `id` whenever `id` itself holds no separator. */
  /** What follows a separator decides the last piece. */
  lemma LastSegmentAfter(prefix: string, sep: char, s: string)
    ensures LastSegment(prefix + [sep] + s, sep) == LastSegment(s, sep)
  {
    SplitAround(prefix, sep, s);
  }

  lemma LastSegmentOfSuffix(prefix: string, sep: char, id: string)
    requires sep !in id
    ensures LastSegment(prefix + [sep] + id, sep) == id
  {
    SplitAround(prefix, sep, id);
    SplitPlain(id, sep);
  }

  /** Python's `s.replace(c, '')`. */
  function RemoveAll(s: string, c: char): (r: string)
    ensures c !in r
    ensures |r| <= |s|
    ensures forall x :: x in r ==> x in s
  {
    if |s| == 0 then ""
    else if s[0] == c then RemoveAll(s[1..], c)
    else [s[0]] + RemoveAll(s[1..], c)
  }

  /** Removing a character that is not there changes nothing. */
  lemma {:induction false} RemoveAllAbsent(s: string, c: char)
    requires c !in s
    ensures RemoveAll(s, c) == s
  {
    if |s| > 0 {
      assert c !in s[1..];
      RemoveAllAbsent(s[1..], c);
      assert s == [s[0]] + s[1..];
    }
  }

  predicate IsDigit(c: char) { '0' <= c <= '9' }

  predicate AllDigits(s: string) { forall i :: 0 <= i < |s| ==> IsDigit(s[i]) }

  function DigitChar(d: nat): (c: char)
    requires d < 10
    ensures IsDigit(c)
  {
    ('0' as int + d) as char
  }

  function DigitValue(c: char): (d: nat)
    requires IsDigit(c)
    ensures d < 10
  {
    c as int - '0' as int
  }

  /** The value of a string of decimal digits, most significant first. */
  function DigitsValue(s: string): nat
    requires AllDigits(s)
  {
    if |s| == 0 then 0
    else DigitsValue(s[..|s| - 1]) * 10 + DigitValue(s[|s| - 1])
  }

  /**
   * Python's `int(text)` on the inputs the chat keyboards produce: an optional
   * sign followed by one or more ASCII digits. `None` is the `ValueError` case.
   */
  function ParseInt(s: string): (r: Option<int>)
    ensures r.Some? ==> |s| >= 1
    ensures AllDigits(s) && |s| >= 1 ==> r == Some(DigitsValue(s))
  {
    if |s| >= 2 && (s[0] == '-' || s[0] == '+') && AllDigits(s[1..]) then
      Some(if s[0] == '-' then -(DigitsValue(s[1..]) as int) else DigitsValue(s[1..]))
    else if |s| >= 1 && AllDigits(s) then Some(DigitsValue(s))
    else None
  }

  /** Python's `str(n)` for a natural number. */
  function NatToString(n: nat): (s: string)
    ensures |s| >= 1 && AllDigits(s)
  {
    if n < 10 then [DigitChar(n)]
    else NatToString(n / 10) + [DigitChar(n % 10)]
  }

  /** Reading back a rendered number gives the number. */
  lemma {:induction false} DigitsOfNatToString(n: nat)
    ensures DigitsValue(NatToString(n)) == n
  {
    if n >= 10 {
      DigitsOfNatToString(n / 10);
      var s := NatToString(n);
      assert s[..|s| - 1] == NatToString(n / 10);
    }
  }

  /** `int(str(n)) == n`. */
  lemma ParseNatToString(n: nat)
    ensures ParseInt(NatToString(n)) == Some(n)
  {
    DigitsOfNatToString(n);
  }

  /** Rendering is injective: distinct numbers have distinct decimal strings. */
  lemma NatToStringInjective(m: nat, n: nat)
    requires NatToString(m) == NatToString(n)
    ensures m == n
  {
    DigitsOfNatToString(m);
    DigitsOfNatToString(n);
  }

  /** Python's `sub in s`. */
  predicate Contains(s: string, sub: string)
  {
    exists i :: 0 <= i <= |s| && sub <= s[i..]
  }
}

=== FILE: user_models.dfy ===
/** Account records (src/domain/models/user_models.py) and their defaults. */
module UserModels {
  import opened Wrappers
  import opened CommonModels

  /** The language a new account gets. */
  const DefaultLanguage := "en"

  /** `UserCreate`: phone and Telegram id required; no name, no roles, English and no password by default. */
  datatype UserCreate = UserCreate(
    phoneNumber: string,
    telegramId: int,
    displayName: Option<string> := None,
    roles: seq<UserRole> := [],
    language: string := DefaultLanguage,
    password: Option<string> := None)

  /** `UserInDB`: a stored account with its id and an optional password hash. */
  datatype User = User(
    uid: string,
    phoneNumber: string,
    telegramId: int,
    displayName: Option<string> := None,
    roles: seq<UserRole> := [],
    language: string := DefaultLanguage,
    hashedPassword: Option<string> := None)

  /** Whether the account holds the role `r`. */
  predicate HasRole(u: User, r: UserRole)
  {
    r in u.roles
  }
}

=== FILE: user_use_cases.dfy ===
/**
 * The account use cases (src/use_cases/user_use_cases.py): the placeholder admin
 * account and its claim, first contact from Telegram, roles, profile, password
 * and language. The configured admin phone number and the hashing library are
 * fixed when the use cases are built; the salt bcrypt draws is a parameter.
 */
module Accounts {
  import opened Wrappers
  import opened Exceptions
  import opened CommonModels
  import opened UserModels
  import opened RepoQueries
  import opened Repository
  import Auth
  import I18n

  /** The Telegram id of an admin account no one has claimed yet. */
  const Unclaimed := 0

  /** The phone number recorded for an account created from Telegram. */
  const UnknownPhone := "N/A"

  /** The ids of the admin accounts still waiting to be claimed. */
  ghost function UnclaimedAdmins(users: map<string, User>): set<string>
  {
    set v | v in users && Admin in users[v].roles && users[v].telegramId == Unclaimed
  }

  /** The account with `role` added at the end, unless it already holds it. */
  function WithRole(u: User, role: UserRole): (v: User)
    ensures role in v.roles
    ensures forall x :: x in v.roles <==> x in u.roles || x == role
    ensures v == u.(roles := v.roles)
  {
    if role in u.roles then u else u.(roles := u.roles + [role])
  }

  /** Adding a role twice is adding it once. */
  lemma WithRoleIdempotent(u: User, role: UserRole)
    ensures WithRole(WithRole(u, role), role) == WithRole(u, role)
  {
  }

  /** Adding a role keeps a role list free of repeats. */
  lemma WithRoleKeepsDistinct(u: User, role: UserRole)
    requires forall i, j :: 0 <= i < j < |u.roles| ==> u.roles[i] != u.roles[j]
    ensures var rs := WithRole(u, role).roles; forall i, j :: 0 <= i < j < |rs| ==> rs[i] != rs[j]
  {
    var rs := WithRole(u, role).roles;
    if role !in u.roles {
      forall i, j | 0 <= i < j < |rs| ensures rs[i] != rs[j] {
        if j == |u.roles| {
          assert rs[i] == u.roles[i];
        }
      }
    }
  }

  /** The entries `update_profile` writes: a name and a phone number, each only when given. */
  function ProfileUpdates(name: Option<string>, phone: Option<string>): seq<UserField>
  {
    (if name.Some? then [DisplayNameField(name)] else [])
    + (if phone.Some? then [PhoneNumberField(phone.value)] else [])
  }

  /** The account with the given name and phone number set and everything else kept. */
  function WithProfile(u: User, name: Option<string>, phone: Option<string>): (v: User)
    ensures v.uid == u.uid && v.telegramId == u.telegramId && v.roles == u.roles
    ensures v.language == u.language && v.hashedPassword == u.hashedPassword
    ensures v.displayName == (if name.Some? then name else u.displayName)
    ensures v.phoneNumber == (if phone.Some? then phone.value else u.phoneNumber)
  {
    u.(displayName := if name.Some? then name else u.displayName,
       phoneNumber := if phone.Some? then phone.value else u.phoneNumber)
  }

  /** Writing the profile entries sets exactly the given fields. */
  lemma ProfileUpdatesApply(u: User, name: Option<string>, phone: Option<string>)
    ensures ApplyUpdates(u, ProfileUpdates(name, phone)) == WithProfile(u, name, phone)
  {
    var ups := ProfileUpdates(name, phone);
    if name.Some? && phone.Some? {
      assert ColumnUpdates(ups) == ups by {
        assert ups[1..] == [PhoneNumberField(phone.value)];
        assert ups[1..][1..] == [];
      }
      assert ApplyColumns(u, ups)
          == ApplyColumns(ApplyColumn(ApplyColumn(u, ups[0]), ups[1]), []) by {
        assert ups[1..][1..] == [];
      }
    } else if name.Some? || phone.Some? {
      SingleColumnUpdate(u, ups[0]);
    }
  }

  /** The language code `set_user_language` stores: a code with a translation table, or English. */
  function SupportedLanguage(code: string): (lang: string)
    ensures lang == "en" || lang == "am"
    ensures I18n.Translations(lang).Some?
    ensures I18n.Translations(code).Some? ==> lang == code
  {
    if I18n.Translations(code).Some? then code else "en"
  }

  class UserUseCases {
    const repo: RealEstateRepository
    /** `settings.ADMIN_PHONE_NUMBER`. */
    const adminPhone: string
    const crypt: Auth.Crypt

    constructor (repo: RealEstateRepository, adminPhone: string, crypt: Auth.Crypt)
      ensures this.repo == repo && this.adminPhone == adminPhone && this.crypt == crypt
    {
      this.repo := repo;
      this.adminPhone := adminPhone;
      this.crypt := crypt;
    }

    /**
     * `initialize_admin_user`: unless an account already has the admin phone
     * number, a placeholder admin account for it, under the fresh id `uid`, that
     * the first unknown Telegram user will claim. Afterwards an account has the
     * admin phone number.
     */
    method InitializeAdminUser(uid: string)
      requires repo.Valid() && uid !in repo.users
      modifies repo
      ensures repo.Valid()
      ensures (exists v :: v in old(repo.users) && old(repo.users)[v].phoneNumber == adminPhone) ==>
        repo.users == old(repo.users)
      ensures (forall v :: v in old(repo.users) ==> old(repo.users)[v].phoneNumber != adminPhone) ==>
        repo.users == old(repo.users)[uid := User(uid, adminPhone, Unclaimed, Some("Admin"), [Admin])]
      ensures exists v :: v in repo.users && repo.users[v].phoneNumber == adminPhone
      ensures repo.properties == old(repo.properties) && repo.cars == old(repo.cars)
    {
      var admin := repo.GetUserByPhoneNumber(adminPhone);
      if admin.None? {
        var u := repo.CreateUser(UserCreate(adminPhone, Unclaimed, Some("Admin"), [Admin]), uid, 0, crypt);
        assert repo.users[uid].phoneNumber == adminPhone;
      } else {
        assert repo.users[admin.value.uid].phoneNumber == adminPhone;
      }
    }

    /**
     * `get_or_create_user_by_telegram_id`: the account with this Telegram id if
     * there is one; otherwise the unclaimed admin account, claimed by setting its
     * Telegram id and name; otherwise a new account with no roles under the fresh
     * id `uid`. Whichever way, the result is a stored account with this Telegram id,
     * and a real Telegram id takes the claimed account off the unclaimed ones.
     */
    method GetOrCreateUserByTelegramId(telegramId: int, displayName: Option<string>, uid: string)
      returns (r: Result<User, AppError>)
      requires repo.Valid() && uid !in repo.users
      modifies repo
      ensures repo.Valid()
      ensures r.Ok? && r.value.telegramId == telegramId && r.value.uid in repo.users && repo.users[r.value.uid] == r.value
      ensures (exists v :: v in old(repo.users) && old(repo.users)[v].telegramId == telegramId) ==>
        repo.users == old(repo.users)
      ensures (forall v :: v in old(repo.users) ==> old(repo.users)[v].telegramId != telegramId) ==>
        if exists v :: v in old(repo.users) && Admin in old(repo.users)[v].roles && old(repo.users)[v].telegramId == Unclaimed
        then
          r.value.uid in old(repo.users) && Admin in old(repo.users)[r.value.uid].roles
          && old(repo.users)[r.value.uid].telegramId == Unclaimed
          && r.value == old(repo.users)[r.value.uid].(telegramId := telegramId, displayName := displayName)
          && repo.users == old(repo.users)[r.value.uid := r.value]
        else
          r.value == User(uid, UnknownPhone, telegramId, displayName, [])
          && repo.users == old(repo.users)[uid := r.value]
      ensures telegramId != Unclaimed ==> UnclaimedAdmins(repo.users) == UnclaimedAdmins(old(repo.users)) - {r.value.uid}
      ensures repo.properties == old(repo.properties) && repo.cars == old(repo.cars)
    {
      var existing := repo.GetUserByTelegramId(telegramId);
      if existing.Some? {
        return Ok(existing.value);
      }
      var unclaimed := repo.FindUnclaimedAdmin();
      if unclaimed.Some? {
        var v := unclaimed.value.uid;
        r := repo.UpdateUser(v, [TelegramIdField(telegramId), DisplayNameField(displayName)]);
        ClaimUpdate(old(repo.users)[v], telegramId, displayName);
        return;
      }
      var u := repo.CreateUser(UserCreate(UnknownPhone, telegramId, displayName, []), uid, 0, crypt);
      r := Ok(u);
    }

    /** `get_user_by_id`. */
    method GetUserById(uid: string) returns (r: Result<User, AppError>)
      requires repo.Valid()
      ensures r.Ok? <==> uid in repo.users
      ensures r.Ok? ==> r.value == repo.users[uid]
      ensures r.Err? ==> r.error == UserNotFound(uid)
    {
      r := repo.GetUserById(uid);
    }

    /**
     * `get_admin_telegram_id`: the Telegram id of some admin account, unless it is
     * the unclaimed placeholder. With no admin account there is none; with only
     * claimed admin accounts there is one.
     */
    method GetAdminTelegramId() returns (r: Option<int>)
      requires repo.Valid()
      ensures r.Some? ==>
        r.value != Unclaimed && exists v :: v in repo.users && Admin in repo.users[v].roles && repo.users[v].telegramId == r.value
      ensures (forall v :: v in repo.users ==> Admin !in repo.users[v].roles) ==> r.None?
      ensures (exists v :: v in repo.users && Admin in repo.users[v].roles)
           && (forall v :: v in repo.users && Admin in repo.users[v].roles ==> repo.users[v].telegramId != Unclaimed)
           ==> r.Some?
    {
      var admin := repo.FindAdminUser();
      if admin.Some? && admin.value.telegramId != Unclaimed {
        r := Some(admin.value.telegramId);
      } else {
        r := None;
      }
    }

    /**
     * `add_user_role`: the role appended to the account's roles unless it already
     * holds it, in which case nothing is written.
     */
    method AddUserRole(uid: string, role: UserRole) returns (r: Result<User, AppError>)
      requires repo.Valid()
      modifies repo
      ensures repo.Valid()
      ensures uid !in old(repo.users) ==> r == Err(UserNotFound(uid)) && repo.users == old(repo.users)
      ensures uid in old(repo.users) ==>
        r == Ok(WithRole(old(repo.users)[uid], role)) && repo.users == old(repo.users)[uid := r.value]
      ensures repo.properties == old(repo.properties) && repo.cars == old(repo.cars)
    {
      var found := repo.GetUserById(uid);
      if found.Err? {
        return found;
      }
      var user := found.value;
      if role !in user.roles {
        r := repo.UpdateUser(uid, [RolesField(user.roles + [role])]);
        RolesOnlyUpdate(user, user.roles + [role]);
        return;
      }
      r := Ok(user);
    }

    /** `list_users`. */
    method ListUsers() returns (r: seq<User>)
      requires repo.Valid()
      ensures forall i :: 0 <= i < |r| ==> r[i].uid in repo.users && r[i] == repo.users[r[i].uid]
      ensures UserIds(r) == repo.users.Keys
    {
      r := repo.ListUsers();
    }

    /** `set_user_role`. */
    method SetUserRole(uid: string, role: UserRole, enable: bool) returns (r: Result<User, AppError>)
      requires repo.Valid()
      modifies repo
      ensures repo.Valid()
      ensures uid !in old(repo.users) ==> r == Err(UserNotFound(uid)) && repo.users == old(repo.users)
      ensures uid in old(repo.users) ==>
        r.Ok? && repo.users == old(repo.users)[uid := r.value] && r.value == old(repo.users)[uid].(roles := r.value.roles)
      ensures r.Ok? ==> (enable <==> role in r.value.roles)
      ensures repo.properties == old(repo.properties) && repo.cars == old(repo.cars)
    {
      r := repo.SetUserRole(uid, role, enable);
    }

    /** `set_user_active`. */
    method SetUserActive(uid: string, active: bool) returns (r: Result<User, AppError>)
      requires repo.Valid()
      modifies repo
      ensures repo.Valid()
      ensures uid in old(repo.users) ==> r == Ok(old(repo.users)[uid])
      ensures uid !in old(repo.users) ==> r.Err? && r.error.Database?
      ensures repo.users == old(repo.users) && repo.properties == old(repo.properties) && repo.cars == old(repo.cars)
    {
      r := repo.SetUserActive(uid, active);
    }

    /** `delete_user`. */
    method DeleteUser(uid: string)
      requires repo.Valid()
      modifies repo
      ensures repo.Valid()
      ensures repo.users == old(repo.users) - {uid}
      ensures repo.properties == old(repo.properties) && repo.cars == old(repo.cars)
    {
      repo.DeleteUser(uid);
    }

    /**
     * `update_profile`: the given fields written; with neither given, the account
     * as it is, or `UserNotFoundError` for an unknown id.
     */
    method UpdateProfile(uid: string, name: Option<string>, phone: Option<string>) returns (r: Result<User, AppError>)
      requires repo.Valid()
      modifies repo
      ensures repo.Valid()
      ensures uid in old(repo.users) ==>
        r == Ok(WithProfile(old(repo.users)[uid], name, phone)) && repo.users == old(repo.users)[uid := r.value]
      ensures uid !in old(repo.users) && name.None? && phone.None? ==> r == Err(UserNotFound(uid))
      ensures uid !in old(repo.users) && (name.Some? || phone.Some?) ==>
        r == Err(Database(UpdateUserError + Message(UserNotFound(uid))))
      ensures uid !in old(repo.users) ==> repo.users == old(repo.users)
      ensures repo.properties == old(repo.properties) && repo.cars == old(repo.cars)
    {
      var updates := ProfileUpdates(name, phone);
      if updates == [] {
        r := repo.GetUserById(uid);
        return;
      }
      r := repo.UpdateUser(uid, updates);
      if uid in old(repo.users) {
        ProfileUpdatesApply(old(repo.users)[uid], name, phone);
      }
    }

    /**
     * `change_password`: refused as an unknown account when there is no account or
     * it has no password, and as "invalid_credentials" when the current password
     * does not verify; otherwise the new password is stored hashed and, with a
     * correct hashing library, verifies from then on.
     */
    method ChangePassword(uid: string, currentPassword: string, newPassword: string, salt: nat) returns (r: Result<(), AppError>)
      requires repo.Valid()
      modifies repo
      ensures repo.Valid()
      ensures r.Err? ==> repo.users == old(repo.users)
      ensures uid !in old(repo.users) ==> r == Err(UserNotFound(uid))
      ensures uid in old(repo.users) && !TruthyText(old(repo.users)[uid].hashedPassword) ==> r == Err(UserNotFound(uid))
      ensures uid in old(repo.users) && TruthyText(old(repo.users)[uid].hashedPassword) ==>
        var u := old(repo.users)[uid];
        if Auth.VerifyPassword(Auth.CodePoints(currentPassword), u.hashedPassword.value, crypt) then
          r == Ok(()) && repo.users == old(repo.users)[uid := u.(hashedPassword := Some(Auth.HashPassword(Auth.CodePoints(newPassword), salt, crypt)))]
        else
          r == Err(UserNotFound("invalid_credentials"))
      ensures r.Ok? && Auth.Correct(crypt) ==>
        Auth.VerifyPassword(Auth.CodePoints(newPassword), repo.users[uid].hashedPassword.value, crypt)
      ensures repo.properties == old(repo.properties) && repo.cars == old(repo.cars)
    {
      var found := repo.GetUserById(uid);
      if found.Err? {
        return Err(found.error);
      }
      var user := found.value;
      if !TruthyText(user.hashedPassword) {
        return Err(UserNotFound(uid));
      }
      if !Auth.VerifyPassword(Auth.CodePoints(currentPassword), user.hashedPassword.value, crypt) {
        return Err(UserNotFound("invalid_credentials"));
      }
      var newHash := Auth.HashPassword(Auth.CodePoints(newPassword), salt, crypt);
      var updated := repo.UpdateUser(uid, [HashedPasswordField(Some(newHash))]);
      SingleColumnUpdate(user, HashedPasswordField(Some(newHash)));
      r := Ok(());
      if Auth.Correct(crypt) {
        Auth.HashThenVerify(Auth.CodePoints(newPassword), salt, crypt);
      }
    }

    /** `set_user_language`: a code without a translation table is stored as English. */
    method SetUserLanguage(uid: string, code: string) returns (r: Result<User, AppError>)
      requires repo.Valid()
      modifies repo
      ensures repo.Valid()
      ensures uid in old(repo.users) ==>
        r == Ok(old(repo.users)[uid].(language := SupportedLanguage(code))) && repo.users == old(repo.users)[uid := r.value]
      ensures uid !in old(repo.users) ==>
        r == Err(Database(UpdateUserError + Message(UserNotFound(uid)))) && repo.users == old(repo.users)
      ensures r.Ok? ==> I18n.Translations(r.value.language).Some?
      ensures repo.properties == old(repo.properties) && repo.cars == old(repo.cars)
    {
      var lang := if I18n.Translations(code).Some? then code else "en";
      r := repo.UpdateUser(uid, [LanguageField(lang)]);
      if uid in old(repo.users) {
        SingleColumnUpdate(old(repo.users)[uid], LanguageField(lang));
      }
    }

    /**
     * `authenticate_user`: an account with this phone number whose stored hash
     * the password verifies against; an account without a password never
     * authenticates.
     */
    method AuthenticateUser(phone: string, password: string) returns (r: Option<User>)
      requires repo.Valid()
      ensures r.Some? ==>
        r.value.uid in repo.users && repo.users[r.value.uid] == r.value
        && r.value.phoneNumber == phone && r.value.hashedPassword.Some?
        && Auth.VerifyPassword(Auth.CodePoints(password), r.value.hashedPassword.value, crypt)
      ensures (forall v :: v in repo.users ==> repo.users[v].phoneNumber != phone) ==> r.None?
    {
      var user := repo.GetUserByPhoneNumber(phone);
      if user.None? || user.value.hashedPassword.None?
         || !Auth.VerifyPassword(Auth.CodePoints(password), user.value.hashedPassword.value, crypt) {
        return None;
      }
      r := user;
    }
  }
}

=== FILE: wrappers.dfy ===
/** Option and Result, the failure-carrying values the rest of the model returns. */
module Wrappers {

  /** A value that may be absent: Python's `Optional[T]` / `None`. */
  datatype Option<+T> = None | Some(value: T) {

    /** The value, or `default` when absent. */
    function GetOr(default: T): T {
      match this
      case Some(v) => v
      case None => default
    }
  }

  /** The outcome of an operation that may raise: `Ok(value)` or `Err(error)`. */
  datatype Result<+T, +E> = Ok(value: T) | Err(error: E) {

    function ToOption(): Option<T> {
      match this
      case Ok(v) => Some(v)
      case Err(_) => None
    }
  }
}
